=== FILE: README.md ===
# Outage-schedule bot: decode, diff and render, in Dafny

This project models the core of a Telegram bot that publishes planned power-outage schedules for Ukrainian oblasts. The bot has three stages:

- **Decode.** It reads a schedule picture or a text page:
  - a 12 × 48 pixel grid sampled from two stacked tables;
  - regular expressions over the caption's OCR text;
  - "HH:MM до HH:MM" intervals in text lines.
- **Diff.** It merges the decoded schedule into a store keyed by (date, region, group). It reports the groups whose schedule changed.
- **Render.** It turns a 48-slot day into the reply: a 24-cell timeline, the outage intervals and the total hours without power.

The model also covers:

- the reminder rule (slot index, minute gate, quiet hours, the on→off test);
- the group-code validator and the input sanitiser;
- the region registry;
- the first version of the bot: its older grid calibration, its link and frame predicates, its date reading, its cache and its `/graph` reply.

Everything is a pure function over immutable values:

- A Python `dict` is an insertion-ordered list of entries (`Dict`).
- A schedule table is a `map` keyed by its primary key.
- A picture is an optional pixel array.
- OCR output is an optional string.
- A browser's findings are lists of optional attribute values.
- The clock is a parameter.

Modules, one per file:

- `Wrappers`, `Text`, `Dict`, `Slots`, `Seqs`: the shared vocabulary — Python's `None`, string operations, insertion-ordered dicts, slot values, and order-preserving list filters.
- `Grid`, `VolynParser`, `ImageParser`: the pixel-grid decoders and the caption regexes.
- `LvivParser`: the text-interval decoder.
- `Store`: the diff/upsert engine shared by the region workers.
- `VolynWorker`, `LvivWorker`: date/time fallbacks, the new-row reporting rule, URL selection and the retry loop.
- `Runs`, `Render`: maximal "off" runs and the current reply.
- `LegacyRender`, `LegacyServices`: the first bot's reply, update path and cache.
- `Checker`: the reminder.
- `Validators`.
- `Registry`: the region table and the adapters.

Three details of the code that the model keeps:

- `download_with_retries` retries immediately, with no wait.
- A merge with equal slots leaves the whole row, `site_updated_at` included, untouched.
- The Lviv text decoder produces 24 hourly "yes"/"no" keys and recognises only the "до" connector.

## Model

| member | source | states |
|---|---|---|
| Grid.DecodeGrid | regions/volyn/parser.py:46-85 | For any calibration: no image gives `None`. Otherwise the keys are exactly the twelve group names in row order and pairwise distinct, every row holds 48 statuses, and cell (row, col) is the classification of that cell's own sample point. |
| Grid.DecodeRow | regions/volyn/parser.py:62-85 | A row has 48 entries. Entry `col` classifies the pixel at that column's sample point. |
| Grid.Classify | regions/volyn/parser.py:74-83 | A sample outside the image is "unknown". An in-bounds sample is "on" iff B+G+R > 480 and "off" iff B+G+R ≤ 480, so an in-bounds sample is never "unknown". |
| Grid.MeanBrightness | regions/volyn/parser.py:80-82 | The mean of the three channels is above 160 exactly when their integer sum is above 480. |
| Grid.GroupNameShape | regions/volyn/parser.py:56-59 | Row `r`'s name is three characters: digit `r//2+1`, a dot, digit `r%2+1`. |
| Grid.GroupNamesDistinct | regions/volyn/parser.py:56-59 | Different rows get different names, so the dict gets twelve keys. |
| Grid.GroupKeysUnique | regions/volyn/parser.py:56-59 | A dict keyed by the twelve group names in row order has pairwise distinct keys. |
| Grid.SamplePointIsFloor | regions/volyn/parser.py:71-72 | Each sampled coordinate is the floor of the exact real coordinate, origin + step·index. |
| Grid.TablesAligned | regions/volyn/parser.py:64-69 | Column c+24 samples the same x as column c. Its y is lower by the distance between the two table origins. |
| Grid.DecodeGridLocal | regions/volyn/parser.py:46-87 | Decoding is deterministic and local. Two images of the same size that agree at the 576 sample points decode identically. |
| VolynParser.ParseImage | regions/volyn/parser.py:46-87 | The grid decoder at the 66/60.5 calibration: `None` exactly for an undecodable image, otherwise the unique keys "1.1".."6.2" in order, 48 cells each, every cell classified at its own sample point. |
| VolynParser.SampleCoordinates | regions/volyn/parser.py:62-72 | x = 205 + 66·c for the local column c. y is the floor of 447 + 60.5·row (upper table) or 1337 + 60.5·row (lower table), as a real-number inequality. |
| VolynParser.InfoFromImage | regions/volyn/parser.py:19-44 | An OCR failure gives (None, None). Otherwise the date is the leftmost `\d{2}\.\d{2}\.\d{4}` match and the time the leftmost `\d{2}:\d{2}` match, each `None` when absent; replacing newlines by spaces moves neither. |
| VolynParser.InfoShape | regions/volyn/parser.py:31-38 | A found date is ten characters of the form DD.MM.YYYY. A found time is five characters of the form HH:MM. |
| ImageParser.ParseImage | image_parser.py:38-96 | The grid decoder at the 65/61 calibration: `None` exactly for an undecodable image, otherwise twelve unique groups "1.1".."6.2" in row order, 48 cells each, every cell classified at its own sample point. |
| ImageParser.SampleCoordinates | image_parser.py:56-66 | Column c < 24 samples (205+65c, 447+61·row). Column c ≥ 24 samples (205+65(c−24), 1337+61·row). |
| ImageParser.SamplesFarApart | image_parser.py:86-89 | Distinct cells are sampled more than 16 px apart on some axis. So the radius-8 debug circles drawn during the scan never reach another cell's sample pixel. |
| Text.FindFirst | regions/volyn/parser.py:32-38 | `re.search` for a fixed-width pattern: a found text is the match at the leftmost offset where the pattern matches. `None` means the pattern matches at no offset. |
| Text.SearchIgnoresReplace | regions/volyn/parser.py:25 | Replacing "\n" by " " changes neither the position nor the text of the leftmost date or time match. |
| Text.ReplaceChar | regions/volyn/parser.py:25 | Each character equal to the old one becomes the new one, and every other character is kept in place. |
| Text.Lower | regions/volyn/worker.py:63 | Each character is lowered in place, so the length is kept. |
| Text.Strip | regions/lviv/parser.py:24 | The result neither begins nor ends with whitespace, and it sits in the input with only whitespace before and after it. It keeps every non-space character. |
| Text.StripUnique | regions/lviv/parser.py:24 | Those facts determine `str.strip()`: any text with no whitespace at either end that sits in the input with only whitespace around it is the stripped text. |
| Text.Split | regions/lviv/parser.py:43-47 | There is at least one part, and no part contains the separator. |
| Text.SplitJoin | regions/volyn/worker.py:135 | Joining the parts with the separator gives back the input. |
| Text.JoinSplit | handlers.py:40 | Joining newline-free lines with "\n" and splitting at "\n" gives back the lines. |
| Dict.Get | regions/lviv/parser.py:66 | A key reads a value iff it is in the dict, and the value read is the one stored with it. |
| Dict.Put | regions/lviv/parser.py:66 | `d[k] = v` keeps the key order for a present key, and appends a new key at the end. |
| Dict.PutGet | regions/lviv/parser.py:66 | After `d[k] = v`, k reads v and every other key reads as before. |
| Dict.PutUnique | regions/lviv/parser.py:66 | Assignment keeps the keys unique. |
| Dict.PutEachReadsLast | regions/lviv/parser.py:23-66 | After assigning `d[key(x)] = value(x)` for each element with a key, in order, a key reads a value iff some element has that key, and the value is the one of the last such element. |
| Dict.PutEachWellFormed | regions/lviv/parser.py:23-66 | The dict so built has unique keys, and every value in it is the value of some element. |
| LvivParser.GroupIdAt | regions/lviv/parser.py:27-31 | A found id is the capture of a `Група\s+(\d+\.\d+)` match at that offset: "Група", at least one whitespace, digits, a dot, then the digits up to the first non-digit. |
| LvivParser.GroupIdAtComplete | regions/lviv/parser.py:27 | Wherever the pattern matches, that match's capture is found, so `None` means no match at that offset. |
| LvivParser.GroupIdAtIff | regions/lviv/parser.py:27 | An id g is found at an offset iff the pattern matches there with capture g. |
| LvivParser.FindGroupIdFrom | regions/lviv/parser.py:27-31 | The id returned is the one the parser reads at the leftmost offset where it reads one. It is `None` iff it reads none at any offset. |
| LvivParser.FindGroupIdIsLeftmost | regions/lviv/parser.py:27-31 | `re.search` semantics: the search returns `g` iff the leftmost match of `Група\s+(\d+\.\d+)` captures `g`. |
| LvivParser.SelectGroupLines | regions/lviv/parser.py:17 | The selected lines are text nodes that mention a group, every such node is selected, and the selection is a subsequence of the nodes, so document order is kept. |
| LvivParser.SelectGroupLinesCounts | regions/lviv/parser.py:17 | Each node mentioning a group is selected exactly as often as it occurs, and no other node is selected. |
| LvivParser.FindAllPairsIsFindall | regions/lviv/parser.py:38 | The parser's pairs are what `re.findall` reports: the leftmost match from the current offset, its start and end texts, then the same from the end of that match, until no match is left. |
| LvivParser.FindallUnique | regions/lviv/parser.py:38 | That report is unique: two lists that both satisfy the `re.findall` description are equal. |
| LvivParser.TimePairAt | regions/lviv/parser.py:38 | A pair found at offset i is a match of `(\d{2}:\d{2})\s+до\s+(\d{2}:\d{2})` starting at i. Its start is the text at i..i+5, its end the second clock, and scanning resumes after that clock. |
| LvivParser.TimePairAtComplete | regions/lviv/parser.py:38 | Wherever the pattern matches at i, the parser finds exactly that match there, so `None` means no match at i. |
| LvivParser.MarkPairAt | regions/lviv/parser.py:52-58 | Marking one interval sets exactly the covered hours to "no" and leaves the others as they were. |
| LvivParser.NoPairsWithoutUntil | regions/lviv/parser.py:38 | A line that never says "до" yields no interval. |
| LvivParser.ClockFields | regions/lviv/parser.py:43-47 | `int(t.split(':')[0])` and `[1]` of a matched HH:MM are the two-digit hour and minute values. |
| LvivParser.MarkAllCovers | regions/lviv/parser.py:40-58 | Hour h is "no" exactly when some interval of the line covers it, i.e. start_hour ≤ h < end_hour + (1 if end_min > 0 else 0). Start minutes are ignored. |
| LvivParser.LineWithoutIntervals | regions/lviv/parser.py:34-64 | A line where the interval pattern matches nowhere stays "yes" for all 24 hours, whether or not it says "до". |
| LvivParser.ParseLvivHtml | regions/lviv/parser.py:7-66 | The result has unique group keys and 24 hours per group. With no group line it is `{}`. |
| LvivParser.ParseReadsLastLine | regions/lviv/parser.py:17-66 | A group has a day iff some selected line names it, and that day is the one the last line naming it describes. |
| LvivParser.AddLinesWellFormed | regions/lviv/parser.py:23-66 | Every assembled dict has unique keys and 24 hours per group. |
| LvivParser.LaterLineReplaces | regions/lviv/parser.py:66 | A later line for the same group replaces that group's day and leaves every other group unchanged. |
| LvivParser.HourlyText | regions/lviv/parser.py:34-58 | The day as text has 24 distinct keys "HH-HH+1" in hour order. Every value is "yes" or "no", and it is "no" exactly on the outage hours. |
| LvivParser.HourKeyInjective | regions/lviv/parser.py:34-57 | Different hours get different keys. |
| LvivParser.MidnightEndMarksNothing | regions/lviv/parser.py:52-54 | As written, an interval ending at "00:00" changes no hour of the day. |
| LvivParser.MidnightEndMarksToEndOfDay | regions/lviv/parser.py:49-54 | With the end-of-day rule, "HH:MM до 00:00" covers exactly the hours from HH through 23. |
| LvivParser.RulesAgreeForwards | regions/lviv/parser.py:52 | The two end rules mark the same hours for every interval that does not end before it starts. |
| Store.UpsertOne | regions/volyn/worker.py:159-180 | Equal hours leave the store untouched, `site_updated_at` included. Otherwise the row is set to the new hours and time. The group is reported iff the row held other hours, or was missing and the policy says a new row counts. |
| Store.Upsert | regions/volyn/worker.py:146-182 | The keys afterwards are the old keys plus the decoded groups' keys, and every other row is unchanged. Reported groups are decoded groups, at most one per entry. |
| Store.ExpectedReportMembers | regions/volyn/worker.py:159-180 | A group is in the reference report iff one of its decoded entries differs from the store as it was before the merge. |
| Store.UpsertReports | regions/volyn/worker.py:150-180 | With distinct decoded groups, the merge reports exactly the reference list: changed or (by policy) new groups, judged against the old store, in decode order. |
| Store.UpsertWrites | regions/volyn/worker.py:150-175 | After the merge every decoded group's row holds its decoded hours. |
| Store.ReportedOnce | regions/volyn/worker.py:179-180 | No group is reported twice. |
| VolynWorker.TargetDate | regions/volyn/worker.py:132-137 | Without an OCR date, or when it does not split into three parts, the target date is today. |
| VolynWorker.SiteTime | regions/volyn/worker.py:139-140 | A missing OCR time falls back to the current HH:MM. |
| VolynWorker.DateSplit | regions/volyn/worker.py:135 | A DD.MM.YYYY date splits at its two dots into day, month and year. |
| VolynWorker.OcrDateReordered | regions/volyn/worker.py:132-137 | A date found by OCR becomes the target date YYYY-MM-DD. |
| VolynWorker.RunUpdate | regions/volyn/worker.py:121-189 | No bytes or no decodable image gives `[]` and an unchanged store. Otherwise the keys grow by the twelve target keys, and only group names are ever reported. |
| VolynWorker.RunUpdateWrites | regions/volyn/worker.py:150-175 | Every group "1.1".."6.2" then has a row at (target date, "volyn", g) holding its 48 decoded slots. Every other row is unchanged. |
| VolynWorker.RunUpdateReports | regions/volyn/worker.py:159-180 | The report is the reference list with new rows counted only for today, in row order, with no duplicates. |
| VolynWorker.FirstMatch | regions/volyn/worker.py:58-67 | It returns the first `src` that passes the test, and `None` iff none passes. |
| VolynWorker.FramesAsOneList | regions/volyn/worker.py:74-88 | Searching frame by frame and stopping at the first hit equals searching all frame images as one list. |
| VolynWorker.SearchOrder | regions/volyn/worker.py:56-88 | The chosen URL is the first image its own test picks: page images first, then frames in order. |
| VolynWorker.UploadsOnlyOnPage | regions/volyn/worker.py:63-83 | "uploads" alone selects a page image but never a frame image. |
| LvivWorker.FirstTruthyFrom | regions/lviv/worker.py:54-64 | It returns the first truthy page among the given attempts, and `None` iff every attempt failed or was empty. |
| LvivWorker.DownloadWithRetries | regions/lviv/worker.py:54-64 | It makes 1 to 3 attempts back to back. It returns the first truthy page at the attempt that produced it, or `None` after exactly three failures. |
| LvivWorker.Stamp | regions/lviv/worker.py:79-84 | A missing date falls back to today and a missing time to the current HH:MM. |
| LvivWorker.UpdateData | regions/lviv/worker.py:66-122 | A failed download or an empty schedule gives `[]` and no writes. Otherwise the keys grow by exactly the decoded groups' keys. |
| LvivWorker.UpdateDataReports | regions/lviv/worker.py:100-115 | A group is reported iff its row was missing or held other hours. There is no check that the date is today. |
| LvivWorker.UpdateDataWrites | regions/lviv/worker.py:89-115 | Every decoded group's row then holds its decoded day, and each group is reported at most once. |
| Runs.Scan | handlers/schedules.py:32-45 | The renderer's loop produces a decomposition: maximal "off" runs, ordered without overlap, covering every "off" slot. |
| Runs.OffRuns | handlers/schedules.py:32-45 | The runs of a whole list form its decomposition. |
| Runs.DecompositionUnique | handlers/schedules.py:32-45 | The decomposition is unique, so the runs listed are the maximal runs one-to-one and in order. |
| Runs.RunsCoverCount | handlers/schedules.py:20-45 | The runs' total length equals the number of "off" slots. |
| Render.OffMask | handlers/schedules.py:35 | Position i is marked iff slot i is "off"; "on" and "unknown" both end a run. |
| Slots.SlotName | handlers/schedules.py:20-35 | Only the "off" status is stored as the string "off". |
| Render.HalfHourLabelRoundTrip | handlers/schedules.py:39-41 | The label `f"{i//2:02d}:{00 or 30}"` reads back as i. |
| Render.Timeline | handlers/schedules.py:24-28 | The timeline has 24 cells. Cell k is red iff slot 2k or 2k+1 is "off", and green otherwise. |
| Render.OffHoursText | handlers/schedules.py:20-22 | The printed total is count/2: a whole number when the count is even, and "N.5" with 2N+1 = count otherwise. |
| Render.FormatSchedule | handlers/schedules.py:18-50 | A missing or empty list gives the no-data reply, and 1–47 slots raise. Otherwise the timeline, the intervals (one per maximal run, a run at the end closing at "24:00") and the total are as above, and the update line appears iff the time is truthy. |
| Render.MessageText | handlers/schedules.py:19-51 | The no-data reply is exactly "Дані відсутні." and a raising call has no text. A schedule reply starts with the timeline and legend, holds the interval lines (or the all-day message) right after them, and ends with the total line, followed by the "Оновлено на сайті" line iff the update time is truthy. Its length is the sum of those parts, so nothing else is in it. |
| Render.NoRunsWithoutOff | handlers/schedules.py:32-45 | There are no runs iff no slot is "off". |
| Render.AllDayIffNoOff | handlers/schedules.py:47-49 | The reply shows the all-day message in the interval position iff no slot is "off". |
| Render.IntervalsAreMaximalRuns | handlers/schedules.py:32-45 | For any ordered, covering list of maximal runs, the reply lists exactly those runs as intervals. |
| Render.OffHoursFromRuns | handlers/schedules.py:20-21 | The "off" count behind the total equals the runs' total length. |
| Render.IntervalStartReadsBack | handlers/schedules.py:39-41 | An interval's first five characters read back as the run's first half-hour. |
| LegacyRender.LegacyMask | handlers.py:22-23 | An element opens or extends a run iff it equals the string "off". |
| LegacyRender.IntervalLines | handlers.py:19-37 | There is one "🔴 HH:MM - HH:MM" line per maximal run, in order; a run at the end closes at "24:00". |
| LegacyRender.FormatLegacy | handlers.py:16-40 | A missing or empty input gives "Дані відсутні або ще не оновилися.". Otherwise it is the all-day message when there is no run, and the interval lines joined by "\n" when there is one. |
| LegacyRender.IntervalLinesReadBack | handlers.py:31-40 | When there are runs, splitting the reply at "\n" gives back exactly the interval lines. |
| LegacyRender.FormatLegacyAllDay | handlers.py:39-40 | With data, the green all-day message is returned iff no element is "off". |
| LegacyRender.ListedIntervalsStartWithMarker | handlers.py:31-40 | When there are runs, the reply starts with the red marker and so is never the all-day message. |
| LegacyRender.SameRunsAsCurrent | handlers.py:22-37 | On a stored slot list, both renderers see the same "off" positions. |
| LegacyRender.GraphReplyAsWrittenIgnoresSchedule | handlers.py:75-85 | As called, on a row whose site time is not "off", the reply is the all-day message whatever the slots say. |
| LegacyRender.GraphReplyAsWrittenHidesOutage | handlers.py:75-85 | For a row with at least one "off" slot and no "off" site time, the written reply promises power all day, while the corrected reply differs. |
| LegacyRender.GraphReplyShowsOutages | handlers.py:84-85 | The corrected reply shows the all-day message iff no stored slot is "off". |
| LegacyServices.FirstWhere | services.py:44-53 | It returns the first element that passes the test, and `None` iff none passes. |
| LegacyServices.FramesAsOneList | services.py:56-79 | Frame-by-frame search with early exit equals one search over all frame images. |
| LegacyServices.SearchOrder | services.py:43-79 | A passing link always wins. Otherwise the first frame image that passes the frame test is chosen. |
| LegacyServices.PngOnlyInFrames | services.py:48-72 | A bare "a.png" is accepted in a frame but not as a link, which also needs a keyword. |
| LegacyServices.LogoLinksRejected | services.py:48 | A link containing "logo" is never chosen. |
| LegacyServices.LegacyTargetDate | services.py:120-129 | Without OCR text or a `\d{2}\.\d{2}` match, the date is today. Otherwise it is "2026-MM-DD" built from the leftmost match. |
| LegacyServices.LegacyTargetDateDigits | services.py:125-128 | A recognised date has ASCII digits in its month and day positions. |
| LegacyServices.SaveCache | database.py:64-75 | Each group's row at (date, group) is inserted or overwritten, and all other rows are unchanged. |
| LegacyServices.SaveCacheWrites | database.py:64-75 | With distinct groups, each row then holds exactly its group's slots and no site time. |
| LegacyServices.UpdateScheduleDatabase | services.py:110-138 | No bytes or an undecodable image gives `False` with no write. Otherwise the result is `True`, and all twelve groups are written under the recognised date. |
| LegacyServices.GetScheduleForGroup | database.py:77-83 | It returns the row at (date, group) if there is one, and `None` otherwise. |
| LegacyServices.SendGraph | handlers.py:64-87 | An existing row for today is answered from the cache with no refresh. A missing row triggers one refresh. When a row exists afterwards, the reply is the graph reply for that row. The reply is the failure message iff no row exists afterwards. |
| LegacyServices.UpdateKeepsNoSiteTimes | services.py:134-135 | A refresh never stores a site time. |
| LegacyServices.SendGraphNeverListsOutages | handlers.py:64-87 | On a cache the bot filled itself, `/graph` answers only with the all-day message or the failure message. |
| LegacyServices.SendGraphFailure | handlers.py:75-87 | No row and a failed refresh give the failure message. |
| Checker.SlotIndex | services/checker.py:27-28 | The index lies in 0..47 and is the half-hour containing the time. |
| Checker.AddMinutes | services/checker.py:23 | It returns the time of day `m` minutes later, modulo one day. |
| Checker.AlertTest | services/checker.py:55-58 | On in-range indices the test is `hours[cur] == 'on' and hours[next] == 'off'`. On a list it raises iff `cur` is past the end, or slot `cur` is "on" and `next` is past the end. A slot `cur` that is not "on" gives False, because `and` skips the second index. It never raises on a 48-slot list, and always raises on an hourly dict. |
| Checker.Lookup | services/checker.py:47-55 | A schedule is found iff the user's region is "volyn" and a row exists at (today, "volyn", group), and then it is that row's hours. |
| Checker.NotifyUsers | services/checker.py:40-66 | A pass that does not raise warns exactly the non-silenced users with a row whose test holds. A raising pass met a user whose row raised. |
| Checker.NotifyUsersCompletes | services/checker.py:40-66 | A pass raises iff some user's test raises. A pass that does not raise warns exactly the reference list of warned users, in query order. |
| Checker.NotifyUsersCrashPrefix | services/checker.py:40-66 | A raising pass has warned exactly the users before the first one whose test raises, in query order. |
| Checker.SelectUsers | services/checker.py:37-38 | A user is selected iff their mode is set and not "off". |
| Checker.Check | services/checker.py:16-66 | It does nothing off minutes 14/44 or when both indices are equal. Only selected, non-silenced users are warned. |
| Checker.CheckAsWrittenNeverNotifies | services/checker.py:20-33 | As written, every pass returns before querying anyone. |
| Checker.CorrectedLooksAtNextSlot | services/checker.py:23-28 | A 16-minute look-ahead from minute 14/44 lands in the next half-hour, wrapping at midnight. |
| Checker.CorrectedCheckNotifies | services/checker.py:35-58 | When today's Volyn rows hold 48 slots, the corrected pass completes and warns exactly the selected, non-quiet users whose slot is "on" now and "off" next. |
| Validators.ScanGroupIff | core/validators.py:5 | The scan accepts exactly digits, or digits, a dot and digits. |
| Validators.IsValidGroup | core/validators.py:4-6 | It accepts exactly a group code, or a group code followed by one final "\n". |
| Validators.IsValidGroupExamples | core/validators.py:4-6 | It accepts "1.1", "3", "12.2" and "1.1\n". It rejects "", "1.", ".1", "1.1.1" and "a". |
| Validators.DecodedGroupsAreValid | core/validators.py:4-6 | Every group name the two decoders produce passes the check. |
| Validators.SanitizeInput | core/validators.py:9-11 | `None` or "" gives "". Otherwise the output holds only ASCII letters, digits, '.', '-' and whitespace. It is a subsequence of the input that keeps every allowed character as often as it occurs. |
| Validators.FilterDetermined | core/validators.py:11 | Those two facts determine the output: a subsequence with the filter's character counts is the filter's output. |
| Validators.FilterConcat | core/validators.py:11 | Filtering a concatenation filters each part and concatenates the results. |
| Validators.FilterFixedPoints | core/validators.py:11 | A string is left unchanged iff all its characters are allowed. |
| Validators.SanitizeIdempotent | core/validators.py:9-11 | Sanitising twice equals sanitising once. |
| Validators.SanitizeKeeps | core/validators.py:11 | Allowed-only text comes back unchanged, and the output is a subsequence of the input. |
| Registry.AllRegions | regions/registry.py:10-30 | The list is volyn, lviv, kyiv, in that order. |
| Registry.GetRegion | regions/registry.py:17-24 | A region is found iff the code is "volyn", "lviv" or "kyiv", and the found adapter's code is the key. |
| Registry.RivneUnregistered | regions/registry.py:17-24 | The Rivne adapter exists but cannot be looked up. |
| Registry.ActiveOf | regions/registry.py:26-27 | The result holds exactly the active regions of the list: it is a subsequence of the list, each active region appears as often as in the list, and no inactive region appears. |
| Registry.ActiveIsVolyn | regions/registry.py:26-27 | With the adapters as they are, the active list is exactly [volyn]. |
| Registry.VolynGroupsAreDecoderKeys | regions/volyn/adapter.py:16-18 | The twelve Volyn codes are the decoder's keys, in the decoder's order. |
| Registry.GetSchedule | regions/volyn/adapter.py:20-35 | Volyn returns the stored hours and site time iff a row exists at (date, "volyn", group). Every other region returns `None`. |
| Registry.UpdateData | regions/volyn/adapter.py:38-40 | Volyn returns exactly the worker's result. Any other region returns the default `[]` with no writes. |
| Registry.ScheduleReadsBackUpdate | regions/volyn/adapter.py:30-34 | Reading a group back after an update that decoded a picture returns the 48 slots just written. |

## Left out

- The browser and HTTP are outside the model. This covers Selenium and Chrome, cookies, `requests`, the sleeps and the screenshots. The model starts from what they find: lists of optional `src`/`href` values, one list per frame. A frame whose switch or attribute read raised contributes only the values read before the failure.
- OCR and image decoding are outside the model. This covers Tesseract, OpenCV's `imdecode` and PIL's crop. The picture is an optional pixel array, and the caption is an optional OCR string.
- The debug drawing in `image_parser.py` is a side effect. `ImageParser.SamplesFarApart` shows it cannot change the result.
- BeautifulSoup is outside the model. The Lviv decoder starts from the page's text nodes.
- The Lviv worker calls a decoder, `parse_lviv_text_data`, that is not part of this model. It is a function parameter returning (date?, time?, schedule), with the schedule's values kept as 24-hour days.
- SQL sessions, the JSON columns and the `updated_at` timestamps are outside the model. A table is a finite map, and JSON encoding of slot lists is taken as exact.
- Concurrency and scheduling are outside the model. This covers `asyncio`, thread offloading and the scheduler. The Kyiv clock is read once per run and passed in. The source reads it at three places in regions/volyn/worker.py: once for the target date, once when the OCR time is missing, and once per group without a row. A run that straddles midnight can therefore report some new groups and not others; this is not modelled.
- The chat front-end is outside the model. This covers keyboards, the FSM, sending messages, the throttling middleware, backups, monitoring, logging and configuration. Sending a reminder is modelled as adding the user to the list of warned users; the sending errors that are caught are not modelled.
- The screenshot file that `update_schedule_database` writes and that `get_schedule_image_url` serves is not modelled.
- `\d` is modelled as the ASCII digits, whereas Python also accepts other Unicode decimal digits. `str.lower()` is modelled on ASCII letters only. `\s` and `str.strip()` use the `str.isspace()` character set.
- Floating point is not modelled. The steps 66.0 and 60.5, the mean over three channels, and "count × 0.5" are all integer formulations, proved equivalent where they matter.
- The Lviv retry loop has no wait between attempts in the code, so none is modelled.
- Checker.CorrectedCheckNotifies: at 23:44 the next slot is slot 0 of today's row, not slot 0 of tomorrow's row. The checker queries only today's row, so the correction keeps that and the warning for a midnight outage depends on today's first slot.

## Findings

| source | as written | input that shows it | evidently intended | confidence | as-written member | corrected member |
|---|---|---|---|---|---|---|
| handlers.py:84 | `format_schedule_text(schedule_data)` receives the `(hours, site_updated_at)` tuple from `get_schedule_for_group`. Neither element equals "off". | A cached day with slot 0 "off" and site time `None`: `/graph` replies "🟢 Світло буде весь день (можливо)!" | Pass the hours list, `schedule_data[0]`, so outages are listed. | high (not executed) | LegacyRender.GraphReplyAsWrittenIgnoresSchedule | LegacyRender.GraphReplyShowsOutages |
| services/checker.py:20-33 | The check runs only at minute 14 or 44 and looks 15 minutes ahead. That lands on minute 29 or 59 of the same half-hour, so the function returns at line 33 every time. | Any time, e.g. 10:14 (both slot indices are 20). | Look into the next half-hour, e.g. 16 minutes ahead, so an on→off change 16 minutes later is announced. At 23:44 the corrected look-ahead wraps to slot 0, and the model reads that slot from today's row, since the checker queries only today's date; tomorrow's first slot is not consulted. | high (not executed) | Checker.CheckAsWrittenNeverNotifies | Checker.CorrectedCheckNotifies |
| regions/lviv/parser.py:52-54 | An interval ending at "00:00" gets `range_end = 0`, so `range(start_hour, 0)` is empty. | "Група 1.1: 22:00 до 00:00" stays "yes" for hours 22 and 23. | An end at midnight closes the day, so hours 22 and 23 are "no". | medium (not executed) | LvivParser.MidnightEndMarksNothing | LvivParser.MidnightEndMarksToEndOfDay |

=== FILE: checker.dfy ===
/**
 * The outage reminder: at minute 14 or 44 of each hour, every user with
 * notifications on is warned when their group's current half-hour is "on"
 * and the half-hour a fixed number of minutes ahead is "off".
 */
module Checker {
  import opened Wrappers
  import opened Slots
  import opened Store
  import Registry

  /** A Kyiv wall-clock time of day. */
  datatype Time = Time(hour: nat, minute: nat) {
    predicate Valid() {
      hour < 24 && minute < 60
    }
  }

  const MinutesPerDay: nat := 1440

  /** The half-hour slot a time falls in: `hour * 2 + (1 if minute >= 30 else 0)`. */
  function SlotIndex(t: Time): (i: nat)
    requires t.Valid()
    ensures i < SlotsPerDay
    ensures i / 2 == t.hour && (i % 2 == 1 <==> t.minute >= 30)
    ensures i * 30 <= t.hour * 60 + t.minute < i * 30 + 30
  {
    t.hour * 2 + (if t.minute >= 30 then 1 else 0)
  }

  /** `now + timedelta(minutes=m)`, keeping only the time of day. */
  function AddMinutes(t: Time, m: nat): (r: Time)
    requires t.Valid()
    ensures r.Valid()
    ensures (r.hour * 60 + r.minute) % MinutesPerDay == (t.hour * 60 + t.minute + m) % MinutesPerDay
    ensures r.hour * 60 + r.minute < MinutesPerDay
  {
    var total := (t.hour * 60 + t.minute + m) % MinutesPerDay;
    Time(total / 60, total % 60)
  }

  /** The job proceeds only at minute 14 or 44. */
  predicate Gate(t: Time) {
    t.minute == 14 || t.minute == 44
  }

  /** The night hours a "no_night" user is not disturbed in. */
  predicate Quiet(hour: nat) {
    23 <= hour || hour < 7
  }

  /** The columns of a `users` row the job reads; `mode` is `None` for SQL `NULL`. */
  datatype User = User(id: int, mode: Option<string>, region: string, group: string)

  /** `notification_mode != "off"` in SQL: a `NULL` mode is not selected either. */
  predicate Selected(u: User) {
    u.mode.Some? && u.mode.value != "off"
  }

  predicate Silenced(u: User, now: Time) {
    u.mode == Some("no_night") && Quiet(now.hour)
  }

  /**
   * `hours[cur] == 'on' and hours[nxt] == 'off'` on the stored list, `None`
   * when it raises: an index past the end of a list, or any integer index
   * of a stored hourly dict. The `and` skips the second index when the
   * first slot is not "on". `Lookup` returns only rows at Volyn keys, which
   * are half-hourly, so the hourly case does not arise from `Check`.
   */
  function AlertTest(hours: Hours, cur: nat, nxt: nat): (r: Option<bool>)
    ensures hours.HalfHourly? && cur < |hours.slots| && nxt < |hours.slots| ==>
              r == Some(hours.slots[cur] == On && hours.slots[nxt] == Off)
    ensures hours.HalfHourly? ==>
              (r.None? <==> cur >= |hours.slots| || (hours.slots[cur] == On && nxt >= |hours.slots|))
    ensures hours.HalfHourly? && cur < |hours.slots| && hours.slots[cur] != On ==> r == Some(false)
    ensures hours.HalfHourly? && |hours.slots| >= SlotsPerDay && cur < SlotsPerDay && nxt < SlotsPerDay ==> r.Some?
    ensures hours.Hourly? ==> r.None?
  {
    match hours
    case Hourly(_) => None
    case HalfHourly(s) =>
      if cur >= |s| then None
      else if s[cur] != On then Some(false)
      else if nxt >= |s| then None
      else Some(s[nxt] == Off)
  }

  /** The schedule the job reads for a user: `None` for an unknown region or a missing row. */
  function Lookup(db: Db, today: string, u: User): (r: Option<Hours>)
    ensures r.Some? <==> u.region == "volyn" && Key(today, "volyn", u.group) in db
    ensures r.Some? ==> r.value == db[Key(today, "volyn", u.group)].hours
  {
    match Registry.GetRegion(u.region)
    case None => None
    case Some(region) =>
      match Registry.GetSchedule(region, db, u.group, today)
      case None => None
      case Some(view) => Some(view.hours)
  }

  /** What one pass sends, and whether it stopped on an uncaught exception. */
  datatype Outcome = Outcome(sent: seq<User>, crashed: bool)

  /** The loop over the selected users, in query order, from `users[0]`. */
  function NotifyUsers(db: Db, today: string, now: Time, cur: nat, nxt: nat, users: seq<User>): (r: Outcome)
    ensures forall u :: u in r.sent ==> u in users && !Silenced(u, now)
    ensures !r.crashed ==> forall u :: u in users ==>
              (u in r.sent <==> !Silenced(u, now) && Lookup(db, today, u).Some?
                                 && AlertTest(Lookup(db, today, u).value, cur, nxt) == Some(true))
    ensures r.crashed ==> exists u :: u in users && !Silenced(u, now) && Lookup(db, today, u).Some?
                                     && AlertTest(Lookup(db, today, u).value, cur, nxt).None?
    ensures |r.sent| <= |users|
    decreases |users|
  {
    if |users| == 0 then Outcome([], false)
    else
      var u := users[0];
      var rest := NotifyUsers(db, today, now, cur, nxt, users[1..]);
      if Silenced(u, now) then rest
      else
        match Lookup(db, today, u)
        case None => rest
        case Some(hours) =>
          match AlertTest(hours, cur, nxt)
          case None => Outcome([], true)
          case Some(alert) =>
            if alert then Outcome([u] + rest.sent, rest.crashed) else rest
  }

  /** The loop body warns `u`: not silenced, a row found, and its test holds. */
  predicate Warns(db: Db, today: string, now: Time, cur: nat, nxt: nat, u: User) {
    && !Silenced(u, now) && Lookup(db, today, u).Some?
    && AlertTest(Lookup(db, today, u).value, cur, nxt) == Some(true)
  }

  /** The loop body raises at `u`: not silenced, a row found, and its test raises. */
  predicate Raises(db: Db, today: string, now: Time, cur: nat, nxt: nat, u: User) {
    && !Silenced(u, now) && Lookup(db, today, u).Some?
    && AlertTest(Lookup(db, today, u).value, cur, nxt).None?
  }

  /** Reference: the users of `users` the loop body warns, in order. */
  function Warned(db: Db, today: string, now: Time, cur: nat, nxt: nat, users: seq<User>): seq<User>
    decreases |users|
  {
    if |users| == 0 then []
    else (if Warns(db, today, now, cur, nxt, users[0]) then [users[0]] else [])
         + Warned(db, today, now, cur, nxt, users[1..])
  }

  /**
   * A pass raises iff some user's test raises; a pass that does not raise
   * warns exactly the reference list, in query order.
   */
  lemma {:induction false} NotifyUsersCompletes(db: Db, today: string, now: Time, cur: nat, nxt: nat, users: seq<User>)
    ensures var r := NotifyUsers(db, today, now, cur, nxt, users);
            && (!r.crashed <==> forall k :: 0 <= k < |users| ==> !Raises(db, today, now, cur, nxt, users[k]))
            && (!r.crashed ==> r.sent == Warned(db, today, now, cur, nxt, users))
    decreases |users|
  {
    if |users| > 0 {
      var u, tail := users[0], users[1..];
      NotifyUsersCompletes(db, today, now, cur, nxt, tail);
      var rest := NotifyUsers(db, today, now, cur, nxt, tail);
      var r := NotifyUsers(db, today, now, cur, nxt, users);
      assert forall k :: 0 < k < |users| ==> users[k] == tail[k - 1];
      if !Raises(db, today, now, cur, nxt, u) {
        assert r.sent == (if Warns(db, today, now, cur, nxt, u) then [u] else []) + rest.sent;
        assert r.crashed == rest.crashed;
      }
    }
  }

  /**
   * A raising pass has warned exactly the users before the first one whose
   * test raises, in query order; those messages went out before the raise.
   */
  lemma {:induction false} NotifyUsersCrashPrefix(db: Db, today: string, now: Time, cur: nat, nxt: nat, users: seq<User>)
    ensures var r := NotifyUsers(db, today, now, cur, nxt, users);
            r.crashed ==> exists k :: && 0 <= k < |users| && Raises(db, today, now, cur, nxt, users[k])
                                      && (forall j :: 0 <= j < k ==> !Raises(db, today, now, cur, nxt, users[j]))
                                      && r.sent == Warned(db, today, now, cur, nxt, users[..k])
    decreases |users|
  {
    if |users| > 0 {
      var u, tail := users[0], users[1..];
      var r := NotifyUsers(db, today, now, cur, nxt, users);
      if Raises(db, today, now, cur, nxt, u) {
        assert r == Outcome([], true);
        assert users[..0] == [];
      } else {
        NotifyUsersCrashPrefix(db, today, now, cur, nxt, tail);
        var rest := NotifyUsers(db, today, now, cur, nxt, tail);
        assert r.sent == (if Warns(db, today, now, cur, nxt, u) then [u] else []) + rest.sent;
        assert r.crashed == rest.crashed;
        if rest.crashed {
          var k :| && 0 <= k < |tail| && Raises(db, today, now, cur, nxt, tail[k])
                   && (forall j :: 0 <= j < k ==> !Raises(db, today, now, cur, nxt, tail[j]))
                   && rest.sent == Warned(db, today, now, cur, nxt, tail[..k]);
          WarnedPrefixStep(db, today, now, cur, nxt, users, k);
          NoRaiseBeforeStep(db, today, now, cur, nxt, users, k);
        }
      }
    }
  }

  /** The reference list of a prefix of length `k + 1`: the first user, then the tail's prefix. */
  lemma WarnedPrefixStep(db: Db, today: string, now: Time, cur: nat, nxt: nat, users: seq<User>, k: nat)
    requires k < |users| - 1
    ensures Warned(db, today, now, cur, nxt, users[..k + 1])
            == (if Warns(db, today, now, cur, nxt, users[0]) then [users[0]] else [])
               + Warned(db, today, now, cur, nxt, users[1..][..k])
  {
    assert users[..k + 1][0] == users[0] && users[..k + 1][1..] == users[1..][..k];
  }

  /** No user before `k + 1` raises when the first does not and none of the tail's first `k` does. */
  lemma NoRaiseBeforeStep(db: Db, today: string, now: Time, cur: nat, nxt: nat, users: seq<User>, k: nat)
    requires k < |users| - 1 && !Raises(db, today, now, cur, nxt, users[0])
    requires forall j :: 0 <= j < k ==> !Raises(db, today, now, cur, nxt, users[1..][j])
    requires Raises(db, today, now, cur, nxt, users[1..][k])
    ensures forall j :: 0 <= j < k + 1 ==> !Raises(db, today, now, cur, nxt, users[j])
    ensures Raises(db, today, now, cur, nxt, users[k + 1])
  {
    assert forall j :: 0 < j < k + 1 ==> users[j] == users[1..][j - 1];
  }

  /** The users the query returns, in their order. */
  function SelectUsers(users: seq<User>): (r: seq<User>)
    ensures forall u :: u in r <==> u in users && Selected(u)
    ensures |r| <= |users|
  {
    if |users| == 0 then []
    else (if Selected(users[0]) then [users[0]] else []) + SelectUsers(users[1..])
  }

  /** The look-ahead as written, in minutes. */
  const Lookahead: nat := 15

  /** `check_and_notify_upcoming_outages` with a given look-ahead. */
  function Check(db: Db, today: string, now: Time, lookahead: nat, users: seq<User>): (r: Outcome)
    requires now.Valid()
    ensures !Gate(now) ==> r == Outcome([], false)
    ensures SlotIndex(now) == SlotIndex(AddMinutes(now, lookahead)) ==> r == Outcome([], false)
    ensures forall u :: u in r.sent ==> u in users && Selected(u) && !Silenced(u, now)
  {
    if !Gate(now) then Outcome([], false)
    else
      var cur := SlotIndex(now);
      var nxt := SlotIndex(AddMinutes(now, lookahead));
      if cur == nxt then Outcome([], false)
      else NotifyUsers(db, today, now, cur, nxt, SelectUsers(users))
  }

  /**
   * As written, the job never warns anyone: from minute 14 or 44, fifteen
   * minutes on is minute 29 or 59 of the same half-hour.
   */
  lemma CheckAsWrittenNeverNotifies(db: Db, today: string, now: Time, users: seq<User>)
    requires now.Valid()
    ensures Check(db, today, now, Lookahead, users) == Outcome([], false)
  {
    if Gate(now) {
      var later := AddMinutes(now, Lookahead);
      assert later == Time(now.hour, now.minute + 15);
    }
  }

  /** A look-ahead that reaches the next half-hour from minute 14 or 44. */
  const CorrectedLookahead: nat := 16

  /** From minute 14 or 44, sixteen minutes on is the start of the next half-hour, wrapping at midnight. */
  lemma CorrectedLooksAtNextSlot(now: Time)
    requires now.Valid() && Gate(now)
    ensures SlotIndex(AddMinutes(now, CorrectedLookahead)) == (SlotIndex(now) + 1) % SlotsPerDay
  {
    var later := AddMinutes(now, CorrectedLookahead);
    if now.minute == 14 {
      assert later == Time(now.hour, 30);
    } else if now.hour < 23 {
      assert later == Time(now.hour + 1, 0);
    } else {
      assert later == Time(0, 0);
    }
  }

  /**
   * With the corrected look-ahead and stored days of 48 slots, a pass at
   * minute 14 or 44 completes and warns exactly the selected, not silenced
   * users whose slot now is "on" and whose next slot is "off". At 23:44
   * the next slot wraps to slot 0, read from today's row like the current one.
   */
  lemma CorrectedCheckNotifies(db: Db, today: string, now: Time, users: seq<User>)
    requires now.Valid() && Gate(now)
    requires forall g :: Key(today, "volyn", g) in db ==>
               db[Key(today, "volyn", g)].hours.HalfHourly? && |db[Key(today, "volyn", g)].hours.slots| == SlotsPerDay
    ensures var r := Check(db, today, now, CorrectedLookahead, users);
            var cur := SlotIndex(now);
            var nxt := (cur + 1) % SlotsPerDay;
            && !r.crashed
            && forall u :: u in users ==>
                 (u in r.sent <==> && Selected(u) && !Silenced(u, now)
                                   && Lookup(db, today, u).Some?
                                   && Lookup(db, today, u).value.slots[cur] == On
                                   && Lookup(db, today, u).value.slots[nxt] == Off)
  {
    CorrectedLooksAtNextSlot(now);
    var cur := SlotIndex(now);
    var nxt := (cur + 1) % SlotsPerDay;
    var selected := SelectUsers(users);
    var r := NotifyUsers(db, today, now, cur, nxt, selected);
    assert Check(db, today, now, CorrectedLookahead, users) == r;
    forall u | u in selected && Lookup(db, today, u).Some?
      ensures AlertTest(Lookup(db, today, u).value, cur, nxt).Some?
    {
      assert Key(today, "volyn", u.group) in db;
    }
  }
}

=== FILE: dict.dfy ===
/**
 * Python dictionaries as the bot builds them: entries kept in insertion
 * order, and assigning to an existing key replaces its value in place.
 */
module Dict {
  import opened Wrappers

  datatype Entry<V> = Entry(key: string, value: V)

  type Dict<V> = seq<Entry<V>>

  /** The keys in iteration order, as `list(d.keys())`. */
  function Keys<V>(d: Dict<V>): (ks: seq<string>)
    ensures |ks| == |d|
    ensures forall i :: 0 <= i < |d| ==> ks[i] == d[i].key
  {
    seq(|d|, i requires 0 <= i < |d| => d[i].key)
  }

  /** No key is listed twice, which every Python dict guarantees. */
  predicate UniqueKeys<V>(d: Dict<V>) {
    forall i, j :: 0 <= i < j < |d| ==> d[i].key != d[j].key
  }

  /** `d.get(k)`. */
  function Get<V>(d: Dict<V>, k: string): (r: Option<V>)
    ensures r.Some? <==> k in Keys(d)
    ensures r.Some? ==> exists i :: 0 <= i < |d| && d[i] == Entry(k, r.value)
    decreases |d|
  {
    if |d| == 0 then None
    else if d[0].key == k then Some(d[0].value)
    else
      var r := Get(d[1..], k);
      assert Keys(d) == [d[0].key] + Keys(d[1..]);
      assert r.Some? ==> d[1..][0..] == d[1..];
      r
  }

  /** In a dict with unique keys, the value stored with a key is the one `Get` finds. */
  lemma {:induction false} GetAt<V>(d: Dict<V>, i: nat)
    requires UniqueKeys(d) && i < |d|
    ensures Get(d, d[i].key) == Some(d[i].value)
    decreases |d|
  {
    if i > 0 {
      GetAt(d[1..], i - 1);
    }
  }

  /** `d[k] = v`: an existing key keeps its position, a new key goes last. */
  function Put<V>(d: Dict<V>, k: string, v: V): (r: Dict<V>)
    ensures k in Keys(d) ==> Keys(r) == Keys(d)
    ensures k !in Keys(d) ==> Keys(r) == Keys(d) + [k]
    decreases |d|
  {
    if |d| == 0 then
      ConsKeys(Entry(k, v), []);
      [Entry(k, v)]
    else if d[0].key == k then
      KeysUncons(d);
      ConsKeys(Entry(k, v), d[1..]);
      [Entry(k, v)] + d[1..]
    else
      var tail := Put(d[1..], k, v);
      KeysUncons(d);
      ConsKeys(d[0], tail);
      [d[0]] + tail
  }

  lemma ConsKeys<V>(e: Entry<V>, rest: Dict<V>)
    ensures Keys([e] + rest) == [e.key] + Keys(rest)
  {
  }

  lemma KeysUncons<V>(d: Dict<V>)
    requires |d| > 0
    ensures Keys(d) == [d[0].key] + Keys(d[1..])
  {
  }

  /** After `d[k] = v`, `k` reads back `v` and every other key reads as before. */
  lemma {:induction false} PutGet<V>(d: Dict<V>, k: string, v: V)
    ensures Get(Put(d, k, v), k) == Some(v)
    ensures forall k' :: k' != k ==> Get(Put(d, k, v), k') == Get(d, k')
    decreases |d|
  {
    if |d| > 0 && d[0].key != k {
      PutGet(d[1..], k, v);
      assert Put(d, k, v)[1..] == Put(d[1..], k, v);
    } else if |d| > 0 {
      assert Put(d, k, v)[1..] == d[1..];
    }
  }

  /** Assignment keeps the keys of a dict unique. */
  lemma {:induction false} PutUnique<V>(d: Dict<V>, k: string, v: V)
    requires UniqueKeys(d)
    ensures UniqueKeys(Put(d, k, v))
    decreases |d|
  {
    var r := Put(d, k, v);
    assert Keys(r) == Keys(d) || Keys(r) == Keys(d) + [k];
    forall i, j | 0 <= i < j < |r| ensures r[i].key != r[j].key {
      assert Keys(r)[i] == r[i].key && Keys(r)[j] == r[j].key;
      if j < |d| {
        assert Keys(d)[i] == d[i].key && Keys(d)[j] == d[j].key;
      } else {
        assert k !in Keys(d);
        assert Keys(d)[i] == d[i].key;
      }
    }
  }

  /** Every entry of `Put(d, k, v)` is the new one or an entry already in `d`. */
  lemma {:induction false} PutEntries<V>(d: Dict<V>, k: string, v: V)
    ensures forall e :: e in Put(d, k, v) ==> e == Entry(k, v) || e in d
    decreases |d|
  {
    if |d| > 0 && d[0].key != k {
      PutEntries(d[1..], k, v);
      assert Put(d, k, v) == [d[0]] + Put(d[1..], k, v);
      assert forall e :: e in d[1..] ==> e in d;
    } else if |d| > 0 {
      assert Put(d, k, v) == [Entry(k, v)] + d[1..];
      assert forall e :: e in d[1..] ==> e in d;
    }
  }

  /** In a dict with unique keys, the last key does not occur among the earlier ones. */
  lemma LastKeyFresh<V>(d: Dict<V>)
    requires UniqueKeys(d) && |d| > 0
    ensures d[|d| - 1].key !in Keys(d[..|d| - 1])
    ensures UniqueKeys(d[..|d| - 1])
  {
    var init := d[..|d| - 1];
    forall i | 0 <= i < |init| ensures Keys(init)[i] != d[|d| - 1].key {
      assert init[i] == d[i];
    }
  }

  /**
   * `for x in xs: if key(x) is not None: d[key(x)] = value(x)` from an
   * empty dict: a later element overwrites an earlier one with the same key.
   */
  function PutEach<X, V>(xs: seq<X>, key: X -> Option<string>, value: X -> V): Dict<V>
    decreases |xs|
  {
    if |xs| == 0 then []
    else
      var d := PutEach(xs[..|xs| - 1], key, value);
      var x := xs[|xs| - 1];
      if key(x).Some? then Put(d, key(x).value, value(x)) else d
  }

  /**
   * A key reads back exactly when some element has it, and then it holds
   * the value of the last element that has it.
   */
  lemma {:induction false} PutEachReadsLast<X, V>(xs: seq<X>, key: X -> Option<string>, value: X -> V, g: string)
    ensures Get(PutEach(xs, key, value), g).Some? <==> exists k :: 0 <= k < |xs| && key(xs[k]) == Some(g)
    ensures forall k :: && 0 <= k < |xs| && key(xs[k]) == Some(g)
                        && (forall k' :: k < k' < |xs| ==> key(xs[k']) != Some(g))
                        ==> Get(PutEach(xs, key, value), g) == Some(value(xs[k]))
    decreases |xs|
  {
    if |xs| > 0 {
      var n := |xs| - 1;
      var init, x := xs[..n], xs[n];
      PutEachReadsLast(init, key, value, g);
      var d := PutEach(init, key, value);
      assert forall k :: 0 <= k < n ==> xs[k] == init[k];
      if key(x).Some? {
        PutGet(d, key(x).value, value(x));
      }
      if key(x) != Some(g) {
        assert Get(PutEach(xs, key, value), g) == Get(d, g);
      }
    }
  }

  /** The built dict has unique keys, and each value comes from some element. */
  lemma {:induction false} PutEachWellFormed<X, V>(xs: seq<X>, key: X -> Option<string>, value: X -> V)
    ensures UniqueKeys(PutEach(xs, key, value))
    ensures forall e :: e in PutEach(xs, key, value) ==> exists k :: 0 <= k < |xs| && e.value == value(xs[k])
    decreases |xs|
  {
    if |xs| > 0 {
      var n := |xs| - 1;
      var init, x := xs[..n], xs[n];
      PutEachWellFormed(init, key, value);
      var d := PutEach(init, key, value);
      assert forall k :: 0 <= k < n ==> xs[k] == init[k];
      if key(x).Some? {
        PutUnique(d, key(x).value, value(x));
        PutEntries(d, key(x).value, value(x));
      }
    }
  }
}

=== FILE: grid.dfy ===
/**
 * The pixel-grid decoder shared by both image parsers. The published
 * picture holds two stacked tables of 12 group rows: the upper one covers
 * half-hours 0..23, the lower one 24..47. One pixel is sampled per cell at
 * a calibrated coordinate and classified by its mean brightness.
 */
module Grid {
  import opened Wrappers
  import opened Text
  import opened Slots
  import opened Dict

  type byte = x: int | 0 <= x < 256

  /** One pixel in OpenCV's channel order: blue, green, red. */
  datatype Pixel = Pixel(b: byte, g: byte, r: byte)

  /** A decoded colour image: `height` rows of `width` pixels, read as `img[y, x]`. */
  datatype Raster = Raster(height: nat, width: nat, pixels: seq<seq<Pixel>>) {
    predicate Valid() {
      |pixels| == height && forall y :: 0 <= y < |pixels| ==> |pixels[y]| == width
    }
  }

  type Image = r: Raster | r.Valid() witness Raster(0, 0, [])

  type pos = x: int | x > 0 witness 1

  /**
   * Where the cells of the two tables are. A step is `stepX / den` pixels
   * (resp. `stepY / den`), so that a fractional step such as 60.5 stays exact.
   */
  datatype Layout = Layout(topX: nat, topY: nat, bottomX: nat, bottomY: nat,
                           stepX: nat, stepY: nat, den: pos)

  const GroupRows: nat := 12
  const ColumnsPerTable: nat := 24

  /** A slot is `on` when the mean of its three channels exceeds this. */
  const BrightnessThreshold: nat := 160

  datatype Point = Point(x: nat, y: nat)

  /**
   * The pixel sampled for group row `row` and half-hour `col`: the upper
   * table for `col < 24`, the lower table for the rest, the local column
   * restarting at 0. `int()` of a positive number is its floor, which is
   * what integer division gives.
   */
  function SamplePoint(layout: Layout, row: nat, col: nat): Point
    requires col < SlotsPerDay
  {
    if col < ColumnsPerTable then
      Point(layout.topX + Offset(col, layout.stepX, layout.den),
            layout.topY + Offset(row, layout.stepY, layout.den))
    else
      Point(layout.bottomX + Offset(col - ColumnsPerTable, layout.stepX, layout.den),
            layout.bottomY + Offset(row, layout.stepY, layout.den))
  }

  /** `int(index * step)` for the step `step / den`. */
  function Offset(index: nat, step: nat, den: pos): nat {
    var product: nat := index * step;
    product / den
  }

  function ChannelSum(p: Pixel): nat {
    p.b + p.g + p.r
  }

  /** Mean brightness above the threshold, compared without dividing by three. */
  predicate IsBright(p: Pixel) {
    ChannelSum(p) > 3 * BrightnessThreshold
  }

  predicate InBounds(img: Image, pt: Point) {
    pt.y < img.height && pt.x < img.width
  }

  /** The status of one sampled cell. */
  function Classify(img: Image, pt: Point): (s: Slot)
    ensures s == Unknown <==> !InBounds(img, pt)
    ensures s == On <==> InBounds(img, pt) && ChannelSum(img.pixels[pt.y][pt.x]) > 480
    ensures s == Off <==> InBounds(img, pt) && ChannelSum(img.pixels[pt.y][pt.x]) <= 480
  {
    if pt.y >= img.height || pt.x >= img.width then Unknown
    else if IsBright(img.pixels[pt.y][pt.x]) then On
    else Off
  }

  /** The group name of row `row`: `f"{row // 2 + 1}.{row % 2 + 1}"`. */
  function GroupName(row: nat): string {
    NatToString(row / 2 + 1) + "." + NatToString(row % 2 + 1)
  }

  /** The twelve group names in row order. */
  function GroupNames(): (names: seq<string>)
    ensures |names| == GroupRows
    ensures forall row :: 0 <= row < GroupRows ==> names[row] == GroupName(row)
  {
    seq(GroupRows, row requires 0 <= row < GroupRows => GroupName(row))
  }

  /** The row's 48 statuses, upper table first. */
  function DecodeRow(layout: Layout, img: Image, row: nat): (slots: seq<Slot>)
    ensures |slots| == SlotsPerDay
    ensures forall col :: 0 <= col < SlotsPerDay ==>
              slots[col] == Classify(img, SamplePoint(layout, row, col))
  {
    seq(SlotsPerDay, col requires 0 <= col < SlotsPerDay => Classify(img, SamplePoint(layout, row, col)))
  }

  /**
   * `parse_image` for any calibration: `None` when the bytes did not decode
   * to an image, otherwise one entry per group row in row order, each cell
   * the classification of its own sample point.
   */
  function DecodeGrid(layout: Layout, img: Option<Image>): (r: Option<Dict<seq<Slot>>>)
    ensures r.None? <==> img.None?
    ensures r.Some? ==> Keys(r.value) == GroupNames() && UniqueKeys(r.value)
    ensures r.Some? ==> forall row :: 0 <= row < |r.value| ==> |r.value[row].value| == SlotsPerDay
    ensures r.Some? ==> forall row, col :: 0 <= row < GroupRows && 0 <= col < SlotsPerDay ==>
              r.value[row].value[col] == Classify(img.value, SamplePoint(layout, row, col))
  {
    match img
    case None => None
    case Some(im) =>
      var d := seq(GroupRows, row requires 0 <= row < GroupRows => Entry(GroupName(row), DecodeRow(layout, im, row)));
      assert Keys(d) == GroupNames();
      GroupKeysUnique(d);
      Some(d)
  }

  /** Group names are "1.1", "1.2", ..., "6.2": three characters, digit-dot-digit. */
  lemma GroupNameShape(row: nat)
    requires row < GroupRows
    ensures |GroupName(row)| == 3 && GroupName(row)[1] == '.'
    ensures IsDigit(GroupName(row)[0]) && DigitValue(GroupName(row)[0]) == row / 2 + 1
    ensures IsDigit(GroupName(row)[2]) && DigitValue(GroupName(row)[2]) == row % 2 + 1
  {
  }

  /** Distinct rows get distinct names, so the decoded dict has twelve keys. */
  lemma GroupNamesDistinct(a: nat, b: nat)
    requires a < GroupRows && b < GroupRows && a != b
    ensures GroupName(a) != GroupName(b)
  {
    GroupNameShape(a);
    GroupNameShape(b);
    assert a / 2 != b / 2 || a % 2 != b % 2;
    assert GroupName(a)[0] != GroupName(b)[0] || GroupName(a)[2] != GroupName(b)[2];
  }

  /** A dict keyed by the twelve group names in row order has unique keys. */
  lemma GroupKeysUnique<V>(d: Dict<V>)
    requires Keys(d) == GroupNames()
    ensures UniqueKeys(d)
  {
    forall i, j | 0 <= i < j < |d| ensures d[i].key != d[j].key {
      assert Keys(d)[i] == GroupName(i) && Keys(d)[j] == GroupName(j);
      GroupNamesDistinct(i, j);
    }
  }

  /**
   * The sampled coordinate is the floor of the exact one: `y * den` lies in
   * `[origin * den + row * stepY, ... + den)`, and likewise for `x`.
   */
  lemma SamplePointIsFloor(layout: Layout, row: nat, col: nat)
    requires col < SlotsPerDay
    ensures var pt := SamplePoint(layout, row, col);
            var originY := if col < ColumnsPerTable then layout.topY else layout.bottomY;
            pt.y * layout.den <= originY * layout.den + row * layout.stepY < (pt.y + 1) * layout.den
    ensures var pt := SamplePoint(layout, row, col);
            var originX := if col < ColumnsPerTable then layout.topX else layout.bottomX;
            var local := if col < ColumnsPerTable then col else col - ColumnsPerTable;
            pt.x * layout.den <= originX * layout.den + local * layout.stepX < (pt.x + 1) * layout.den
  {
    var originY := if col < ColumnsPerTable then layout.topY else layout.bottomY;
    var originX := if col < ColumnsPerTable then layout.topX else layout.bottomX;
    var local := if col < ColumnsPerTable then col else col - ColumnsPerTable;
    CoordinateIsFloor(originY, row, layout.stepY, layout.den);
    CoordinateIsFloor(originX, local, layout.stepX, layout.den);
  }

  /** `origin + int(index * step / den)` is the floor of the exact coordinate. */
  lemma CoordinateIsFloor(origin: nat, index: nat, step: nat, den: pos)
    ensures var v := origin + Offset(index, step, den);
            v * den <= origin * den + index * step < (v + 1) * den
  {
    var off := Offset(index, step, den);
    FloorDiv(index * step, den);
    assert (origin + off) * den == origin * den + off * den;
    assert (origin + off + 1) * den == origin * den + (off + 1) * den;
  }

  lemma FloorDiv(n: nat, d: pos)
    ensures (n / d) * d <= n < (n / d + 1) * d
  {
  }

  /** The mean of the three channels exceeds 160 exactly when their sum exceeds 480. */
  lemma MeanBrightness(p: Pixel)
    ensures (ChannelSum(p) as real) / 3.0 > BrightnessThreshold as real <==> IsBright(p)
  {
  }

  /** The upper and lower tables share their columns; only the row origin moves. */
  lemma TablesAligned(layout: Layout, row: nat, col: nat)
    requires col < ColumnsPerTable && layout.topX == layout.bottomX
    ensures SamplePoint(layout, row, col + ColumnsPerTable).x == SamplePoint(layout, row, col).x
    ensures SamplePoint(layout, row, col + ColumnsPerTable).y - SamplePoint(layout, row, col).y
            == layout.bottomY - layout.topY
  {
  }

  /** `a` and `b` have the same size and agree at every in-bounds sample point. */
  predicate SameSamples(layout: Layout, a: Image, b: Image) {
    && a.height == b.height && a.width == b.width
    && forall row, col :: 0 <= row < GroupRows && 0 <= col < SlotsPerDay ==>
         SamplePixelsAgree(a, b, SamplePoint(layout, row, col))
  }

  predicate SamplePixelsAgree(a: Image, b: Image, pt: Point) {
    InBounds(a, pt) && InBounds(b, pt) ==> a.pixels[pt.y][pt.x] == b.pixels[pt.y][pt.x]
  }

  /**
   * The decoded schedule depends only on the image size and the pixels at
   * the sample points: two images that agree there decode alike.
   */
  lemma DecodeGridLocal(layout: Layout, a: Image, b: Image)
    requires SameSamples(layout, a, b)
    ensures DecodeGrid(layout, Some(a)) == DecodeGrid(layout, Some(b))
  {
    var da := DecodeGrid(layout, Some(a)).value;
    var db := DecodeGrid(layout, Some(b)).value;
    forall row | 0 <= row < GroupRows
      ensures da[row] == db[row]
    {
      forall col | 0 <= col < SlotsPerDay
        ensures DecodeRow(layout, a, row)[col] == DecodeRow(layout, b, row)[col]
      {
        assert SamplePixelsAgree(a, b, SamplePoint(layout, row, col));
      }
      assert DecodeRow(layout, a, row) == DecodeRow(layout, b, row);
      assert da[row] == Entry(GroupName(row), DecodeRow(layout, a, row));
      assert db[row] == Entry(GroupName(row), DecodeRow(layout, b, row));
    }
    assert |da| == |db|;
    assert da == db;
  }
}

=== FILE: image_parser.dfy ===
/**
 * The first image parser: the same grid decoder with the older
 * calibration of whole-pixel steps 65 and 61.
 */
module ImageParser {
  import opened Wrappers
  import opened Slots
  import opened Dict
  import Grid

  /** Table origins (205, 447) and (205, 1337); steps 65 and 61. */
  const Calibration: Grid.Layout := Grid.Layout(205, 447, 205, 1337, 65, 61, 1)

  /**
   * `parse_image`: `None` for an undecodable image, otherwise twelve rows of 48 slots.
   * The source repeats this function in two files; it differs from `VolynParser.ParseImage`
   * only in the layout constants of `Calibration`.
   */
  function ParseImage(img: Option<Grid.Image>): (r: Option<Dict<seq<Slot>>>)
    ensures r.None? <==> img.None?
    ensures r.Some? ==> Keys(r.value) == Grid.GroupNames() && UniqueKeys(r.value)
    ensures r.Some? ==> forall row :: 0 <= row < |r.value| ==> |r.value[row].value| == SlotsPerDay
    ensures r.Some? ==> forall row, col :: 0 <= row < Grid.GroupRows && 0 <= col < SlotsPerDay ==>
              r.value[row].value[col] == Grid.Classify(img.value, Grid.SamplePoint(Calibration, row, col))
  {
    Grid.DecodeGrid(Calibration, img)
  }

  /** Column `c < 24` samples (205 + 65 c, 447 + 61 row); column `c >= 24` samples (205 + 65 (c - 24), 1337 + 61 row). */
  lemma SampleCoordinates(row: nat, col: nat)
    requires col < SlotsPerDay
    ensures col < 24 ==> Grid.SamplePoint(Calibration, row, col) == Grid.Point(205 + 65 * col, 447 + 61 * row)
    ensures col >= 24 ==> Grid.SamplePoint(Calibration, row, col) == Grid.Point(205 + 65 * (col - 24), 1337 + 61 * row)
  {
  }

  /**
   * Two different cells are sampled more than 16 pixels apart in x or in y,
   * so the radius-8 debug marks drawn on the image in debug mode never
   * cover another cell's sample pixel and cannot change the result.
   */
  lemma SamplesFarApart(r1: nat, c1: nat, r2: nat, c2: nat)
    requires r1 < Grid.GroupRows && r2 < Grid.GroupRows && c1 < SlotsPerDay && c2 < SlotsPerDay
    requires (r1, c1) != (r2, c2)
    ensures var p := Grid.SamplePoint(Calibration, r1, c1);
            var q := Grid.SamplePoint(Calibration, r2, c2);
            p.x - q.x > 16 || q.x - p.x > 16 || p.y - q.y > 16 || q.y - p.y > 16
  {
    SampleCoordinates(r1, c1);
    SampleCoordinates(r2, c2);
  }
}

=== FILE: legacy_render.dfy ===
/**
 * The first bot's schedule reply: the outage intervals only, each on its
 * own line, or a hopeful all-day message. Its input is whatever Python
 * value the handler passes, so the model keeps the elements as values.
 */
module LegacyRender {
  import opened Wrappers
  import opened Text
  import opened Slots
  import opened Runs
  import Render

  /** The element kinds the reply can meet: strings, lists of slots and `None`. */
  datatype PyValue = PyStr(s: string) | PyList(items: seq<Slot>) | PyNone

  /** `status == 'off'`: only the string "off" compares equal. */
  function LegacyMask(xs: seq<PyValue>): (m: seq<bool>)
    ensures |m| == |xs| && forall i :: 0 <= i < |xs| ==> (m[i] <==> xs[i] == PyStr("off"))
  {
    seq(|xs|, i requires 0 <= i < |xs| => xs[i] == PyStr("off"))
  }

  const NoDataMessage: string := "Дані відсутні або ще не оновилися."
  const AllDayMessage: string := "\U{1F7E2} Світло буде весь день (можливо)!"
  const IntervalPrefix: string := "\U{1F534} "

  /** The interval lines, one per maximal run of "off". */
  function IntervalLines(xs: seq<PyValue>): (lines: seq<string>)
    ensures var runs := OffRuns(LegacyMask(xs));
            |lines| == |runs|
            && forall k :: 0 <= k < |runs| ==> lines[k] == IntervalPrefix + Render.IntervalRange(runs[k], |xs|)
  {
    var runs := OffRuns(LegacyMask(xs));
    seq(|runs|, k requires 0 <= k < |runs| => IntervalPrefix + Render.IntervalRange(runs[k], |xs|))
  }

  /** `format_schedule_text(schedule_list)` of handlers.py. */
  function FormatLegacy(xs: Option<seq<PyValue>>): (t: string)
    ensures xs.None? || |xs.value| == 0 ==> t == NoDataMessage
    ensures xs.Some? && |xs.value| > 0 && |OffRuns(LegacyMask(xs.value))| == 0 ==> t == AllDayMessage
    ensures xs.Some? && |xs.value| > 0 && |OffRuns(LegacyMask(xs.value))| > 0 ==> t == Join(IntervalLines(xs.value), "\n")
    ensures xs.Some? && |xs.value| > 0 && |t| > 0 && t[0] == IntervalPrefix[0] ==> |OffRuns(LegacyMask(xs.value))| > 0
  {
    if xs.None? || |xs.value| == 0 then NoDataMessage
    else
      var lines := IntervalLines(xs.value);
      if |lines| == 0 then AllDayMessage else Join(lines, "\n")
  }

  /** A reply that lists intervals opens with the interval marker, never with the all-day text. */
  lemma ListedIntervalsStartWithMarker(xs: seq<PyValue>)
    requires |OffRuns(LegacyMask(xs))| > 0
    ensures |FormatLegacy(Some(xs))| > 0 && FormatLegacy(Some(xs))[0] == IntervalPrefix[0]
  {
    var lines := IntervalLines(xs);
    JoinStartsWithFirst(lines, "\n");
    assert lines[0][0] == IntervalPrefix[0];
    assert Join(lines, "\n")[0] == Join(lines, "\n")[..|lines[0]|][0];
  }

  /** With some data, the all-day message is shown exactly when no element is the string "off". */
  lemma FormatLegacyAllDay(xs: seq<PyValue>)
    requires |xs| > 0
    ensures FormatLegacy(Some(xs)) == AllDayMessage <==> forall i :: 0 <= i < |xs| ==> xs[i] != PyStr("off")
  {
    Render.NoRunsWithoutOff(LegacyMask(xs));
    if |OffRuns(LegacyMask(xs))| > 0 {
      ListedIntervalsStartWithMarker(xs);
      assert AllDayMessage[0] != IntervalPrefix[0];
    }
  }

  /** A reply with intervals splits at its newlines into exactly the interval lines, one per run. */
  lemma IntervalLinesReadBack(xs: seq<PyValue>)
    requires |OffRuns(LegacyMask(xs))| > 0
    ensures Split(FormatLegacy(Some(xs)), '\n') == IntervalLines(xs)
  {
    var lines := IntervalLines(xs);
    var runs := OffRuns(LegacyMask(xs));
    forall k | 0 <= k < |lines| ensures '\n' !in lines[k] {
      Render.IntervalRangeHasNoNewline(runs[k], |xs|);
    }
    JoinSplit(lines, '\n');
  }

  /** A stored slot list as the Python list of strings it decodes to. */
  function AsPyList(hours: seq<Slot>): (xs: seq<PyValue>)
    ensures |xs| == |hours| && forall i :: 0 <= i < |hours| ==> xs[i] == PyStr(SlotName(hours[i]))
  {
    seq(|hours|, i requires 0 <= i < |hours| => PyStr(SlotName(hours[i])))
  }

  /** Both renderers see the same "off" positions in a stored slot list, so they list the same runs. */
  lemma SameRunsAsCurrent(hours: seq<Slot>)
    ensures LegacyMask(AsPyList(hours)) == Render.OffMask(hours)
  {
  }

  /** The row `get_schedule_for_group` returns: the slot list and the site's update time. */
  datatype StoredRow = StoredRow(hours: seq<Slot>, siteUpdatedAt: Option<string>)

  const FailureMessage: string := "На жаль, " + "не вдалося отримати дані. Можливо, сайт тимчасово недоступний."

  /**
   * The `/graph` reply as written: the whole `(hours, site_updated_at)`
   * tuple is passed to the formatter, which iterates over its two elements.
   */
  function GraphReplyAsWritten(group: string, row: Option<StoredRow>): string {
    match row
    case None => FailureMessage
    case Some(r) =>
      var tuple := [PyList(r.hours), if r.siteUpdatedAt.Some? then PyStr(r.siteUpdatedAt.value) else PyNone];
      "Графік для " + group + ":\n\n" + FormatLegacy(Some(tuple))
  }

  /** A reply for a stored row starts with the graph heading, so it is never the failure message. */
  lemma RowReplyIsNotFailure(group: string, row: StoredRow)
    ensures GraphReplyAsWritten(group, Some(row)) != FailureMessage
    ensures GraphReply(group, Some(row)) != FailureMessage
  {
    var tuple := [PyList(row.hours), if row.siteUpdatedAt.Some? then PyStr(row.siteUpdatedAt.value) else PyNone];
    assert GraphReplyAsWritten(group, Some(row))[0] == 'Г';
    assert GraphReply(group, Some(row))[0] == 'Г';
  }

  /** The `/graph` reply with the slot list, the tuple's first element, passed to the formatter. */
  function GraphReply(group: string, row: Option<StoredRow>): string {
    match row
    case None => FailureMessage
    case Some(r) => "Графік для " + group + ":\n\n" + FormatLegacy(Some(AsPyList(r.hours)))
  }

  /**
   * As written, the reply always promises power all day, whatever the
   * stored slots say, because neither element of the tuple is the string "off".
   */
  lemma GraphReplyAsWrittenIgnoresSchedule(group: string, r: StoredRow)
    requires r.siteUpdatedAt != Some("off")
    ensures GraphReplyAsWritten(group, Some(r)) == "Графік для " + group + ":\n\n" + AllDayMessage
  {
    var tuple := [PyList(r.hours), if r.siteUpdatedAt.Some? then PyStr(r.siteUpdatedAt.value) else PyNone];
    FormatLegacyAllDay(tuple);
  }

  /** A stored row with an outage is answered differently by the written and the corrected reply. */
  lemma GraphReplyAsWrittenHidesOutage(group: string, r: StoredRow, i: nat)
    requires r.siteUpdatedAt != Some("off") && i < |r.hours| && r.hours[i] == Off
    ensures GraphReplyAsWritten(group, Some(r)) == "Графік для " + group + ":\n\n" + AllDayMessage
    ensures GraphReply(group, Some(r)) != GraphReplyAsWritten(group, Some(r))
  {
    GraphReplyAsWrittenIgnoresSchedule(group, r);
    GraphReplyShowsOutages(group, r);
  }

  /** The corrected reply shows the all-day message exactly when no stored slot is off. */
  lemma GraphReplyShowsOutages(group: string, r: StoredRow)
    requires |r.hours| > 0
    ensures GraphReply(group, Some(r)) == "Графік для " + group + ":\n\n" + AllDayMessage
            <==> forall i :: 0 <= i < |r.hours| ==> r.hours[i] != Off
  {
    var prefix := "Графік для " + group + ":\n\n";
    var xs := AsPyList(r.hours);
    var t := FormatLegacy(Some(xs));
    FormatLegacyAllDay(xs);
    assert (forall i :: 0 <= i < |xs| ==> xs[i] != PyStr("off")) <==> (forall i :: 0 <= i < |r.hours| ==> r.hours[i] != Off) by {
      forall i | 0 <= i < |xs| ensures xs[i] == PyStr("off") <==> r.hours[i] == Off {
        assert xs[i] == PyStr(SlotName(r.hours[i]));
      }
    }
    assert prefix + t == prefix + AllDayMessage <==> t == AllDayMessage by {
      if prefix + t == prefix + AllDayMessage {
        assert t == (prefix + t)[|prefix|..];
      }
    }
  }
}

=== FILE: legacy_services.dfy ===
/**
 * The first bot's update path: picking the schedule picture among the
 * page's links and frame images, reading the day and month off the OCR
 * text, writing the decoded groups into the `schedule_cache` table, and
 * the `/graph` command that reads the cache and refreshes it once when
 * today's row is missing.
 */
module LegacyServices {
  import opened Wrappers
  import opened Text
  import opened Slots
  import opened Dict
  import Grid
  import ImageParser
  import LegacyRender

  /**
   * The link test: a picture or a Google Drive file, not a logo, and one
   * of the schedule keywords. A missing or unreadable `href` is `None`.
   */
  predicate LinkPicks(href: string) {
    && |href| > 0
    && (Contains(Lower(href), ".jpg") || Contains(Lower(href), ".png") || Contains(href, "google.com/file"))
    && !Contains(href, "logo")
    && (Contains(href, "GPV") || Contains(Lower(href), "grafik") || Contains(href, "drive"))
  }

  /** The frame-image test: "GPV", "grafik" in any case, or a `src` ending in ".png" (case as written). */
  predicate FramePicks(src: string) {
    && |src| > 0
    && (Contains(src, "GPV") || Contains(Lower(src), "grafik") || EndsWith(src, ".png"))
  }

  /** An attribute that was read and passes the test. */
  predicate Accepts(test: string -> bool, x: Option<string>) {
    x.Some? && test(x.value)
  }

  /** The first element the test accepts, scanning left to right. */
  function FirstWhere(test: string -> bool, xs: seq<Option<string>>): (r: Option<string>)
    ensures r.Some? ==> exists i :: 0 <= i < |xs| && xs[i] == r && Accepts(test, xs[i])
                          && forall j :: 0 <= j < i ==> !Accepts(test, xs[j])
    ensures r.None? <==> forall i :: 0 <= i < |xs| ==> !Accepts(test, xs[i])
    decreases |xs|
  {
    if |xs| == 0 then None
    else if Accepts(test, xs[0]) then xs[0]
    else
      var r := FirstWhere(test, xs[1..]);
      assert forall i :: 1 <= i < |xs| ==> xs[i] == xs[1..][i - 1];
      r
  }

  /** The frames in order, each scanned with the frame test, stopping at the first hit. */
  function FirstInFrames(frames: seq<seq<Option<string>>>): Option<string>
    decreases |frames|
  {
    if |frames| == 0 then None
    else if FirstWhere(FramePicks, frames[0]).Some? then FirstWhere(FramePicks, frames[0])
    else FirstInFrames(frames[1..])
  }

  /**
   * The URL `download_original_image` downloads: the first link that
   * passes, and the frames only when none did. A frame whose switch or
   * attribute read raised contributes the images seen before the failure.
   */
  function FindUrl(links: seq<Option<string>>, frames: seq<seq<Option<string>>>): Option<string> {
    var link := FirstWhere(LinkPicks, links);
    if link.Some? then link else FirstInFrames(frames)
  }

  function Flatten(frames: seq<seq<Option<string>>>): seq<Option<string>>
    decreases |frames|
  {
    if |frames| == 0 then [] else frames[0] + Flatten(frames[1..])
  }

  lemma {:induction false} FirstWhereAppend(test: string -> bool, a: seq<Option<string>>, b: seq<Option<string>>)
    ensures FirstWhere(test, a + b) == if FirstWhere(test, a).Some? then FirstWhere(test, a) else FirstWhere(test, b)
    decreases |a|
  {
    if |a| > 0 {
      assert (a + b)[1..] == a[1..] + b;
      FirstWhereAppend(test, a[1..], b);
    } else {
      assert a + b == b;
    }
  }

  /** Scanning the frames one by one is scanning all their images as one list. */
  lemma {:induction false} FramesAsOneList(frames: seq<seq<Option<string>>>)
    ensures FirstInFrames(frames) == FirstWhere(FramePicks, Flatten(frames))
    decreases |frames|
  {
    if |frames| > 0 {
      FramesAsOneList(frames[1..]);
      FirstWhereAppend(FramePicks, frames[0], Flatten(frames[1..]));
    }
  }

  /**
   * The search order: a passing link always wins; otherwise the chosen URL
   * is the first frame image, frames in order, that passes the frame test.
   */
  lemma SearchOrder(links: seq<Option<string>>, frames: seq<seq<Option<string>>>)
    ensures (exists i :: 0 <= i < |links| && Accepts(LinkPicks, links[i])) ==>
              FindUrl(links, frames) == FirstWhere(LinkPicks, links) && Accepts(LinkPicks, FindUrl(links, frames))
    ensures (forall i :: 0 <= i < |links| ==> !Accepts(LinkPicks, links[i])) ==>
              FindUrl(links, frames) == FirstWhere(FramePicks, Flatten(frames))
  {
    FramesAsOneList(frames);
  }

  /** A bare ".png" picture is taken from a frame but not from a link, which also needs a keyword. */
  lemma PngOnlyInFrames()
    ensures FramePicks("a.png") && !LinkPicks("a.png")
  {
    assert EndsWith("a.png", ".png");
    assert Lower("a.png") == "a.png";
    NotContainsMissingChar("a.png", "GPV", 0);
    NotContainsMissingChar("a.png", "grafik", 1);
    NotContainsMissingChar("a.png", "drive", 0);
  }

  /** A link naming a logo is never taken, whatever else it contains. */
  lemma LogoLinksRejected(href: string)
    requires Contains(href, "logo")
    ensures !LinkPicks(href)
  {
  }

  /** `(\d{2})\.(\d{2})` */
  const DayMonthPattern: Pattern := [AnyDigit, AnyDigit, Exactly('.'), AnyDigit, AnyDigit]

  /** The year the first bot writes every recognised date under. */
  const Year: string := "2026"

  /**
   * `target_date` in `update_schedule_database`: the first `DD.MM` in the
   * OCR text becomes `2026-MM-DD`; without text or a match it stays today.
   */
  function LegacyTargetDate(dateText: Option<string>, today: string): (d: string)
    ensures !Truthy(dateText) ==> d == today
    ensures Truthy(dateText) && SearchFrom(dateText.value, DayMonthPattern, 0).None? ==> d == today
    ensures Truthy(dateText) && SearchFrom(dateText.value, DayMonthPattern, 0).Some? ==>
              var s := dateText.value;
              var i := SearchFrom(s, DayMonthPattern, 0).value;
              && MatchesAt(s, i, DayMonthPattern)
              && (forall j :: 0 <= j < i ==> !MatchesAt(s, j, DayMonthPattern))
              && |d| == 10 && d[..5] == Year + "-" && d[7] == '-'
              && d[5..7] == s[i + 3..i + 5] && d[8..] == s[i..i + 2]
  {
    if !Truthy(dateText) then today
    else
      match SearchFrom(dateText.value, DayMonthPattern, 0)
      case None => today
      case Some(i) =>
        var s := dateText.value;
        var d := Year + "-" + s[i + 3..i + 5] + "-" + s[i..i + 2];
        assert d[5..7] == s[i + 3..i + 5] && d[8..] == s[i..i + 2];
        d
  }

  /** The written date is always of the form `2026-DD-DD` with ASCII digits when a match was found. */
  lemma LegacyTargetDateDigits(dateText: string, today: string)
    requires |dateText| > 0 && SearchFrom(dateText, DayMonthPattern, 0).Some?
    ensures var d := LegacyTargetDate(Some(dateText), today);
            IsDigit(d[5]) && IsDigit(d[6]) && IsDigit(d[8]) && IsDigit(d[9])
  {
    var i := SearchFrom(dateText, DayMonthPattern, 0).value;
    assert LegacyTargetDate(Some(dateText), today) == Year + "-" + dateText[i + 3..i + 5] + "-" + dateText[i..i + 2];
    BuiltDateDigits(dateText, i);
  }

  /** The date built from a `DD.MM` match at `i` has digits where the month and day go. */
  lemma BuiltDateDigits(s: string, i: nat)
    requires MatchesAt(s, i, DayMonthPattern)
    ensures var d := Year + "-" + s[i + 3..i + 5] + "-" + s[i..i + 2];
            IsDigit(d[5]) && IsDigit(d[6]) && IsDigit(d[8]) && IsDigit(d[9])
  {
    DigitAt(s, i, DayMonthPattern, 0);
    DigitAt(s, i, DayMonthPattern, 1);
    DigitAt(s, i, DayMonthPattern, 3);
    DigitAt(s, i, DayMonthPattern, 4);
  }

  /** The primary key of a `schedule_cache` row. */
  datatype CacheKey = CacheKey(date: string, group: string)

  type Cache = map<CacheKey, LegacyRender.StoredRow>

  /**
   * `save_schedule_cache(date, schedule)`: every group is written, inserted
   * or overwritten, with no site time; a later duplicate key wins.
   */
  function SaveCache(cache: Cache, date: string, schedule: Dict<seq<Slot>>): (r: Cache)
    ensures r.Keys == cache.Keys + set g | g in Keys(schedule) :: CacheKey(date, g)
    ensures forall k :: k in cache && (k.date != date || k.group !in Keys(schedule)) ==> r[k] == cache[k]
    decreases |schedule|
  {
    if |schedule| == 0 then cache
    else
      var init := schedule[..|schedule| - 1];
      var last := schedule[|schedule| - 1];
      assert Keys(schedule) == Keys(init) + [last.key];
      SaveCache(cache, date, init)[CacheKey(date, last.key) := LegacyRender.StoredRow(last.value, None)]
  }

  /** With distinct groups, each group's row holds exactly its decoded slots and no site time. */
  lemma {:induction false} SaveCacheWrites(cache: Cache, date: string, schedule: Dict<seq<Slot>>)
    requires UniqueKeys(schedule)
    ensures forall i :: 0 <= i < |schedule| ==>
              SaveCache(cache, date, schedule)[CacheKey(date, schedule[i].key)] == LegacyRender.StoredRow(schedule[i].value, None)
    decreases |schedule|
  {
    if |schedule| > 0 {
      var init := schedule[..|schedule| - 1];
      var last := schedule[|schedule| - 1];
      assert UniqueKeys(init);
      SaveCacheWrites(cache, date, init);
      forall i | 0 <= i < |schedule| - 1
        ensures SaveCache(cache, date, schedule)[CacheKey(date, schedule[i].key)] == LegacyRender.StoredRow(schedule[i].value, None)
      {
        assert schedule[i] == init[i];
        assert schedule[i].key != last.key;
      }
    }
  }

  /** What the download hands over: the OCR text of the date area (`None` when OCR raised) and the pixels. */
  datatype Download = Download(dateText: Option<string>, image: Option<Grid.Image>)

  /**
   * `update_schedule_database`: `False` with the cache untouched when no
   * bytes came back or they do not decode; otherwise the twelve groups are
   * written under the recognised date and the result is `True`.
   */
  function UpdateScheduleDatabase(cache: Cache, today: string, fetched: Option<Download>): (r: (Cache, bool))
    ensures fetched.None? || fetched.value.image.None? ==> r == (cache, false)
    ensures r.1 <==> fetched.Some? && fetched.value.image.Some?
    ensures r.1 ==> forall row :: 0 <= row < Grid.GroupRows ==>
              var k := CacheKey(LegacyTargetDate(fetched.value.dateText, today), Grid.GroupName(row));
              k in r.0 && r.0[k] == LegacyRender.StoredRow(ImageParser.ParseImage(fetched.value.image).value[row].value, None)
  {
    match fetched
    case None => (cache, false)
    case Some(dl) =>
      match ImageParser.ParseImage(dl.image)
      case None => (cache, false)
      case Some(schedule) =>
        var date := LegacyTargetDate(dl.dateText, today);
        SaveCacheWrites(cache, date, schedule);
        var r := SaveCache(cache, date, schedule);
        assert forall row :: 0 <= row < Grid.GroupRows ==> schedule[row].key == Grid.GroupName(row) by {
          forall row | 0 <= row < Grid.GroupRows ensures schedule[row].key == Grid.GroupName(row) {
            assert Keys(schedule)[row] == Grid.GroupNames()[row];
          }
        }
        (r, true)
  }

  /** `get_schedule_for_group(date, group)`. */
  function GetScheduleForGroup(cache: Cache, date: string, group: string): (r: Option<LegacyRender.StoredRow>)
    ensures r.Some? <==> CacheKey(date, group) in cache
    ensures r.Some? ==> r.value == cache[CacheKey(date, group)]
  {
    if CacheKey(date, group) in cache then Some(cache[CacheKey(date, group)]) else None
  }

  /**
   * `/graph` for a registered user: read today's row; when it is missing,
   * refresh the cache once and read again; then reply. `fetched` is what
   * the refresh would download.
   */
  function SendGraph(cache: Cache, today: string, group: string, fetched: Option<Download>): (r: (Cache, string))
    ensures CacheKey(today, group) in cache ==> r.0 == cache
    ensures CacheKey(today, group) !in cache ==> r.0 == UpdateScheduleDatabase(cache, today, fetched).0
    ensures CacheKey(today, group) in r.0 ==>
              r.1 == LegacyRender.GraphReplyAsWritten(group, Some(r.0[CacheKey(today, group)]))
    ensures r.1 == LegacyRender.FailureMessage <==> CacheKey(today, group) !in r.0
  {
    var first := GetScheduleForGroup(cache, today, group);
    if first.Some? then
      LegacyRender.RowReplyIsNotFailure(group, first.value);
      (cache, LegacyRender.GraphReplyAsWritten(group, first))
    else
      var cache' := UpdateScheduleDatabase(cache, today, fetched).0;
      var second := GetScheduleForGroup(cache', today, group);
      if second.Some? then
        LegacyRender.RowReplyIsNotFailure(group, second.value);
        (cache', LegacyRender.GraphReplyAsWritten(group, second))
      else (cache', LegacyRender.FailureMessage)
  }

  /** Every row the first bot writes carries no site time. */
  predicate NoSiteTimes(cache: Cache) {
    forall k :: k in cache ==> cache[k].siteUpdatedAt.None?
  }

  /** A refresh keeps rows free of site times. */
  lemma UpdateKeepsNoSiteTimes(cache: Cache, today: string, fetched: Option<Download>)
    requires NoSiteTimes(cache)
    ensures NoSiteTimes(UpdateScheduleDatabase(cache, today, fetched).0)
  {
    if fetched.Some? && fetched.value.image.Some? {
      var schedule := ImageParser.ParseImage(fetched.value.image).value;
      SaveCacheNoSiteTimes(cache, LegacyTargetDate(fetched.value.dateText, today), schedule);
    }
  }

  lemma {:induction false} SaveCacheNoSiteTimes(cache: Cache, date: string, schedule: Dict<seq<Slot>>)
    requires NoSiteTimes(cache)
    ensures NoSiteTimes(SaveCache(cache, date, schedule))
    decreases |schedule|
  {
    if |schedule| > 0 {
      SaveCacheNoSiteTimes(cache, date, schedule[..|schedule| - 1]);
    }
  }

  /**
   * As written, on a cache the bot filled itself `/graph` only ever answers
   * with the all-day message or the failure message, whatever the stored
   * slots and whatever the refresh downloads.
   */
  lemma SendGraphNeverListsOutages(cache: Cache, today: string, group: string, fetched: Option<Download>)
    requires NoSiteTimes(cache)
    ensures var reply := SendGraph(cache, today, group, fetched).1;
            reply == "Графік для " + group + ":\n\n" + LegacyRender.AllDayMessage || reply == LegacyRender.FailureMessage
  {
    UpdateKeepsNoSiteTimes(cache, today, fetched);
    var cache' := SendGraph(cache, today, group, fetched).0;
    if CacheKey(today, group) in cache' {
      LegacyRender.GraphReplyAsWrittenIgnoresSchedule(group, cache'[CacheKey(today, group)]);
    }
  }

  /** When the refresh fails and there is no row, the reply is the failure message. */
  lemma SendGraphFailure(cache: Cache, today: string, group: string, fetched: Option<Download>)
    requires CacheKey(today, group) !in cache
    requires fetched.None? || fetched.value.image.None?
    ensures SendGraph(cache, today, group, fetched) == (cache, LegacyRender.FailureMessage)
  {
  }
}

=== FILE: lviv_parser.dfy ===
/**
 * The Lviv text decoder. The page's text nodes that mention a group
 * ("Група 1.1 ...") are read one by one; each yields a day of 24 hourly
 * states, "no" for every hour an "HH:MM до HH:MM" interval touches.
 * Extracting the text nodes from the HTML is left to the caller: the
 * model starts from the list of text nodes.
 */
module LvivParser {
  import opened Wrappers
  import opened Text
  import opened Slots
  import opened Dict
  import opened Seqs

  const GroupWord: string := "Група"
  const UntilWord: string := "до"

  /** `\d{2}:\d{2}` */
  const ClockPattern: Pattern := [AnyDigit, AnyDigit, Exactly(':'), AnyDigit, AnyDigit]

  /**
   * `Група\s+(\d+\.\d+)` matches at offset `i`, with the captured id at
   * `[b, d)` and its dot at `c`. The trailing `\d+` is greedy, so the id
   * runs to the first non-digit after the dot.
   */
  predicate GroupMatch(s: string, i: nat, b: nat, c: nat, d: nat) {
    && OccursAt(s, GroupWord, i)
    && i + |GroupWord| < b < c < |s| && c + 1 < d <= |s|
    && (forall j :: i + |GroupWord| <= j < b ==> IsSpace(s[j]))
    && (forall j :: b <= j < c ==> IsDigit(s[j]))
    && s[c] == '.'
    && (forall j :: c + 1 <= j < d ==> IsDigit(s[j]))
    && (d == |s| || !IsDigit(s[d]))
  }

  /**
   * `Група\s+(\d+\.\d+)` tried at offset `i`, giving the captured id. The
   * greedy `\s+` and `\d+` never need to backtrack here, since what must
   * follow each of them is a character they cannot consume.
   */
  function GroupIdAt(s: string, i: nat): (r: Option<string>)
    ensures r.Some? ==> exists k :: 0 < k < |r.value| - 1 && r.value[k] == '.'
                          && AllDigits(r.value[..k]) && AllDigits(r.value[k + 1..])
    ensures r.Some? ==> exists b: nat, c: nat, d: nat :: GroupMatch(s, i, b, c, d) && r.value == s[b..d]
  {
    if i + |GroupWord| > |s| || s[i..i + |GroupWord|] != GroupWord then None
    else
      var a := i + |GroupWord|;
      var b := SkipSpaces(s, a);
      var c := SkipDigits(s, b);
      if b == a || c == b || c == |s| || s[c] != '.' then None
      else
        var d := SkipDigits(s, c + 1);
        if d == c + 1 then None
        else
          IdShape(s, b, c, d);
          assert GroupMatch(s, i, b, c, d);
          Some(s[b..d])
  }

  /** Wherever the pattern matches, the parser finds exactly that match. */
  lemma GroupIdAtComplete(s: string, i: nat, b: nat, c: nat, d: nat)
    requires GroupMatch(s, i, b, c, d)
    ensures GroupIdAt(s, i) == Some(s[b..d])
  {
    var a := i + |GroupWord|;
    assert IsDigit(s[b]) && !IsSpace(s[b]);
    assert SkipSpaces(s, a) == b;
    assert SkipDigits(s, b) == c;
    assert SkipDigits(s, c + 1) == d;
  }

  /** The parser reads `g` at `i` exactly when the pattern matches there capturing `g`. */
  lemma GroupIdAtIff(s: string, i: nat, g: string)
    ensures GroupIdAt(s, i) == Some(g) <==> exists b: nat, c: nat, d: nat :: GroupMatch(s, i, b, c, d) && g == s[b..d]
  {
    if exists b: nat, c: nat, d: nat :: GroupMatch(s, i, b, c, d) && g == s[b..d] {
      var b: nat, c: nat, d: nat :| GroupMatch(s, i, b, c, d) && g == s[b..d];
      GroupIdAtComplete(s, i, b, c, d);
    }
  }

  /** Digits, a dot at `c`, digits: the captured text has the shape of a group id. */
  lemma IdShape(s: string, b: nat, c: nat, d: nat)
    requires b < c && c + 1 < d <= |s| && s[c] == '.'
    requires forall j :: b <= j < c ==> IsDigit(s[j])
    requires forall j :: c + 1 <= j < d ==> IsDigit(s[j])
    ensures var g := s[b..d];
            exists k :: 0 < k < |g| - 1 && g[k] == '.' && AllDigits(g[..k]) && AllDigits(g[k + 1..])
  {
    var g := s[b..d];
    var k := c - b;
    assert g[k] == '.';
    assert g[..k] == s[b..c] && g[k + 1..] == s[c + 1..d];
  }

  /** `re.search(r"Група\s+(\d+\.\d+)", s)`: the id of the leftmost match at or after `from`. */
  function FindGroupIdFrom(s: string, from: nat): (r: Option<string>)
    ensures r.Some? ==> exists i :: && from <= i && GroupIdAt(s, i) == r
                                    && forall j :: from <= j < i ==> GroupIdAt(s, j).None?
    ensures r.None? <==> forall i :: from <= i ==> GroupIdAt(s, i).None?
    decreases |s| - from
  {
    if from >= |s| then
      assert forall i :: from <= i ==> GroupIdAt(s, i).None?;
      None
    else if GroupIdAt(s, from).Some? then GroupIdAt(s, from)
    else
      var r := FindGroupIdFrom(s, from + 1);
      SearchExtends(s, from, r);
      r
  }

  /** A search from `from + 1` is a search from `from` when nothing matches at `from`. */
  lemma SearchExtends(s: string, from: nat, r: Option<string>)
    requires GroupIdAt(s, from).None?
    requires r.Some? ==> exists i :: && from + 1 <= i && GroupIdAt(s, i) == r
                                     && forall j :: from + 1 <= j < i ==> GroupIdAt(s, j).None?
    requires r.None? <==> forall i :: from + 1 <= i ==> GroupIdAt(s, i).None?
    ensures r.Some? ==> exists i :: && from <= i && GroupIdAt(s, i) == r
                                    && forall j :: from <= j < i ==> GroupIdAt(s, j).None?
    ensures r.None? <==> forall i :: from <= i ==> GroupIdAt(s, i).None?
  {
    if r.Some? {
      var i :| && from + 1 <= i && GroupIdAt(s, i) == r
               && forall j :: from + 1 <= j < i ==> GroupIdAt(s, j).None?;
      forall j | from <= j < i ensures GroupIdAt(s, j).None? {
        if j != from {
          assert from + 1 <= j < i;
        }
      }
    } else {
      forall i | from <= i ensures GroupIdAt(s, i).None? {
        if i != from {
          assert from + 1 <= i;
        }
      }
    }
  }

  /** No match of the group pattern starts in `[from, to)`. */
  ghost predicate NoGroupMatchBetween(s: string, from: nat, to: nat) {
    forall j: nat, b: nat, c: nat, d: nat :: from <= j < to ==> !GroupMatch(s, j, b, c, d)
  }

  /**
   * The search reads `g` exactly when the leftmost match at or after
   * `from` captures `g`.
   */
  lemma FindGroupIdIsLeftmost(s: string, from: nat, g: string)
    ensures FindGroupIdFrom(s, from) == Some(g) <==>
              exists i: nat, b: nat, c: nat, d: nat ::
                && from <= i && NoGroupMatchBetween(s, from, i)
                && GroupMatch(s, i, b, c, d) && g == s[b..d]
  {
    if FindGroupIdFrom(s, from) == Some(g) {
      var i, b, c, d := FoundIsLeftmost(s, from, g);
    }
    if exists i: nat, b: nat, c: nat, d: nat ::
         && from <= i && NoGroupMatchBetween(s, from, i) && GroupMatch(s, i, b, c, d) && g == s[b..d] {
      var i: nat, b: nat, c: nat, d: nat :|
        && from <= i && NoGroupMatchBetween(s, from, i) && GroupMatch(s, i, b, c, d) && g == s[b..d];
      LeftmostIsFound(s, from, i, b, c, d);
    }
  }

  /** A found id is captured by the leftmost match; returns that match's offsets. */
  lemma FoundIsLeftmost(s: string, from: nat, g: string) returns (i: nat, b: nat, c: nat, d: nat)
    requires FindGroupIdFrom(s, from) == Some(g)
    ensures from <= i && NoGroupMatchBetween(s, from, i) && GroupMatch(s, i, b, c, d) && g == s[b..d]
  {
    i := FoundAt(s, from, g);
    GroupIdAtIff(s, i, g);
    b, c, d :| GroupMatch(s, i, b, c, d) && g == s[b..d];
    forall j: nat, b': nat, c': nat, d': nat | from <= j < i
      ensures !GroupMatch(s, j, b', c', d')
    {
      NoMatchWhereNothingFound(s, j, b', c', d');
    }
  }

  /** Where the search reads an id, and that it read nothing before. */
  lemma FoundAt(s: string, from: nat, g: string) returns (i: nat)
    requires FindGroupIdFrom(s, from) == Some(g)
    ensures from <= i && GroupIdAt(s, i) == Some(g)
    ensures forall j :: from <= j < i ==> GroupIdAt(s, j).None?
  {
    i :| && from <= i && GroupIdAt(s, i) == Some(g)
         && forall j :: from <= j < i ==> GroupIdAt(s, j).None?;
  }

  /** Where nothing is read, the pattern does not match. */
  lemma NoMatchWhereNothingFound(s: string, j: nat, b: nat, c: nat, d: nat)
    requires GroupIdAt(s, j).None?
    ensures !GroupMatch(s, j, b, c, d)
  {
    if GroupMatch(s, j, b, c, d) {
      GroupIdAtComplete(s, j, b, c, d);
    }
  }

  /** The leftmost match's capture is what the search reads. */
  lemma {:induction false} LeftmostIsFound(s: string, from: nat, i: nat, b: nat, c: nat, d: nat)
    requires from <= i && NoGroupMatchBetween(s, from, i) && GroupMatch(s, i, b, c, d)
    ensures FindGroupIdFrom(s, from) == Some(s[b..d])
    decreases i - from
  {
    if from == i {
      GroupIdAtComplete(s, i, b, c, d);
    } else {
      NothingFoundWithoutMatch(s, from);
      assert NoGroupMatchBetween(s, from + 1, i);
      LeftmostIsFound(s, from + 1, i, b, c, d);
      SearchSkips(s, from);
    }
  }

  /** The search skips an offset where the parser finds nothing. */
  lemma SearchSkips(s: string, from: nat)
    requires from < |s| && GroupIdAt(s, from).None?
    ensures FindGroupIdFrom(s, from) == FindGroupIdFrom(s, from + 1)
  {
  }

  /** Where the pattern does not match, the parser finds nothing. */
  lemma NothingFoundWithoutMatch(s: string, j: nat)
    requires forall b: nat, c: nat, d: nat :: !GroupMatch(s, j, b, c, d)
    ensures GroupIdAt(s, j).None?
  {
  }

  function FindGroupId(s: string): Option<string> {
    FindGroupIdFrom(s, 0)
  }

  /** One matched `HH:MM до HH:MM` pair. */
  datatype TimePair = TimePair(start: string, end: string)

  /**
   * `(\d{2}:\d{2})\s+до\s+(\d{2}:\d{2})` matches at offset `i`, with "до"
   * at `a` and the end time at `b`. Each `\s+` must be followed by a
   * character it cannot consume, so it never needs to backtrack.
   */
  predicate PairMatch(s: string, i: nat, a: nat, b: nat) {
    && MatchesAt(s, i, ClockPattern)
    && i + 5 < a
    && OccursAt(s, UntilWord, a)
    && (forall j :: i + 5 <= j < a ==> IsSpace(s[j]))
    && a + 2 < b
    && MatchesAt(s, b, ClockPattern)
    && (forall j :: a + 2 <= j < b ==> IsSpace(s[j]))
  }

  /**
   * The pair pattern tried at offset `i`: the two captured times and the
   * offset just past the match.
   */
  function TimePairAt(s: string, i: nat): (r: Option<(TimePair, nat)>)
    ensures r.Some? ==> i < r.value.1 <= |s|
    ensures r.Some? ==> MatchesAt(r.value.0.start, 0, ClockPattern) && |r.value.0.start| == 5
    ensures r.Some? ==> MatchesAt(r.value.0.end, 0, ClockPattern) && |r.value.0.end| == 5
    ensures r.Some? ==> exists a: nat :: i < a < r.value.1 && OccursAt(s, UntilWord, a)
    ensures r.Some? ==> exists a: nat, b: nat :: && PairMatch(s, i, a, b)
                                                && r.value == (TimePair(s[i..i + 5], s[b..b + 5]), b + 5)
  {
    if !MatchesAt(s, i, ClockPattern) then None
    else
      var a := SkipSpaces(s, i + 5);
      if a == i + 5 || a + 2 > |s| || s[a..a + 2] != UntilWord then None
      else
        var b := SkipSpaces(s, a + 2);
        if b == a + 2 || !MatchesAt(s, b, ClockPattern) then None
        else
          MatchedText(s, i, ClockPattern);
          MatchedText(s, b, ClockPattern);
          assert OccursAt(s, UntilWord, a);
          assert PairMatch(s, i, a, b);
          Some((TimePair(s[i..i + 5], s[b..b + 5]), b + 5))
  }

  /** In a match, "до" and the end time sit right after the whitespace runs. */
  lemma PairMatchForced(s: string, i: nat, a: nat, b: nat)
    requires PairMatch(s, i, a, b)
    ensures a == SkipSpaces(s, i + 5) && b == SkipSpaces(s, a + 2)
  {
    assert s[a] == s[a..a + 2][0] == 'д';
    assert !IsSpace(s[a]);
    assert !IsSpace(s[b]) by {
      assert ClassMatches(ClockPattern[0], s[b + 0]);
    }
  }

  /** Wherever the pattern matches, the parser finds that match. */
  lemma TimePairAtComplete(s: string, i: nat, a: nat, b: nat)
    requires PairMatch(s, i, a, b)
    ensures TimePairAt(s, i) == Some((TimePair(s[i..i + 5], s[b..b + 5]), b + 5))
  {
    PairMatchForced(s, i, a, b);
  }

  /** The parser finds a pair at `i` exactly when the pattern matches there. */
  lemma TimePairAtIff(s: string, i: nat)
    ensures TimePairAt(s, i).Some? <==> exists a: nat, b: nat :: PairMatch(s, i, a, b)
  {
    if exists a: nat, b: nat :: PairMatch(s, i, a, b) {
      var a: nat, b: nat :| PairMatch(s, i, a, b);
      TimePairAtComplete(s, i, a, b);
    }
  }

  /** `re.findall` of the pair pattern from offset `from`: matches left to right, not overlapping. */
  function FindAllPairs(s: string, from: nat): (pairs: seq<TimePair>)
    ensures forall k :: 0 <= k < |pairs| ==>
              MatchesAt(pairs[k].start, 0, ClockPattern) && |pairs[k].start| == 5 &&
              MatchesAt(pairs[k].end, 0, ClockPattern) && |pairs[k].end| == 5
    decreases |s| - from
  {
    if from >= |s| then []
    else
      match TimePairAt(s, from)
      case Some((p, next)) => [p] + FindAllPairs(s, next)
      case None => FindAllPairs(s, from + 1)
  }

  /** No match of the pair pattern starts in `[from, to)`. */
  ghost predicate NoMatchBetween(s: string, from: nat, to: nat) {
    forall j: nat, a: nat, b: nat :: from <= j < to ==> !PairMatch(s, j, a, b)
  }

  /**
   * What `re.findall` reports from offset `from` on: the leftmost match at
   * or after `from`, then the leftmost match from the end of that one, and
   * so on until no match is left.
   */
  ghost predicate IsFindall(s: string, from: nat, pairs: seq<TimePair>)
    decreases |pairs|
  {
    if |pairs| == 0 then NoMatchBetween(s, from, |s| + 1)
    else exists i: nat, a: nat, b: nat ::
      && from <= i
      && NoMatchBetween(s, from, i)
      && PairMatch(s, i, a, b)
      && pairs[0] == TimePair(s[i..i + 5], s[b..b + 5])
      && IsFindall(s, b + 5, pairs[1..])
  }

  /** No match starts at or after the end of the text. */
  lemma NoMatchPastEnd(s: string, from: nat, to: nat)
    requires NoMatchBetween(s, from, |s| + 1) && |s| < to
    ensures NoMatchBetween(s, from, to)
  {
  }

  /** The parser's pairs are exactly what `re.findall` reports. */
  lemma {:induction false} FindAllPairsIsFindall(s: string, from: nat)
    ensures IsFindall(s, from, FindAllPairs(s, from))
    decreases |s| - from
  {
    if from >= |s| {
      assert NoMatchBetween(s, from, |s| + 1);
    } else {
      TimePairAtIff(s, from);
      match TimePairAt(s, from)
      case Some((p, next)) =>
        FindAllPairsIsFindall(s, next);
        var a: nat, b: nat :| PairMatch(s, from, a, b) && (p, next) == (TimePair(s[from..from + 5], s[b..b + 5]), b + 5);
        var pairs := [p] + FindAllPairs(s, next);
        assert pairs[1..] == FindAllPairs(s, next);
        assert NoMatchBetween(s, from, from);
        assert IsFindall(s, from, pairs);
      case None =>
        FindAllPairsIsFindall(s, from + 1);
        FindallSkip(s, from, FindAllPairs(s, from + 1));
    }
  }

  /** An offset where nothing matches can be skipped. */
  lemma FindallSkip(s: string, from: nat, pairs: seq<TimePair>)
    requires forall a: nat, b: nat :: !PairMatch(s, from, a, b)
    requires IsFindall(s, from + 1, pairs)
    ensures IsFindall(s, from, pairs)
  {
    if |pairs| > 0 {
      var i: nat, a: nat, b: nat :| && from + 1 <= i && NoMatchBetween(s, from + 1, i) && PairMatch(s, i, a, b)
                                    && pairs[0] == TimePair(s[i..i + 5], s[b..b + 5]) && IsFindall(s, b + 5, pairs[1..]);
      assert NoMatchBetween(s, from, i);
    }
  }

  /** A report is empty exactly when nothing matches from `from` on. */
  lemma FindallEmptyIff(s: string, from: nat, pairs: seq<TimePair>)
    requires IsFindall(s, from, pairs)
    ensures |pairs| == 0 <==> NoMatchBetween(s, from, |s| + 1)
  {
    if |pairs| > 0 {
      var i: nat, a: nat, b: nat :| && from <= i && NoMatchBetween(s, from, i) && PairMatch(s, i, a, b)
                                    && pairs[0] == TimePair(s[i..i + 5], s[b..b + 5]) && IsFindall(s, b + 5, pairs[1..]);
      assert i < |s| + 1 && PairMatch(s, i, a, b);
    }
  }

  /** Two leftmost matches from the same offset start at the same place. */
  lemma LeftmostUnique(s: string, from: nat, i: nat, a: nat, b: nat, i': nat, a': nat, b': nat)
    requires from <= i && NoMatchBetween(s, from, i) && PairMatch(s, i, a, b)
    requires from <= i' && NoMatchBetween(s, from, i') && PairMatch(s, i', a', b')
    ensures i == i' && a == a' && b == b'
  {
    assert !(i < i');
    assert !(i' < i);
    PairMatchForced(s, i, a, b);
    PairMatchForced(s, i, a', b');
  }

  /** The first pair of a non-empty report, with the offsets of its match. */
  lemma FindallHead(s: string, from: nat, p: seq<TimePair>) returns (i: nat, a: nat, b: nat)
    requires IsFindall(s, from, p) && |p| > 0
    ensures from <= i && NoMatchBetween(s, from, i) && PairMatch(s, i, a, b)
    ensures p[0] == TimePair(s[i..i + 5], s[b..b + 5]) && IsFindall(s, b + 5, p[1..])
  {
    i, a, b :| && from <= i && NoMatchBetween(s, from, i) && PairMatch(s, i, a, b)
               && p[0] == TimePair(s[i..i + 5], s[b..b + 5]) && IsFindall(s, b + 5, p[1..]);
  }

  /** Lists that agree on the first element and on the rest are equal. */
  lemma SameHeadSameTail<T>(p: seq<T>, q: seq<T>)
    requires |p| > 0 && |q| > 0 && p[0] == q[0] && p[1..] == q[1..]
    ensures p == q
  {
    assert p == [p[0]] + p[1..] && q == [q[0]] + q[1..];
  }

  /** Two reports of the same text start with the same pair and continue from the same place. */
  lemma FindallHeads(s: string, from: nat, p: seq<TimePair>, q: seq<TimePair>) returns (b: nat)
    requires IsFindall(s, from, p) && IsFindall(s, from, q) && |p| > 0 && |q| > 0
    ensures p[0] == q[0] && IsFindall(s, b + 5, p[1..]) && IsFindall(s, b + 5, q[1..])
  {
    var i, a, b1 := FindallHead(s, from, p);
    var i', a', b' := FindallHead(s, from, q);
    LeftmostUnique(s, from, i, a, b1, i', a', b');
    b := b1;
  }

  /** There is only one such report: `re.findall` is determined by the text. */
  lemma {:induction false} FindallUnique(s: string, from: nat, p: seq<TimePair>, q: seq<TimePair>)
    requires IsFindall(s, from, p) && IsFindall(s, from, q)
    ensures p == q
    decreases |p|
  {
    FindallEmptyIff(s, from, p);
    FindallEmptyIff(s, from, q);
    if |p| > 0 && |q| > 0 {
      var b := FindallHeads(s, from, p, q);
      FindallUnique(s, b + 5, p[1..], q[1..]);
      SameHeadSameTail(p, q);
    }
  }


  /** A line that never says "до" has no interval; the text says power is on all day. */
  lemma {:induction false} NoPairsWithoutUntil(s: string, from: nat)
    requires !Contains(s, UntilWord)
    ensures FindAllPairs(s, from) == []
    decreases |s| - from
  {
    ContainsIff(s, UntilWord);
    if from < |s| {
      assert TimePairAt(s, from).None?;
      NoPairsWithoutUntil(s, from + 1);
    }
  }

  /** A matched clock text is digit, digit, colon, digit, digit. */
  lemma ClockShape(t: string)
    requires MatchesAt(t, 0, ClockPattern) && |t| == 5
    ensures IsDigit(t[0]) && IsDigit(t[1]) && t[2] == ':' && IsDigit(t[3]) && IsDigit(t[4])
  {
    assert ClassMatches(ClockPattern[0], t[0 + 0]);
    assert ClassMatches(ClockPattern[1], t[0 + 1]);
    assert ClassMatches(ClockPattern[2], t[0 + 2]);
    assert ClassMatches(ClockPattern[3], t[0 + 3]);
    assert ClassMatches(ClockPattern[4], t[0 + 4]);
  }

  lemma TwoDigitsValue(s: string)
    requires |s| == 2 && AllDigits(s)
    ensures DigitsValue(s) == (s[0] as int - '0' as int) * 10 + (s[1] as int - '0' as int)
  {
    var first := s[..1];
    assert first[..0] == [] && first[0] == s[0];
    assert DigitsValue(first) == DigitValue(s[0]);
    assert DigitsValue(s) == DigitsValue(first) * 10 + DigitValue(s[1]);
  }

  /** `int(t.split(':')[0])` and `int(t.split(':')[1])` for a matched `HH:MM`: hours and minutes. */
  function ClockFields(t: string): (r: (nat, nat))
    requires MatchesAt(t, 0, ClockPattern) && |t| == 5
    ensures r.0 == (t[0] as int - '0' as int) * 10 + (t[1] as int - '0' as int)
    ensures r.1 == (t[3] as int - '0' as int) * 10 + (t[4] as int - '0' as int)
  {
    ClockShape(t);
    assert t == t[..2] + [':'] + t[3..];
    SplitAfterSeparator(t[..2], ':', t[3..]);
    SplitWithoutSeparator(t[3..], ':');
    var parts := Split(t, ':');
    assert parts == [t[..2], t[3..]];
    TwoDigitsValue(t[..2]);
    TwoDigitsValue(t[3..]);
    (DigitsValue(parts[0]), DigitsValue(parts[1]))
  }

  /** How the end of an interval is turned into an exclusive hour bound. */
  datatype EndRule =
    /** As the parser is written: `end_hour + (1 if end_min > 0 else 0)`. */
    | AsWritten
    /** Corrected: an end earlier in the day than the start means midnight, hour 24. */
    | EndOfDayWraps

  /** The hours `[lo, hi)` an interval marks as "no". */
  function PairHours(rule: EndRule, p: TimePair): (r: (nat, nat))
    requires MatchesAt(p.start, 0, ClockPattern) && |p.start| == 5
    requires MatchesAt(p.end, 0, ClockPattern) && |p.end| == 5
  {
    var (startHour, startMin) := ClockFields(p.start);
    var (endHour, endMin) := ClockFields(p.end);
    var rangeEnd := endHour + (if endMin > 0 then 1 else 0);
    match rule
    case AsWritten => (startHour, rangeEnd)
    case EndOfDayWraps =>
      if endHour * 60 + endMin < startHour * 60 + startMin then (startHour, HoursPerDay)
      else (startHour, rangeEnd)
  }

  predicate WellFormedPair(p: TimePair) {
    MatchesAt(p.start, 0, ClockPattern) && |p.start| == 5 &&
    MatchesAt(p.end, 0, ClockPattern) && |p.end| == 5
  }

  /** Hour `h` of the day lies in the interval's marked range. */
  predicate Covers(rule: EndRule, p: TimePair, h: nat)
    requires WellFormedPair(p)
  {
    PairHours(rule, p).0 <= h < PairHours(rule, p).1
  }

  function AllYes(): (day: seq<HourState>)
    ensures |day| == HoursPerDay && forall h :: 0 <= h < HoursPerDay ==> day[h] == Yes
  {
    seq(HoursPerDay, h requires 0 <= h < HoursPerDay => Yes)
  }

  /** Marks one interval: hours in its range and inside 0..23 become "no". */
  function MarkPair(rule: EndRule, day: seq<HourState>, p: TimePair): (r: seq<HourState>)
    requires |day| == HoursPerDay && WellFormedPair(p)
    ensures |r| == HoursPerDay
  {
    seq(HoursPerDay, h requires 0 <= h < HoursPerDay => if Covers(rule, p, h) then No else day[h])
  }

  lemma MarkPairAt(rule: EndRule, day: seq<HourState>, p: TimePair, h: nat)
    requires |day| == HoursPerDay && WellFormedPair(p) && h < HoursPerDay
    ensures MarkPair(rule, day, p)[h] == (if Covers(rule, p, h) then No else day[h])
  {
  }

  /** Marks the intervals in order, starting from an all-"yes" day. */
  function MarkAll(rule: EndRule, pairs: seq<TimePair>): (day: seq<HourState>)
    requires forall k :: 0 <= k < |pairs| ==> WellFormedPair(pairs[k])
    ensures |day| == HoursPerDay
    decreases |pairs|
  {
    if |pairs| == 0 then AllYes()
    else MarkPair(rule, MarkAll(rule, pairs[..|pairs| - 1]), pairs[|pairs| - 1])
  }

  /** Some interval of `pairs` covers hour `h`. */
  predicate AnyCovers(rule: EndRule, pairs: seq<TimePair>, h: nat)
    requires forall k :: 0 <= k < |pairs| ==> WellFormedPair(pairs[k])
  {
    exists k :: 0 <= k < |pairs| && Covers(rule, pairs[k], h)
  }

  /** Some interval of a line covers `h` iff one before the last does or the last does. */
  lemma AnyCoversSnoc(rule: EndRule, pairs: seq<TimePair>, h: nat)
    requires forall k :: 0 <= k < |pairs| ==> WellFormedPair(pairs[k])
    requires |pairs| > 0
    ensures AnyCovers(rule, pairs, h) <==>
              AnyCovers(rule, pairs[..|pairs| - 1], h) || Covers(rule, pairs[|pairs| - 1], h)
  {
    ExistsSnoc(pairs, pairs[..|pairs| - 1], p => WellFormedPair(p) && Covers(rule, p, h));
  }

  /** An hour is "no" exactly when some interval of the line covers it. */
  lemma {:induction false} MarkAllCovers(rule: EndRule, pairs: seq<TimePair>, h: nat)
    requires forall k :: 0 <= k < |pairs| ==> WellFormedPair(pairs[k])
    requires h < HoursPerDay
    ensures MarkAll(rule, pairs)[h] == No <==> AnyCovers(rule, pairs, h)
    decreases |pairs|
  {
    if |pairs| > 0 {
      var init := pairs[..|pairs| - 1];
      var last := pairs[|pairs| - 1];
      MarkAllCovers(rule, init, h);
      var day := MarkAll(rule, init);
      assert MarkAll(rule, pairs) == MarkPair(rule, day, last);
      MarkPairAt(rule, day, last, h);
      AnyCoversSnoc(rule, pairs, h);
    }
  }

  /** The day one group line describes. */
  function LineDay(rule: EndRule, text: string): (day: seq<HourState>)
    ensures |day| == HoursPerDay
  {
    MarkAll(rule, FindAllPairs(text, 0))
  }

  /**
   * A line where the pair pattern matches nowhere stays all "yes", whether
   * or not it says "до" elsewhere.
   */
  lemma LineWithoutIntervals(rule: EndRule, text: string)
    requires forall i: nat, a: nat, b: nat :: !PairMatch(text, i, a, b)
    ensures LineDay(rule, text) == AllYes()
  {
    assert IsFindall(text, 0, []);
    FindAllPairsIsFindall(text, 0);
    FindallUnique(text, 0, FindAllPairs(text, 0), []);
  }

  /** The group id the loop reads from a line: the leftmost match in the stripped text. */
  function LineGroup(line: string): Option<string> {
    FindGroupId(Strip(line))
  }

  /** The day the parser as written stores for a line: the one its stripped text describes. */
  function LineDayAsWritten(line: string): seq<HourState> {
    LineDay(AsWritten, Strip(line))
  }

  /** The day the corrected parser stores for a line. */
  function LineDayWraps(line: string): seq<HourState> {
    LineDay(EndOfDayWraps, Strip(line))
  }

  /** The day the loop stores for a line, under each end-of-interval rule. */
  function LineValue(rule: EndRule): string -> seq<HourState> {
    match rule
    case AsWritten => LineDayAsWritten
    case EndOfDayWraps => LineDayWraps
  }

  /**
   * The loop over the selected lines, in document order: a line without a
   * group id is skipped, otherwise its group is assigned the line's day.
   */
  function AddLines(rule: EndRule, lines: seq<string>): Dict<seq<HourState>> {
    PutEach(lines, LineGroup, LineValue(rule))
  }

  /** The page's text node mentions a group, as `find_all(string=...)` tests it. */
  predicate MentionsGroup(n: string) {
    FindGroupId(n).Some?
  }

  /**
   * The text nodes `find_all` selects: those holding a group mention, in
   * document order, each occurrence kept.
   */
  function SelectGroupLines(nodes: seq<string>): (lines: seq<string>)
    ensures forall k :: 0 <= k < |lines| ==> lines[k] in nodes && FindGroupId(lines[k]).Some?
    ensures forall n :: n in nodes && FindGroupId(n).Some? ==> n in lines
    ensures IsSubsequence(lines, nodes)
  {
    FilterByIsSubsequence(nodes, MentionsGroup);
    FilterBy(nodes, MentionsGroup)
  }

  /**
   * Each node mentioning a group is selected as often as it occurs, any
   * other node never; with the order kept, this determines the selection.
   */
  lemma SelectGroupLinesCounts(nodes: seq<string>)
    ensures forall n :: multiset(SelectGroupLines(nodes))[n] == if FindGroupId(n).Some? then multiset(nodes)[n] else 0
  {
    FilterByCount(nodes, MentionsGroup);
  }

  /** `parse_lviv_html` over the page's text nodes, for a given end-of-interval rule. */
  function ParseWith(rule: EndRule, nodes: seq<string>): Dict<seq<HourState>> {
    var lines := SelectGroupLines(nodes);
    if |lines| == 0 then [] else AddLines(rule, lines)
  }

  /** `parse_lviv_html` as written. */
  function ParseLvivHtml(nodes: seq<string>): (d: Dict<seq<HourState>>)
    ensures UniqueKeys(d) && AllDays(d)
    ensures (forall n :: n in nodes ==> FindGroupId(n).None?) ==> d == []
  {
    AddLinesWellFormed(AsWritten, SelectGroupLines(nodes));
    ParseWith(AsWritten, nodes)
  }

  /**
   * The page decodes to a day for `g` exactly when some selected line names
   * `g`, and that day is the one the last such line describes.
   */
  lemma ParseReadsLastLine(nodes: seq<string>, g: string)
    ensures var lines := SelectGroupLines(nodes);
            Get(ParseLvivHtml(nodes), g).Some? <==> exists k :: 0 <= k < |lines| && LineGroup(lines[k]) == Some(g)
    ensures var lines := SelectGroupLines(nodes);
            forall k :: && 0 <= k < |lines| && LineGroup(lines[k]) == Some(g)
                        && (forall k' :: k < k' < |lines| ==> LineGroup(lines[k']) != Some(g))
                        ==> Get(ParseLvivHtml(nodes), g) == Some(LineDay(AsWritten, Strip(lines[k])))
  {
    PutEachReadsLast(SelectGroupLines(nodes), LineGroup, LineValue(AsWritten), g);
  }

  /** Every group of `d` holds a whole day of 24 hours. */
  predicate AllDays(d: Dict<seq<HourState>>) {
    forall e :: e in d ==> |e.value| == HoursPerDay
  }

  /** The assembled dict has unique keys and 24 hours per group. */
  lemma AddLinesWellFormed(rule: EndRule, lines: seq<string>)
    ensures UniqueKeys(AddLines(rule, lines)) && AllDays(AddLines(rule, lines))
  {
    PutEachWellFormed(lines, LineGroup, LineValue(rule));
  }

  /**
   * A later line for a group replaces the earlier one: after one more
   * line, its group reads that line's day and every other group is as before.
   */
  lemma LaterLineReplaces(rule: EndRule, lines: seq<string>, line: string, g: string)
    requires FindGroupId(Strip(line)) == Some(g)
    ensures Get(AddLines(rule, lines + [line]), g) == Some(LineDay(rule, Strip(line)))
    ensures forall g' :: g' != g ==> Get(AddLines(rule, lines + [line]), g') == Get(AddLines(rule, lines), g')
  {
    assert (lines + [line])[..|lines|] == lines;
    PutGet(AddLines(rule, lines), g, LineDay(rule, Strip(line)));
  }

  /** The dict key of hour `h`: `f"{h:02d}-{(h+1):02d}"`. */
  function HourKey(h: nat): string {
    Pad2(h) + "-" + Pad2(h + 1)
  }

  /** A group's day as the source's dict of 24 `"HH-HH+1"` keys with `"yes"`/`"no"` values. */
  function HourlyText(day: seq<HourState>): (d: Dict<string>)
    requires |day| == HoursPerDay
    ensures |d| == HoursPerDay && UniqueKeys(d)
    ensures forall h :: 0 <= h < HoursPerDay ==> d[h].key == HourKey(h)
    ensures forall h :: 0 <= h < HoursPerDay ==> (d[h].value == "no" <==> day[h] == No)
    ensures forall h :: 0 <= h < HoursPerDay ==> d[h].value == "yes" || d[h].value == "no"
  {
    var d := seq(HoursPerDay, h requires 0 <= h < HoursPerDay =>
      Entry(HourKey(h), if day[h] == Yes then "yes" else "no"));
    forall i, j | 0 <= i < j < HoursPerDay ensures d[i].key != d[j].key {
      HourKeyInjective(i, j);
    }
    d
  }

  lemma HourKeyInjective(a: nat, b: nat)
    requires a < HoursPerDay && b < HoursPerDay && a != b
    ensures HourKey(a) != HourKey(b)
  {
    if HourKey(a) == HourKey(b) {
      assert HourKey(a)[..2] == Pad2(a) && HourKey(b)[..2] == Pad2(b);
      Pad2Injective(a, b);
    }
  }

  /** With the rule as written, an interval that ends at 00:00 marks no hour at all. */
  lemma MidnightEndMarksNothing(day: seq<HourState>, start: string)
    requires |day| == HoursPerDay
    requires MatchesAt(start, 0, ClockPattern) && |start| == 5
    ensures MarkPair(AsWritten, day, TimePair(start, "00:00")) == day
  {
    var p := TimePair(start, "00:00");
    ClockShape(p.end);
    assert PairHours(AsWritten, p).1 == 0;
  }

  /** With the corrected rule, "HH:MM до 00:00" marks every hour from HH to the end of the day. */
  lemma MidnightEndMarksToEndOfDay(start: string, h: nat)
    requires MatchesAt(start, 0, ClockPattern) && |start| == 5 && start != "00:00"
    requires h < HoursPerDay
    ensures Covers(EndOfDayWraps, TimePair(start, "00:00"), h) <==> ClockFields(start).0 <= h
  {
    var (sh, sm) := ClockFields(start);
    ClockShape(start);
    ClockShape("00:00");
    assert sh > 0 || sm > 0;
  }

  /** The two rules agree on every interval whose end is not earlier than its start. */
  lemma RulesAgreeForwards(p: TimePair)
    requires WellFormedPair(p)
    requires ClockFields(p.end).0 * 60 + ClockFields(p.end).1 >= ClockFields(p.start).0 * 60 + ClockFields(p.start).1
    ensures PairHours(EndOfDayWraps, p) == PairHours(AsWritten, p)
  {
  }
}

=== FILE: lviv_worker.dfy ===
/**
 * The Lviv worker: fetching the text page with a bounded number of
 * attempts, and merging a decoded page into the store. Unlike the Volyn
 * worker, a group that had no row yet is always reported.
 */
module LvivWorker {
  import opened Wrappers
  import opened Text
  import opened Slots
  import opened Dict
  import opened Store

  const Region: string := "lviv"
  const MaxRetries: nat := 3

  /**
   * What the `attempt`-th call of `_download_text_page` returned: the page
   * source, or `None` when it raised. Calls beyond the listed outcomes fail.
   */
  function Attempt(outcomes: seq<Option<string>>, attempt: nat): Option<string> {
    if attempt < |outcomes| then outcomes[attempt] else None
  }

  /** The first truthy outcome among attempts `from` .. `limit - 1`, if any. */
  function FirstTruthyFrom(outcomes: seq<Option<string>>, from: nat, limit: nat): (r: Option<string>)
    ensures r.Some? ==> Truthy(r) && exists j :: from <= j < limit && Attempt(outcomes, j) == r
    ensures r.None? <==> forall j :: from <= j < limit ==> !Truthy(Attempt(outcomes, j))
    decreases limit - from
  {
    if from >= limit then None
    else if Truthy(Attempt(outcomes, from)) then Attempt(outcomes, from)
    else FirstTruthyFrom(outcomes, from + 1, limit)
  }

  /**
   * `download_with_retries`: at most three attempts, back to back, returning
   * the first page that is neither `None` nor empty.
   */
  method DownloadWithRetries(outcomes: seq<Option<string>>) returns (page: Option<string>, attempts: nat)
    ensures 1 <= attempts <= MaxRetries
    ensures page == FirstTruthyFrom(outcomes, 0, MaxRetries)
    ensures page.Some? ==> page == Attempt(outcomes, attempts - 1)
                           && forall j :: 0 <= j < attempts - 1 ==> !Truthy(Attempt(outcomes, j))
    ensures page.None? ==> attempts == MaxRetries
  {
    attempts := 0;
    while attempts < MaxRetries
      invariant attempts <= MaxRetries
      invariant forall j :: 0 <= j < attempts ==> !Truthy(Attempt(outcomes, j))
      invariant FirstTruthyFrom(outcomes, attempts, MaxRetries) == FirstTruthyFrom(outcomes, 0, MaxRetries)
    {
      var content := Attempt(outcomes, attempts);
      attempts := attempts + 1;
      if Truthy(content) {
        return content, attempts;
      }
    }
    return None, attempts;
  }

  /** What `parse_lviv_text_data` hands back: a date and time if found, and the groups' days. */
  datatype Decoded = Decoded(date: Option<string>, time: Option<string>, schedule: Dict<seq<HourState>>)

  /** The date and time a run writes under: each found value, else the clock's. */
  function Stamp(d: Decoded, clock: Clock): (t: Target)
    ensures t.region == Region
    ensures t.date == (if Truthy(d.date) then d.date.value else clock.today)
    ensures t.time == (if Truthy(d.time) then d.time.value else clock.time)
  {
    Target(if Truthy(d.date) then d.date.value else clock.today, Region,
           if Truthy(d.time) then d.time.value else clock.time)
  }

  /** A decoded page's days as stored hours, keys and order kept. */
  function AsHours(d: Dict<seq<HourState>>): (r: Dict<Hours>)
    ensures |r| == |d| && Keys(r) == Keys(d)
    ensures forall i :: 0 <= i < |d| ==> r[i] == Entry(d[i].key, Hourly(d[i].value))
  {
    var r := seq(|d|, i requires 0 <= i < |d| => Entry(d[i].key, Hourly(d[i].value)));
    assert Keys(r) == Keys(d);
    r
  }

  /**
   * `update_data` after the download. `decode` stands for the page decoder,
   * whose definition is not part of this model. A failed download or an
   * empty schedule changes nothing.
   */
  function UpdateData(db: Db, clock: Clock, page: Option<string>, decode: string -> Decoded): (r: (Db, seq<string>))
    ensures !Truthy(page) ==> r == (db, [])
    ensures Truthy(page) && |decode(page.value).schedule| == 0 ==> r == (db, [])
    ensures Truthy(page) ==>
              var d := decode(page.value);
              r.0.Keys == db.Keys + Touched(Stamp(d, clock), AsHours(d.schedule))
  {
    if !Truthy(page) then (db, [])
    else
      var d := decode(page.value);
      if |d.schedule| == 0 then (db, [])
      else Upsert(db, ReportAlways, clock.today, Stamp(d, clock), AsHours(d.schedule))
  }

  /**
   * For a decoded page with distinct groups: a group is reported exactly
   * when it had no row at the target date, or its row held other hours.
   * The date being today or not plays no part.
   */
  lemma UpdateDataReports(db: Db, clock: Clock, page: Option<string>, decode: string -> Decoded, g: string)
    requires Truthy(page) && UniqueKeys(decode(page.value).schedule)
    ensures var d := decode(page.value);
            var k := KeyOf(Stamp(d, clock), g);
            g in UpdateData(db, clock, page, decode).1 <==>
              exists i :: 0 <= i < |d.schedule| && d.schedule[i].key == g
                          && (k !in db || db[k].hours != Hourly(d.schedule[i].value))
  {
    var d := decode(page.value);
    var t := Stamp(d, clock);
    var decoded := AsHours(d.schedule);
    if |d.schedule| > 0 {
      assert UniqueKeys(decoded) by {
        forall i, j | 0 <= i < j < |decoded| ensures decoded[i].key != decoded[j].key {
          assert Keys(decoded)[i] == Keys(d.schedule)[i] && Keys(decoded)[j] == Keys(d.schedule)[j];
        }
      }
      UpsertReports(db, ReportAlways, clock.today, t, decoded);
      ExpectedReportMembers(db, ReportAlways, clock.today, t, decoded, g);
      if exists i :: 0 <= i < |decoded| && decoded[i].key == g && Reported(db, ReportAlways, clock.today, t, g, decoded[i].value) {
        var i :| 0 <= i < |decoded| && decoded[i].key == g && Reported(db, ReportAlways, clock.today, t, g, decoded[i].value);
        assert d.schedule[i].key == g;
      }
      if exists i :: 0 <= i < |d.schedule| && d.schedule[i].key == g
                     && (KeyOf(t, g) !in db || db[KeyOf(t, g)].hours != Hourly(d.schedule[i].value)) {
        var i :| 0 <= i < |d.schedule| && d.schedule[i].key == g
                 && (KeyOf(t, g) !in db || db[KeyOf(t, g)].hours != Hourly(d.schedule[i].value));
        assert decoded[i].key == g && Reported(db, ReportAlways, clock.today, t, g, decoded[i].value);
      }
    }
  }

  /**
   * After a decoded page with distinct groups, every group's row at the
   * target date holds its decoded day, and each group is reported once at most.
   */
  lemma UpdateDataWrites(db: Db, clock: Clock, page: Option<string>, decode: string -> Decoded)
    requires Truthy(page) && UniqueKeys(decode(page.value).schedule)
    ensures var d := decode(page.value);
            var db' := UpdateData(db, clock, page, decode).0;
            forall i :: 0 <= i < |d.schedule| ==>
              db'[KeyOf(Stamp(d, clock), d.schedule[i].key)].hours == Hourly(d.schedule[i].value)
    ensures NoDuplicates(UpdateData(db, clock, page, decode).1)
  {
    var d := decode(page.value);
    var t := Stamp(d, clock);
    var decoded := AsHours(d.schedule);
    if |d.schedule| > 0 {
      assert UniqueKeys(decoded) by {
        forall i, j | 0 <= i < j < |decoded| ensures decoded[i].key != decoded[j].key {
          assert Keys(decoded)[i] == Keys(d.schedule)[i] && Keys(decoded)[j] == Keys(d.schedule)[j];
        }
      }
      UpsertWrites(db, ReportAlways, clock.today, t, decoded);
      ReportedOnce(db, ReportAlways, clock.today, t, decoded);
    }
  }
}

=== FILE: registry.dfy ===
/**
 * The region table: one entry per adapter, the lookup by code, the
 * active-region filter, and each adapter's group list, schedule lookup
 * and update entry point. Only the Volyn adapter reads the store or runs
 * a worker; the others are constant tables.
 */
module Registry {
  import opened Wrappers
  import opened Slots
  import opened Store
  import opened Seqs
  import Grid
  import VolynParser
  import VolynWorker

  /** The parts of an adapter the bot uses. */
  datatype Region = Region(code: string, name: string, isActive: bool, groups: seq<string>)

  const Volyn: Region := Region("volyn", "Волинська область", true,
    ["1.1", "1.2", "2.1", "2.2", "3.1", "3.2", "4.1", "4.2", "5.1", "5.2", "6.1", "6.2"])
  const Lviv: Region := Region("lviv", "Львівська область (в розробці)", false, ["1.1", "1.2", "2.1", "2.2", "3.1"])
  const Kyiv: Region := Region("kyiv", "Київська область (в розробці)", false, ["1", "2", "3"])
  /** An adapter that exists but is not registered. */
  const Rivne: Region := Region("rivne", "Рівненська область (в розробці)", false, ["1", "2", "3"])

  /** `get_all_regions_list`. */
  function AllRegions(): (rs: seq<Region>)
    ensures |rs| == 3 && rs[0].code == "volyn" && rs[1].code == "lviv" && rs[2].code == "kyiv"
  {
    [Volyn, Lviv, Kyiv]
  }

  /** `get_region`: the registered adapter for `code`, if any. */
  function GetRegion(code: string): (r: Option<Region>)
    ensures r.Some? <==> code == "volyn" || code == "lviv" || code == "kyiv"
    ensures r.Some? ==> r.value.code == code && r.value in AllRegions()
  {
    if code == "volyn" then Some(Volyn)
    else if code == "lviv" then Some(Lviv)
    else if code == "kyiv" then Some(Kyiv)
    else None
  }

  /** The Rivne adapter is defined but cannot be looked up. */
  lemma RivneUnregistered()
    ensures GetRegion(Rivne.code) == None && Rivne !in AllRegions()
  {
  }

  predicate IsActive(r: Region) {
    r.isActive
  }

  /**
   * `[r for r in regions if r.is_active]`: the active regions, each as
   * often as in the list and in the list's order.
   */
  function ActiveOf(rs: seq<Region>): (r: seq<Region>)
    ensures forall x :: x in r <==> x in rs && x.isActive
    ensures IsSubsequence(r, rs)
    ensures forall x :: multiset(r)[x] == if x.isActive then multiset(rs)[x] else 0
  {
    FilterByIsSubsequence(rs, IsActive);
    FilterByCount(rs, IsActive);
    FilterBy(rs, IsActive)
  }

  /** `get_active_regions_list`. */
  function ActiveRegions(): seq<Region> {
    ActiveOf(AllRegions())
  }

  /** Only Volyn is active. */
  lemma ActiveIsVolyn()
    ensures ActiveRegions() == [Volyn]
  {
    assert AllRegions()[1..] == [Lviv, Kyiv];
    assert AllRegions()[2..] == [Kyiv];
  }

  /** Volyn's group codes are the decoder's keys, in the decoder's order. */
  lemma VolynGroupsAreDecoderKeys()
    ensures Volyn.groups == Grid.GroupNames()
  {
    var names := Grid.GroupNames();
    assert Grid.GroupName(0) == "1.1" && Grid.GroupName(1) == "1.2";
    assert Grid.GroupName(2) == "2.1" && Grid.GroupName(3) == "2.2";
    assert Grid.GroupName(4) == "3.1" && Grid.GroupName(5) == "3.2";
    assert Grid.GroupName(6) == "4.1" && Grid.GroupName(7) == "4.2";
    assert Grid.GroupName(8) == "5.1" && Grid.GroupName(9) == "5.2";
    assert Grid.GroupName(10) == "6.1" && Grid.GroupName(11) == "6.2";
    assert names == [names[0], names[1], names[2], names[3], names[4], names[5],
                     names[6], names[7], names[8], names[9], names[10], names[11]];
  }

  /** What `get_schedule` returns: the stored hours and the site's update time. */
  datatype ScheduleView = ScheduleView(hours: Hours, updatedAt: Option<string>)

  /** `region.get_schedule(group, date)`; only Volyn reads the store. */
  function GetSchedule(region: Region, db: Db, group: string, date: string): (r: Option<ScheduleView>)
    ensures region.code != "volyn" ==> r.None?
    ensures region.code == "volyn" ==> (r.Some? <==> Key(date, "volyn", group) in db)
    ensures r.Some? ==> r.value == ScheduleView(db[Key(date, region.code, group)].hours,
                                                  db[Key(date, region.code, group)].siteUpdatedAt)
  {
    if region.code != "volyn" then None
    else
      var k := Key(date, region.code, group);
      if k in db then Some(ScheduleView(db[k].hours, db[k].siteUpdatedAt)) else None
  }

  /** `region.update_data()`: Volyn runs its worker; the others keep the default `[]`. */
  function UpdateData(region: Region, db: Db, clock: Clock, fetched: Option<VolynWorker.Picture>): (r: (Db, seq<string>))
    ensures region.code == "volyn" ==> r == VolynWorker.RunUpdate(db, clock, fetched)
    ensures region.code != "volyn" ==> r == (db, [])
  {
    if region.code == "volyn" then VolynWorker.RunUpdate(db, clock, fetched) else (db, [])
  }

  /**
   * Reading a Volyn group back after an update that decoded a picture gives
   * the 48 slots just decoded for it, at the date the update wrote under.
   */
  lemma ScheduleReadsBackUpdate(db: Db, clock: Clock, pic: VolynWorker.Picture, row: nat)
    requires pic.image.Some? && row < Grid.GroupRows
    ensures var date := VolynWorker.Stamp(VolynParser.InfoFromImage(pic.ocrText), clock).date;
            var view := GetSchedule(Volyn, UpdateData(Volyn, db, clock, Some(pic)).0, Volyn.groups[row], date);
            && view.Some?
            && view.value.hours == HalfHourly(VolynParser.ParseImage(pic.image).value[row].value)
            && |view.value.hours.slots| == SlotsPerDay
  {
    VolynWorker.RunUpdateWrites(db, clock, pic);
    VolynGroupsAreDecoderKeys();
  }
}

=== FILE: render.dfy ===
/**
 * The schedule message of the region-aware bot: a 24-cell timeline, the
 * outage intervals, the total hours without power and the site's update
 * time. The message is kept as its parts; `MessageText` lays them out.
 */
module Render {
  import opened Wrappers
  import opened Text
  import opened Slots
  import opened Runs

  /** `true` where the slot is `'off'`; `'on'` and `'unknown'` both end a run. */
  function OffMask(xs: seq<Slot>): (m: seq<bool>)
    ensures |m| == |xs| && forall i :: 0 <= i < |xs| ==> (m[i] <==> xs[i] == Off)
  {
    seq(|xs|, i requires 0 <= i < |xs| => xs[i] == Off)
  }

  /** `schedule_list.count('off')`. */
  function CountOff(xs: seq<Slot>): nat {
    CountFrom(OffMask(xs), 0)
  }

  /** The clock time at which half-hour `i` begins: `f"{i // 2:02d}:{'00' or '30'}"`. */
  function HalfHourLabel(i: nat): string {
    Pad2(i / 2) + ":" + (if i % 2 == 0 then "00" else "30")
  }

  /** Reads an `HH:MM` label with minutes `00` or `30` back as a half-hour index. */
  function ParseHalfHourLabel(s: string): (r: Option<nat>)
    ensures r.Some? ==> |s| == 5 && s[2] == ':'
  {
    if |s| == 5 && AllDigits(s[..2]) && s[2] == ':' && (s[3..] == "00" || s[3..] == "30") then
      Some(DigitsValue(s[..2]) * 2 + (if s[3..] == "30" then 1 else 0))
    else None
  }

  /** Labels of half-hours before hour 100 read back as their index. */
  lemma HalfHourLabelRoundTrip(i: nat)
    requires i < 200
    ensures ParseHalfHourLabel(HalfHourLabel(i)) == Some(i)
  {
    var s := HalfHourLabel(i);
    assert s[..2] == Pad2(i / 2);
    assert s[3..] == (if i % 2 == 0 then "00" else "30");
  }

  /** `HH:MM - HH:MM` for a run; a run reaching the end of the list closes at "24:00". */
  function IntervalRange(r: Run, n: nat): string {
    HalfHourLabel(r.start) + " - " + (if r.end == n then "24:00" else HalfHourLabel(r.end))
  }

  /** A half-hour label is digits and a colon. */
  lemma HalfHourLabelHasNoNewline(i: nat)
    ensures '\n' !in HalfHourLabel(i)
  {
    var s := HalfHourLabel(i);
    var d := Pad2(i / 2);
    forall j | 0 <= j < |s| ensures s[j] != '\n' {
      if j < |d| {
        assert s[j] == d[j] && IsDigit(d[j]);
      }
    }
  }

  /** An interval range stays on one line. */
  lemma IntervalRangeHasNoNewline(r: Run, n: nat)
    ensures '\n' !in IntervalRange(r, n)
  {
    HalfHourLabelHasNoNewline(r.start);
    HalfHourLabelHasNoNewline(r.end);
  }

  const Red: char := '\U{1F7E5}'
  const Green: char := '\U{1F7E9}'
  const Legend: string := "`00..04..08..12..16..20..24`"
  const NoDataMessage: string := "Дані відсутні."
  const AllDayMessage: string := "\U{1F389} Світло має бути весь день!"
  const IntervalPrefix: string := "\U{1F570} "

  /** One cell per hour, red when either of its half-hours is off. */
  function Timeline(xs: seq<Slot>): (t: string)
    requires |xs| >= SlotsPerDay
    ensures |t| == HoursPerDay
    ensures forall k :: 0 <= k < HoursPerDay ==> (t[k] == Red <==> xs[2 * k] == Off || xs[2 * k + 1] == Off)
    ensures forall k :: 0 <= k < HoursPerDay ==> (t[k] == Green <==> xs[2 * k] != Off && xs[2 * k + 1] != Off)
  {
    seq(HoursPerDay, k requires 0 <= k < HoursPerDay =>
      if xs[2 * k] == Off || xs[2 * k + 1] == Off then Red else Green)
  }

  /** `total_off_hours` as printed: `count * 0.5`, without ".0" when whole. */
  function OffHoursText(count: nat): (s: string)
    ensures count % 2 == 0 ==> AllDigits(s) && DigitsValue(s) * 2 == count
    ensures count % 2 == 1 ==> |s| >= 3 && s[|s| - 2..] == ".5"
                               && AllDigits(s[..|s| - 2]) && DigitsValue(s[..|s| - 2]) * 2 + 1 == count
  {
    NatToStringRoundTrip(count / 2);
    if count % 2 == 0 then NatToString(count / 2)
    else
      var s := NatToString(count / 2) + ".5";
      assert s[..|s| - 2] == NatToString(count / 2);
      s
  }

  /** What `format_schedule_text` produces, as its parts. */
  datatype Reply =
    | NoData
    /** The timeline loop reads `schedule_list[i]` for every `i < 48`: an `IndexError` on a shorter list. */
    | Crashed
    | Schedule(timeline: string, intervals: seq<string>, offHours: string, updated: Option<string>)

  /** `format_schedule_text(schedule_list, update_time)`. */
  function FormatSchedule(xs: Option<seq<Slot>>, updateTime: Option<string>): (r: Reply)
    ensures r == NoData <==> xs.None? || |xs.value| == 0
    ensures r == Crashed <==> xs.Some? && 0 < |xs.value| < SlotsPerDay
    ensures r.Schedule? ==> |r.timeline| == HoursPerDay
    ensures r.Schedule? ==> forall k :: 0 <= k < HoursPerDay ==>
              (r.timeline[k] == Red <==> xs.value[2 * k] == Off || xs.value[2 * k + 1] == Off)
    ensures r.Schedule? ==> var runs := OffRuns(OffMask(xs.value));
              |r.intervals| == |runs|
              && forall k :: 0 <= k < |runs| ==> r.intervals[k] == IntervalPrefix + IntervalRange(runs[k], |xs.value|)
    ensures r.Schedule? ==> r.offHours == OffHoursText(CountOff(xs.value))
    ensures r.Schedule? ==> (r.updated.Some? <==> Truthy(updateTime)) && (r.updated.Some? ==> r.updated == updateTime)
  {
    if xs.None? || |xs.value| == 0 then NoData
    else if |xs.value| < SlotsPerDay then Crashed
    else
      var runs := OffRuns(OffMask(xs.value));
      var intervals := seq(|runs|, k requires 0 <= k < |runs| => IntervalPrefix + IntervalRange(runs[k], |xs.value|));
      Schedule(Timeline(xs.value), intervals, OffHoursText(CountOff(xs.value)),
               if Truthy(updateTime) then updateTime else None)
  }

  const TotalPrefix: string := "\n\n\U{1F4CA} **Всього без світла:** "
  const UpdatedPrefix: string := "\n\U{1F552} Оновлено на сайті: "

  /** The closing line with the total hours without power. */
  function TotalLine(offHours: string): string {
    TotalPrefix + offHours + " год."
  }

  /** What the message shows under the legend: the interval lines, or the all-day message when there are none. */
  function IntervalsText(intervals: seq<string>): string {
    if |intervals| == 0 then AllDayMessage else Join(intervals, "\n")
  }

  /** Where the intervals' text starts: after the timeline, a newline, the legend and a blank line. */
  function IntervalsOffset(r: Reply): nat
    requires r.Schedule?
  {
    |r.timeline| + 1 + |Legend| + 2
  }

  /**
   * The message text; `None` when the call raised. A schedule reads: the
   * timeline and the legend, the intervals (or the all-day message), the
   * total, and the site's update time when there is one.
   */
  function MessageText(r: Reply): (t: Option<string>)
    ensures t.None? <==> r.Crashed?
    ensures r.NoData? ==> t == Some(NoDataMessage)
    ensures r.Schedule? ==> StartsWith(t.value, r.timeline + "\n" + Legend + "\n\n")
    ensures r.Schedule? ==> OccursAt(t.value, IntervalsText(r.intervals), IntervalsOffset(r))
    ensures r.Schedule? && r.updated.None? ==> EndsWith(t.value, TotalLine(r.offHours))
    ensures r.Schedule? && r.updated.Some? ==> EndsWith(t.value, TotalLine(r.offHours) + UpdatedPrefix + r.updated.value)
    ensures r.Schedule? ==> |t.value| == IntervalsOffset(r) + |IntervalsText(r.intervals)| + |TotalLine(r.offHours)|
                                         + (if r.updated.Some? then |UpdatedPrefix| + |r.updated.value| else 0)
  {
    match r
    case NoData => Some(NoDataMessage)
    case Crashed => None
    case Schedule(timeline, intervals, offHours, updated) =>
      var head := timeline + "\n" + Legend + "\n\n";
      var tail := if updated.Some? then TotalLine(offHours) + UpdatedPrefix + updated.value else TotalLine(offHours);
      Layout(head, IntervalsText(intervals), tail);
      Some(head + IntervalsText(intervals) + tail)
  }

  /** Where the three parts of a concatenation sit. */
  lemma Layout(head: string, middle: string, tail: string)
    ensures var t := head + middle + tail;
            && StartsWith(t, head)
            && OccursAt(t, middle, |head|)
            && EndsWith(t, tail)
  {
    var t := head + middle + tail;
    assert t[..|head|] == head;
    assert t[|head|..|head| + |middle|] == middle;
    assert t[|t| - |tail|..] == tail;
  }

  /** A run always starts on an "off" slot, so a list without one has no interval. */
  lemma NoRunsWithoutOff(mask: seq<bool>)
    ensures (forall i :: 0 <= i < |mask| ==> !mask[i]) <==> |OffRuns(mask)| == 0
  {
    var runs := OffRuns(mask);
    if |runs| > 0 {
      assert mask[runs[0].start];
    }
  }

  /** The all-day message is shown, under the legend, exactly when no slot is off. */
  lemma AllDayIffNoOff(xs: seq<Slot>, updateTime: Option<string>)
    requires |xs| >= SlotsPerDay
    ensures var r := FormatSchedule(Some(xs), updateTime);
            OccursAt(MessageText(r).value, AllDayMessage, IntervalsOffset(r)) <==>
              forall i :: 0 <= i < |xs| ==> xs[i] != Off
  {
    var r := FormatSchedule(Some(xs), updateTime);
    var t := MessageText(r).value;
    NoRunsWithoutOff(OffMask(xs));
    if |r.intervals| > 0 {
      var lines := Join(r.intervals, "\n");
      JoinStartsWithFirst(r.intervals, "\n");
      assert lines[0] == IntervalPrefix[0];
      OccursAtFirstDiffers(t, lines, AllDayMessage, IntervalsOffset(r));
    }
  }

  /**
   * The intervals are the maximal off runs one-to-one and in order: any
   * ordered, covering list of maximal runs yields the same interval lines.
   */
  lemma IntervalsAreMaximalRuns(xs: seq<Slot>, updateTime: Option<string>, runs: seq<Run>)
    requires |xs| >= SlotsPerDay
    requires IsDecomposition(OffMask(xs), runs, 0)
    ensures var r := FormatSchedule(Some(xs), updateTime);
            |r.intervals| == |runs|
            && forall k :: 0 <= k < |runs| ==> r.intervals[k] == IntervalPrefix + IntervalRange(runs[k], |xs|)
  {
    DecompositionUnique(OffMask(xs), runs, OffRuns(OffMask(xs)), 0);
  }

  /** The total printed is half the number of off slots, which is the runs' total length halved. */
  lemma OffHoursFromRuns(xs: seq<Slot>)
    ensures TotalLength(OffRuns(OffMask(xs))) == CountOff(xs)
  {
    RunsCoverCount(OffMask(xs));
  }

  /** Rendered interval starts read back as the run's first half-hour. */
  lemma IntervalStartReadsBack(r: Run, n: nat)
    requires r.start < 200
    ensures ParseHalfHourLabel(IntervalRange(r, n)[..5]) == Some(r.start)
  {
    HalfHourLabelRoundTrip(r.start);
    assert |HalfHourLabel(r.start)| == 5;
    assert IntervalRange(r, n)[..5] == HalfHourLabel(r.start);
  }
}

=== FILE: runs.dfy ===
/**
 * Maximal runs of "off" half-hours. Both schedule renderers walk the slot
 * list once, opening a run at the first "off" and closing it at the next
 * slot that is not "off"; a run still open at the end reaches the end of
 * the list. The walk is modelled over a mask, `true` meaning "off".
 */
module Runs {
  import opened Wrappers

  /** The half-open index range `[start, end)`. */
  datatype Run = Run(start: nat, end: nat)

  predicate InRun(r: Run, i: int) {
    r.start <= i < r.end
  }

  /** A non-empty stretch of `true` that cannot be extended either way. */
  predicate IsMaximalRun(mask: seq<bool>, r: Run) {
    && r.start < r.end <= |mask|
    && (forall i :: r.start <= i < r.end ==> mask[i])
    && (r.start == 0 || !mask[r.start - 1])
    && (r.end == |mask| || !mask[r.end])
  }

  /**
   * `runs` lists, left to right and without overlap, exactly the maximal
   * runs of `mask` that start at or after `lo`, and covers every `true` there.
   */
  predicate IsDecomposition(mask: seq<bool>, runs: seq<Run>, lo: nat) {
    && (forall k :: 0 <= k < |runs| ==> IsMaximalRun(mask, runs[k]) && lo <= runs[k].start)
    && (forall k1, k2 :: 0 <= k1 < k2 < |runs| ==> runs[k1].end < runs[k2].start)
    && (forall i :: lo <= i < |mask| && mask[i] ==> exists k :: 0 <= k < |runs| && InRun(runs[k], i))
  }

  /** The state of the walk before index `i`, with the start of the open run if any. */
  predicate ScanState(mask: seq<bool>, i: nat, open: Option<nat>) {
    && i <= |mask|
    && (open.Some? ==> && open.value < i
                       && (forall j :: open.value <= j < i ==> mask[j])
                       && (open.value == 0 || !mask[open.value - 1]))
    && (open.None? ==> i == 0 || !mask[i - 1])
  }

  function StartOf(i: nat, open: Option<nat>): nat {
    if open.Some? then open.value else i
  }

  /** The renderers' loop from index `i`, the open run's start in `open`. */
  function Scan(mask: seq<bool>, i: nat, open: Option<nat>): seq<Run>
    requires i <= |mask|
    decreases |mask| - i
  {
    if i == |mask| then
      if open.Some? then [Run(open.value, i)] else []
    else if mask[i] then
      Scan(mask, i + 1, if open.Some? then open else Some(i))
    else if open.None? then Scan(mask, i + 1, None)
    else [Run(open.value, i)] + Scan(mask, i + 1, None)
  }

  /**
   * From a consistent state the loop lists the maximal runs from the open
   * run's start (or from `i`) on, in order, covering every "off" slot.
   */
  lemma {:induction false} ScanDecomposes(mask: seq<bool>, i: nat, open: Option<nat>)
    requires ScanState(mask, i, open)
    ensures IsDecomposition(mask, Scan(mask, i, open), StartOf(i, open))
    decreases |mask| - i
  {
    if i == |mask| {
      if open.Some? {
        var runs := [Run(open.value, i)];
        assert forall j :: open.value <= j < |mask| ==> InRun(runs[0], j);
      }
    } else if mask[i] {
      ScanDecomposes(mask, i + 1, if open.Some? then open else Some(i));
    } else {
      ScanDecomposes(mask, i + 1, None);
      if open.Some? {
        CloseRun(mask, open.value, i, Scan(mask, i + 1, None));
      }
    }
  }

  /** Closing the open run `[s, i)` in front of a decomposition of what follows index `i`. */
  lemma CloseRun(mask: seq<bool>, s: nat, i: nat, rest: seq<Run>)
    requires s < i < |mask| && !mask[i] && (s == 0 || !mask[s - 1])
    requires forall j :: s <= j < i ==> mask[j]
    requires IsDecomposition(mask, rest, i + 1)
    ensures IsDecomposition(mask, [Run(s, i)] + rest, s)
  {
    var runs := [Run(s, i)] + rest;
    assert forall k :: 1 <= k < |runs| ==> runs[k] == rest[k - 1];
    forall j | s <= j < |mask| && mask[j]
      ensures exists k :: 0 <= k < |runs| && InRun(runs[k], j)
    {
      if j < i {
        assert InRun(runs[0], j);
      } else {
        var k :| 0 <= k < |rest| && InRun(rest[k], j);
        assert InRun(runs[k + 1], j);
      }
    }
  }

  /** The maximal "off" runs of a whole list, in order. */
  function OffRuns(mask: seq<bool>): (runs: seq<Run>)
    ensures IsDecomposition(mask, runs, 0)
  {
    ScanDecomposes(mask, 0, None);
    Scan(mask, 0, None)
  }

  /** Two maximal runs that start together end together. */
  lemma SameStartSameEnd(mask: seq<bool>, r1: Run, r2: Run)
    requires IsMaximalRun(mask, r1) && IsMaximalRun(mask, r2) && r1.start == r2.start
    ensures r1 == r2
  {
  }

  /**
   * The decomposition is unique: any list of runs with the three properties
   * is the renderers' list, so the listed intervals are the maximal runs
   * one-to-one and in order.
   */
  lemma {:induction false} DecompositionUnique(mask: seq<bool>, a: seq<Run>, b: seq<Run>, lo: nat)
    requires IsDecomposition(mask, a, lo) && IsDecomposition(mask, b, lo)
    ensures a == b
    decreases |a|
  {
    BothEmptyOrNot(mask, a, b, lo);
    BothEmptyOrNot(mask, b, a, lo);
    if |a| > 0 {
      FirstRunsEqual(mask, a, b, lo);
      TailDecomposition(mask, a, lo);
      TailDecomposition(mask, b, lo);
      DecompositionUnique(mask, a[1..], b[1..], a[0].end);
      assert a == [a[0]] + a[1..] && b == [b[0]] + b[1..];
    }
  }

  /** A decomposition with a run forces every other one to have a run too. */
  lemma BothEmptyOrNot(mask: seq<bool>, a: seq<Run>, b: seq<Run>, lo: nat)
    requires IsDecomposition(mask, a, lo) && IsDecomposition(mask, b, lo)
    ensures |a| > 0 ==> |b| > 0
  {
    if |a| > 0 {
      assert lo <= a[0].start < |mask| && mask[a[0].start];
    }
  }

  /** Two decompositions open with the same run: the first `true` at or after `lo`. */
  lemma FirstRunsEqual(mask: seq<bool>, a: seq<Run>, b: seq<Run>, lo: nat)
    requires IsDecomposition(mask, a, lo) && IsDecomposition(mask, b, lo)
    requires |a| > 0 && |b| > 0
    ensures a[0] == b[0]
  {
    FirstRunStartsAtFirstOff(mask, a, lo);
    FirstRunStartsAtFirstOff(mask, b, lo);
    assert a[0].start < |mask| && mask[a[0].start];
    assert b[0].start < |mask| && mask[b[0].start];
    SameStartSameEnd(mask, a[0], b[0]);
  }

  /** The first run of a decomposition starts at the first `true` at or after `lo`. */
  lemma FirstRunStartsAtFirstOff(mask: seq<bool>, runs: seq<Run>, lo: nat)
    requires IsDecomposition(mask, runs, lo) && |runs| > 0
    ensures IsMaximalRun(mask, runs[0]) && lo <= runs[0].start
    ensures forall j :: lo <= j < |mask| && mask[j] ==> runs[0].start <= j
  {
    assert IsMaximalRun(mask, runs[0]);
    forall j | lo <= j < |mask| && mask[j] ensures runs[0].start <= j {
      var k :| 0 <= k < |runs| && InRun(runs[k], j);
      FirstStartIsLeast(mask, runs, lo, k);
    }
  }

  /** The runs of a decomposition start in increasing order. */
  lemma FirstStartIsLeast(mask: seq<bool>, runs: seq<Run>, lo: nat, k: nat)
    requires IsDecomposition(mask, runs, lo) && k < |runs|
    ensures runs[0].start <= runs[k].start
  {
    if k > 0 {
      assert runs[0].end < runs[k].start;
      assert IsMaximalRun(mask, runs[0]);
    }
  }

  /** Dropping the first run leaves a decomposition of what follows it. */
  lemma TailDecomposition(mask: seq<bool>, runs: seq<Run>, lo: nat)
    requires IsDecomposition(mask, runs, lo) && |runs| > 0
    ensures IsDecomposition(mask, runs[1..], runs[0].end)
  {
    var tail := runs[1..];
    forall i | runs[0].end <= i < |mask| && mask[i]
      ensures exists k :: 0 <= k < |tail| && InRun(tail[k], i)
    {
      var k :| 0 <= k < |runs| && InRun(runs[k], i);
      assert k != 0;
      assert InRun(tail[k - 1], i);
    }
  }

  /** The number of `true` entries of `mask` from index `i` on. */
  function CountFrom(mask: seq<bool>, i: nat): nat
    requires i <= |mask|
    decreases |mask| - i
  {
    if i == |mask| then 0 else (if mask[i] then 1 else 0) + CountFrom(mask, i + 1)
  }

  /** The total length of a list of runs. */
  function TotalLength(runs: seq<Run>): int {
    if |runs| == 0 then 0 else runs[0].end - runs[0].start + TotalLength(runs[1..])
  }

  lemma TotalLengthCons(r: Run, rest: seq<Run>)
    ensures TotalLength([r] + rest) == r.end - r.start + TotalLength(rest)
  {
    assert ([r] + rest)[1..] == rest;
  }

  lemma {:induction false} ScanLength(mask: seq<bool>, i: nat, open: Option<nat>)
    requires i <= |mask|
    ensures TotalLength(Scan(mask, i, open)) == CountFrom(mask, i) + (i - StartOf(i, open))
    decreases |mask| - i
  {
    if i == |mask| {
      if open.Some? {
        TotalLengthCons(Run(open.value, i), []);
        assert [Run(open.value, i)] + [] == Scan(mask, i, open);
      }
    } else if mask[i] {
      ScanLength(mask, i + 1, if open.Some? then open else Some(i));
    } else {
      ScanLength(mask, i + 1, None);
      if open.Some? {
        TotalLengthCons(Run(open.value, i), Scan(mask, i + 1, None));
      }
    }
  }

  /** The runs together are exactly as long as the number of "off" entries. */
  lemma RunsCoverCount(mask: seq<bool>)
    ensures TotalLength(OffRuns(mask)) == CountFrom(mask, 0)
  {
    ScanLength(mask, 0, None);
  }
}

=== FILE: seqs.dfy ===
/**
 * Order-preserving filters, `[x for x in xs if keep(x)]`, as the bot uses
 * them for the character filter, the active-region list and the group
 * lines of the Lviv page. A filter result is pinned down by two facts:
 * it is a subsequence of the input, and each value occurs in it as often
 * as in the input when it passes the test, and not at all otherwise.
 */
module Seqs {

  /** `[x for x in xs if keep(x)]`. */
  function FilterBy<T>(xs: seq<T>, keep: T -> bool): (ys: seq<T>)
    ensures |ys| <= |xs|
    ensures forall k :: 0 <= k < |ys| ==> keep(ys[k])
    ensures forall k :: 0 <= k < |ys| ==> ys[k] in xs
    ensures forall k :: 0 <= k < |xs| && keep(xs[k]) ==> xs[k] in ys
    decreases |xs|
  {
    if |xs| == 0 then []
    else (if keep(xs[0]) then [xs[0]] else []) + FilterBy(xs[1..], keep)
  }

  /** `a` can be obtained from `b` by deleting elements. */
  predicate IsSubsequence<T(==)>(a: seq<T>, b: seq<T>)
    decreases |b|
  {
    if |a| == 0 then true
    else if |b| == 0 then false
    else if a[0] == b[0] then IsSubsequence(a[1..], b[1..])
    else IsSubsequence(a, b[1..])
  }

  /** Filtering a concatenation filters each part. */
  lemma {:induction false} FilterByConcat<T>(a: seq<T>, b: seq<T>, keep: T -> bool)
    ensures FilterBy(a + b, keep) == FilterBy(a, keep) + FilterBy(b, keep)
    decreases |a|
  {
    if |a| > 0 {
      assert (a + b)[0] == a[0] && (a + b)[1..] == a[1..] + b;
      FilterByConcat(a[1..], b, keep);
    } else {
      assert a + b == b;
    }
  }

  /** A passing value keeps all its occurrences; any other value has none. */
  lemma {:induction false} FilterByCount<T>(xs: seq<T>, keep: T -> bool)
    ensures forall x :: multiset(FilterBy(xs, keep))[x] == if keep(x) then multiset(xs)[x] else 0
    decreases |xs|
  {
    if |xs| > 0 {
      FilterByCount(xs[1..], keep);
      assert xs == [xs[0]] + xs[1..];
      assert multiset(xs) == multiset{xs[0]} + multiset(xs[1..]);
    }
  }

  /** The filter only deletes: what remains keeps the input's order. */
  lemma {:induction false} FilterByIsSubsequence<T>(xs: seq<T>, keep: T -> bool)
    ensures IsSubsequence(FilterBy(xs, keep), xs)
    decreases |xs|
  {
    if |xs| > 0 {
      FilterByIsSubsequence(xs[1..], keep);
      var rest := FilterBy(xs[1..], keep);
      if keep(xs[0]) {
        assert FilterBy(xs, keep) == [xs[0]] + rest;
        assert FilterBy(xs, keep)[1..] == rest;
      } else {
        assert FilterBy(xs, keep) == rest;
        SubsequenceOfTail(rest, xs);
      }
    }
  }

  /** A subsequence of a tail is a subsequence of the whole. */
  lemma {:induction false} SubsequenceOfTail<T>(a: seq<T>, b: seq<T>)
    requires |b| > 0 && IsSubsequence(a, b[1..])
    ensures IsSubsequence(a, b)
    decreases |b|, |a|
  {
    if |a| > 0 && a[0] == b[0] {
      // `a[1..]` is a subsequence of `b[1..]` because `a` is.
      SubsequenceDropHead(a, b[1..]);
    }
  }

  /** Dropping the first element keeps a subsequence a subsequence. */
  lemma {:induction false} SubsequenceDropHead<T>(a: seq<T>, b: seq<T>)
    requires |a| > 0 && IsSubsequence(a, b)
    ensures IsSubsequence(a[1..], b)
    decreases |b|, |a|
  {
    if a[0] == b[0] {
      if |a| > 1 {
        SubsequenceOfTail(a[1..], b);
      }
    } else {
      SubsequenceDropHead(a, b[1..]);
      if |a[1..]| > 0 {
        SubsequenceOfTail(a[1..], b);
      }
    }
  }

  /** A subsequence holds each value at most as often as the whole. */
  lemma {:induction false} SubsequenceCounts<T>(a: seq<T>, b: seq<T>)
    requires IsSubsequence(a, b)
    ensures multiset(a) <= multiset(b)
    decreases |b|
  {
    if |a| > 0 {
      assert b == [b[0]] + b[1..];
      if a[0] == b[0] {
        SubsequenceCounts(a[1..], b[1..]);
        assert a == [a[0]] + a[1..];
      } else {
        SubsequenceCounts(a, b[1..]);
      }
    }
  }

  /**
   * The two facts determine the filter: a subsequence of `xs` with the
   * filter's counts is the filter's result.
   */
  lemma {:induction false} FilterByUnique<T>(xs: seq<T>, keep: T -> bool, ys: seq<T>)
    requires IsSubsequence(ys, xs)
    requires forall x :: multiset(ys)[x] == if keep(x) then multiset(xs)[x] else 0
    ensures ys == FilterBy(xs, keep)
    decreases |xs|
  {
    if |xs| == 0 {
      assert multiset(ys) == multiset{};
    } else {
      var x0, rest := xs[0], xs[1..];
      assert xs == [x0] + rest;
      assert multiset(xs) == multiset{x0} + multiset(rest);
      if keep(x0) {
        assert x0 in multiset(ys);
        if ys[0] != x0 {
          SubsequenceCounts(ys, rest);
          assert false;
        }
        assert ys == [x0] + ys[1..];
        assert multiset(ys) == multiset{x0} + multiset(ys[1..]);
        FilterByUnique(rest, keep, ys[1..]);
      } else {
        if |ys| > 0 {
          assert ys[0] in multiset(ys);
        }
        FilterByUnique(rest, keep, ys);
      }
    }
  }

  /** The filter leaves a list alone exactly when every element passes. */
  lemma FilterByFixedPoints<T>(xs: seq<T>, keep: T -> bool)
    ensures FilterBy(xs, keep) == xs <==> forall k :: 0 <= k < |xs| ==> keep(xs[k])
  {
    if forall k :: 0 <= k < |xs| ==> keep(xs[k]) {
      AllPassUnchanged(xs, keep);
    }
  }

  /** A list whose elements all pass comes through unchanged. */
  lemma {:induction false} AllPassUnchanged<T>(xs: seq<T>, keep: T -> bool)
    requires forall k :: 0 <= k < |xs| ==> keep(xs[k])
    ensures FilterBy(xs, keep) == xs
    decreases |xs|
  {
    if |xs| > 0 {
      var tail := xs[1..];
      assert forall k :: 0 <= k < |tail| ==> keep(tail[k]) by {
        forall k | 0 <= k < |tail| ensures keep(tail[k]) {
          assert tail[k] == xs[k + 1];
        }
      }
      AllPassUnchanged(tail, keep);
      assert xs == [xs[0]] + tail;
    }
  }

  /** Some element passes iff one before the last does or the last does. */
  lemma ExistsSnoc<T>(xs: seq<T>, init: seq<T>, test: T -> bool)
    requires |xs| > 0 && init == xs[..|xs| - 1]
    ensures (exists k :: 0 <= k < |xs| && test(xs[k])) <==>
              (exists k :: 0 <= k < |init| && test(init[k])) || test(xs[|xs| - 1])
  {
    if exists k :: 0 <= k < |init| && test(init[k]) {
      var k :| 0 <= k < |init| && test(init[k]);
      assert test(xs[k]);
    }
    if exists k :: 0 <= k < |xs| && test(xs[k]) {
      var k :| 0 <= k < |xs| && test(xs[k]);
      if k < |xs| - 1 {
        assert test(init[k]);
      }
    }
  }
}

=== FILE: slots.dfy ===
/**
 * The values a decoded schedule is made of: half-hour slots for image
 * sources, hourly states for the text source, and the payload a stored
 * schedule record holds.
 */
module Slots {

  /** One half-hour of a day: `'on'`, `'off'` or `'unknown'`. */
  datatype Slot = On | Off | Unknown

  /** The string the decoders store for a slot. */
  function SlotName(s: Slot): (name: string)
    ensures name == "off" <==> s == Off
  {
    match s
    case On => "on"
    case Off => "off"
    case Unknown => "unknown"
  }

  /** Half-hour slots in a day; slot `i` covers minutes `[30 i, 30 i + 30)`. */
  const SlotsPerDay: nat := 48

  /** One hour of the text source's day: `"yes"` (power on) or `"no"`. */
  datatype HourState = Yes | No

  const HoursPerDay: nat := 24

  /**
   * The `hours_data` column of a schedule record. The column holds JSON
   * text; JSON encoding of these lists is taken as exact, so the record
   * keeps the decoded value and JSON text equality becomes value equality.
   */
  datatype Hours = HalfHourly(slots: seq<Slot>) | Hourly(hours: seq<HourState>)
}

=== FILE: store.dfy ===
/**
 * The schedule store and the diff/upsert step shared by the region
 * workers. The `schedules` table is a finite map keyed by its composite
 * primary key (date, region, group code). One decoded schedule is merged
 * in group by group; the result is the new store and the groups whose
 * schedule changed, in decode order.
 */
module Store {
  import opened Wrappers
  import opened Slots
  import opened Dict

  /** The primary key of a `schedules` row. */
  datatype Key = Key(date: string, region: string, group: string)

  /** A stored row: the decoded hours and the time the site says it was updated. */
  datatype Record = Record(hours: Hours, siteUpdatedAt: Option<string>)

  type Db = map<Key, Record>

  /**
   * When a group that had no row yet counts as changed. The Volyn worker
   * reports it only for today's date; the Lviv worker always does.
   */
  datatype NewRecordPolicy = ReportWhenToday | ReportAlways

  /** The Kyiv wall clock, formatted as `%Y-%m-%d` and `%H:%M`, read once per run. */
  datatype Clock = Clock(today: string, time: string)

  /** Where one merge writes: the decoded date and the worker's region. */
  datatype Target = Target(date: string, region: string, time: string)

  function KeyOf(t: Target, group: string): Key {
    Key(t.date, t.region, group)
  }

  /** Whether merging `hours` for `group` into `db` reports the group. */
  predicate Reported(db: Db, policy: NewRecordPolicy, today: string, t: Target, group: string, hours: Hours) {
    var k := KeyOf(t, group);
    if k in db then db[k].hours != hours
    else policy == ReportAlways || t.date == today
  }

  /**
   * One iteration of the merge loop. An existing row with equal hours is
   * left as it is, `siteUpdatedAt` included; a different one gets the new
   * hours and time; a missing one is inserted.
   */
  function UpsertOne(db: Db, policy: NewRecordPolicy, today: string, t: Target, group: string, hours: Hours): (r: (Db, bool))
    ensures var k := KeyOf(t, group);
            k in db && db[k].hours == hours ==> r.0 == db
    ensures var k := KeyOf(t, group);
            !(k in db && db[k].hours == hours) ==> r.0 == db[k := Record(hours, Some(t.time))]
    ensures r.1 == Reported(db, policy, today, t, group, hours)
    ensures r.0.Keys == db.Keys + {KeyOf(t, group)}
    ensures r.0[KeyOf(t, group)].hours == hours
  {
    var k := KeyOf(t, group);
    if k in db then
      if db[k].hours != hours then (db[k := Record(hours, Some(t.time))], true)
      else (db, false)
    else
      (db[k := Record(hours, Some(t.time))], policy == ReportAlways || t.date == today)
  }

  /** The keys a merge of `decoded` may write. */
  function Touched(t: Target, decoded: Dict<Hours>): set<Key> {
    set g | g in Keys(decoded) :: KeyOf(t, g)
  }

  /** The merge loop over the decoded groups in order, appending each reported group. */
  function Upsert(db: Db, policy: NewRecordPolicy, today: string, t: Target, decoded: Dict<Hours>): (r: (Db, seq<string>))
    ensures r.0.Keys == db.Keys + Touched(t, decoded)
    ensures forall k :: k in db && k !in Touched(t, decoded) ==> r.0[k] == db[k]
    ensures forall g :: g in r.1 ==> g in Keys(decoded)
    ensures |r.1| <= |decoded|
    decreases |decoded|
  {
    if |decoded| == 0 then (db, [])
    else
      var init := decoded[..|decoded| - 1];
      var last := decoded[|decoded| - 1];
      var (db1, changed) := Upsert(db, policy, today, t, init);
      var (db2, reported) := UpsertOne(db1, policy, today, t, last.key, last.value);
      assert Keys(decoded) == Keys(init) + [last.key];
      assert Touched(t, decoded) == Touched(t, init) + {KeyOf(t, last.key)};
      (db2, changed + if reported then [last.key] else [])
  }

  /**
   * The groups a merge should report, judged against the store as it was
   * before the merge: a reference definition for `Upsert`'s second result.
   */
  function ExpectedReport(db: Db, policy: NewRecordPolicy, today: string, t: Target, decoded: Dict<Hours>): (gs: seq<string>)
    decreases |decoded|
  {
    if |decoded| == 0 then []
    else
      var last := decoded[|decoded| - 1];
      ExpectedReport(db, policy, today, t, decoded[..|decoded| - 1])
        + if Reported(db, policy, today, t, last.key, last.value) then [last.key] else []
  }

  /** A group is in the expected report exactly when one of its decoded entries is reported. */
  lemma {:induction false} ExpectedReportMembers(db: Db, policy: NewRecordPolicy, today: string, t: Target, decoded: Dict<Hours>, g: string)
    ensures g in ExpectedReport(db, policy, today, t, decoded) <==>
            exists i :: 0 <= i < |decoded| && decoded[i].key == g && Reported(db, policy, today, t, g, decoded[i].value)
    decreases |decoded|
  {
    if |decoded| > 0 {
      var init := decoded[..|decoded| - 1];
      ExpectedReportMembers(db, policy, today, t, init, g);
      if exists i :: 0 <= i < |init| && init[i].key == g && Reported(db, policy, today, t, g, init[i].value) {
        var i :| 0 <= i < |init| && init[i].key == g && Reported(db, policy, today, t, g, init[i].value);
        assert decoded[i] == init[i];
      }
      if exists i :: 0 <= i < |decoded| && decoded[i].key == g && Reported(db, policy, today, t, g, decoded[i].value) {
        var i :| 0 <= i < |decoded| && decoded[i].key == g && Reported(db, policy, today, t, g, decoded[i].value);
        if i < |init| {
          assert init[i] == decoded[i];
        }
      }
    }
  }

  /**
   * With the unique group keys a decoder produces, the reported groups are
   * exactly those whose row was missing (subject to the policy) or held
   * different hours before the merge, in decode order.
   */
  lemma {:induction false} UpsertReports(db: Db, policy: NewRecordPolicy, today: string, t: Target, decoded: Dict<Hours>)
    requires UniqueKeys(decoded)
    ensures Upsert(db, policy, today, t, decoded).1 == ExpectedReport(db, policy, today, t, decoded)
    decreases |decoded|
  {
    if |decoded| > 0 {
      var init := decoded[..|decoded| - 1];
      var last := decoded[|decoded| - 1];
      LastKeyFresh(decoded);
      UpsertReports(db, policy, today, t, init);
      var db1 := Upsert(db, policy, today, t, init).0;
      assert KeyOf(t, last.key) !in Touched(t, init);
      assert (KeyOf(t, last.key) in db1) == (KeyOf(t, last.key) in db);
      assert Reported(db1, policy, today, t, last.key, last.value) == Reported(db, policy, today, t, last.key, last.value);
    }
  }

  /** After the merge, every decoded group's row holds its decoded hours. */
  lemma {:induction false} UpsertWrites(db: Db, policy: NewRecordPolicy, today: string, t: Target, decoded: Dict<Hours>)
    requires UniqueKeys(decoded)
    ensures forall i :: 0 <= i < |decoded| ==>
              Upsert(db, policy, today, t, decoded).0[KeyOf(t, decoded[i].key)].hours == decoded[i].value
    decreases |decoded|
  {
    if |decoded| > 0 {
      var init := decoded[..|decoded| - 1];
      var last := decoded[|decoded| - 1];
      assert UniqueKeys(init);
      UpsertWrites(db, policy, today, t, init);
      var db1 := Upsert(db, policy, today, t, init).0;
      var db2 := Upsert(db, policy, today, t, decoded).0;
      assert db2 == UpsertOne(db1, policy, today, t, last.key, last.value).0;
      forall i | 0 <= i < |decoded|
        ensures db2[KeyOf(t, decoded[i].key)].hours == decoded[i].value
      {
        if i < |decoded| - 1 {
          assert decoded[i] == init[i];
          assert decoded[i].key != last.key;
          assert KeyOf(t, decoded[i].key) != KeyOf(t, last.key);
        }
      }
    }
  }

  predicate NoDuplicates(gs: seq<string>) {
    forall i, j :: 0 <= i < j < |gs| ==> gs[i] != gs[j]
  }

  /** Each group is reported at most once. */
  lemma {:induction false} ReportedOnce(db: Db, policy: NewRecordPolicy, today: string, t: Target, decoded: Dict<Hours>)
    requires UniqueKeys(decoded)
    ensures NoDuplicates(Upsert(db, policy, today, t, decoded).1)
    decreases |decoded|
  {
    if |decoded| > 0 {
      var init := decoded[..|decoded| - 1];
      var last := decoded[|decoded| - 1];
      LastKeyFresh(decoded);
      ReportedOnce(db, policy, today, t, init);
      var db1 := Upsert(db, policy, today, t, init).0;
      var gs1 := Upsert(db, policy, today, t, init).1;
      assert last.key !in gs1;
      var gs := Upsert(db, policy, today, t, decoded).1;
      assert gs == gs1 + if UpsertOne(db1, policy, today, t, last.key, last.value).1 then [last.key] else [];
      forall i, j | 0 <= i < j < |gs| ensures gs[i] != gs[j] {
        if j >= |gs1| {
          assert gs[j] == last.key && gs[i] == gs1[i] && gs1[i] in gs1;
          assert gs1[i] != last.key;
        } else {
          assert gs[j] == gs1[j] && gs[i] == gs1[i];
          assert gs1[i] != gs1[j];
        }
      }
    }
  }
}

=== FILE: text.dfy ===
/**
 * Character classes and string operations that stand for the Python
 * built-ins and regular-expression pieces the bot relies on: `\d`, `\s`,
 * `str.strip`, `str.lower`, `str.split`, substring tests, `f"{n:02d}"`,
 * and `re.search` for fixed-width patterns such as `\d{2}\.\d{2}\.\d{4}`.
 */
module Text {
  import opened Wrappers

  /** Python truthiness of an optional string: present and non-empty. */
  predicate Truthy(s: Option<string>) {
    s.Some? && |s.value| > 0
  }

  /** An ASCII decimal digit, the characters `\d` matches in this model. */
  predicate IsDigit(c: char) {
    '0' <= c <= '9'
  }

  predicate AllDigits(s: string) {
    forall i :: 0 <= i < |s| ==> IsDigit(s[i])
  }

  predicate IsAsciiLetter(c: char) {
    'a' <= c <= 'z' || 'A' <= c <= 'Z'
  }

  /**
   * Python's `str.isspace()`: the characters `\s` matches in a `str`
   * pattern and the ones `str.strip()` removes.
   */
  predicate IsSpace(c: char) {
    || c == ' '
    || '\t' <= c <= '\r'
    || '\U{1C}' <= c <= '\U{1F}'
    || c == '\U{85}'
    || c == '\U{A0}'
    || c == '\U{1680}'
    || '\U{2000}' <= c <= '\U{200A}'
    || c == '\U{2028}'
    || c == '\U{2029}'
    || c == '\U{202F}'
    || c == '\U{205F}'
    || c == '\U{3000}'
  }

  function DigitChar(d: nat): (c: char)
    requires d < 10
    ensures IsDigit(c)
  {
    ('0' as int + d) as char
  }

  function DigitValue(c: char): (d: nat)
    requires IsDigit(c)
    ensures d < 10 && DigitChar(d) == c
  {
    c as int - '0' as int
  }

  /** The number a string of decimal digits denotes, as Python's `int()` reads it. */
  function DigitsValue(s: string): nat
    requires AllDigits(s)
  {
    if |s| == 0 then 0 else DigitsValue(s[..|s| - 1]) * 10 + DigitValue(s[|s| - 1])
  }

  /** Python's `str(n)` for a non-negative integer. */
  function NatToString(n: nat): (s: string)
    ensures |s| > 0 && AllDigits(s)
    ensures s[0] == '0' ==> n == 0
    ensures n < 10 <==> |s| == 1
    ensures 10 <= n < 100 <==> |s| == 2
    decreases n
  {
    if n < 10 then [DigitChar(n)] else NatToString(n / 10) + [DigitChar(n % 10)]
  }

  /** Printing a number and reading it back gives the number. */
  lemma {:induction false} NatToStringRoundTrip(n: nat)
    ensures DigitsValue(NatToString(n)) == n
    decreases n
  {
    if n >= 10 {
      NatToStringRoundTrip(n / 10);
      var s := NatToString(n);
      assert s[..|s| - 1] == NatToString(n / 10);
    }
  }

  /** Python's `f"{n:02d}"`: at least two digits, padded with a leading zero. */
  function Pad2(n: nat): (s: string)
    ensures AllDigits(s) && DigitsValue(s) == n
    ensures n < 100 ==> |s| == 2
    ensures |s| >= 2
  {
    NatToStringRoundTrip(n);
    if n < 10 then
      var s := "0" + NatToString(n);
      assert s[..1] == "0";
      s
    else NatToString(n)
  }

  /** Two numbers below 100 with equal two-digit renderings are equal. */
  lemma Pad2Injective(a: nat, b: nat)
    requires Pad2(a) == Pad2(b)
    ensures a == b
  {
  }

  function LowerChar(c: char): char {
    if 'A' <= c <= 'Z' then (c as int + 32) as char else c
  }

  /** `str.lower()` restricted to the ASCII letters. */
  function Lower(s: string): (r: string)
    ensures |r| == |s|
    ensures forall i :: 0 <= i < |s| ==> r[i] == LowerChar(s[i])
  {
    seq(|s|, i requires 0 <= i < |s| => LowerChar(s[i]))
  }

  predicate StartsWith(s: string, prefix: string) {
    |prefix| <= |s| && s[..|prefix|] == prefix
  }

  /** Python's `s.endswith(suffix)`. */
  predicate EndsWith(s: string, suffix: string) {
    |suffix| <= |s| && s[|s| - |suffix|..] == suffix
  }

  /** Python's `sub in s` on strings. */
  predicate Contains(s: string, sub: string)
    decreases |s|
  {
    StartsWith(s, sub) || (|s| > 0 && Contains(s[1..], sub))
  }

  /** A string that lacks one of the characters of `sub` does not contain `sub`. */
  lemma NotContainsMissingChar(s: string, sub: string, j: nat)
    requires j < |sub| && sub[j] !in s
    ensures !Contains(s, sub)
  {
    ContainsIff(s, sub);
    forall i: nat | i + |sub| <= |s| ensures !OccursAt(s, sub, i) {
      assert s[i..i + |sub|][j] == s[i + j] && s[i + j] in s;
    }
  }

  /** `sub` occurs in `s` at offset `i`. */
  predicate OccursAt(s: string, sub: string, i: nat) {
    i + |sub| <= |s| && s[i..i + |sub|] == sub
  }

  /** Two texts that begin differently cannot both occur at one offset. */
  lemma OccursAtFirstDiffers(s: string, a: string, b: string, i: nat)
    requires OccursAt(s, a, i) && |a| > 0 && |b| > 0 && a[0] != b[0]
    ensures !OccursAt(s, b, i)
  {
    assert s[i..i + |a|][0] == s[i];
  }

  /** `Contains` holds exactly when `sub` occurs at some offset of `s`. */
  lemma {:induction false} ContainsIff(s: string, sub: string)
    ensures Contains(s, sub) <==> exists i: nat :: OccursAt(s, sub, i)
    decreases |s|
  {
    if |s| > 0 {
      ContainsIff(s[1..], sub);
      if !StartsWith(s, sub) {
        forall i: nat | OccursAt(s, sub, i)
          ensures Contains(s[1..], sub)
        {
          assert i != 0;
          assert OccursAt(s[1..], sub, i - 1);
        }
      }
      if Contains(s[1..], sub) && !StartsWith(s, sub) {
        var i: nat :| OccursAt(s[1..], sub, i);
        assert s[1..][i..i + |sub|] == s[i + 1..i + 1 + |sub|];
        assert OccursAt(s, sub, i + 1);
      }
      if StartsWith(s, sub) {
        assert OccursAt(s, sub, 0);
      }
    } else {
      if Contains(s, sub) {
        assert OccursAt(s, sub, 0);
      }
      if exists i: nat :: OccursAt(s, sub, i) {
        var i: nat :| OccursAt(s, sub, i);
        assert StartsWith(s, sub);
      }
    }
  }

  /** First index at or after `from` whose character is not whitespace, or `|s|`. */
  function SkipSpaces(s: string, from: nat): (k: nat)
    requires from <= |s|
    ensures from <= k <= |s|
    ensures forall j :: from <= j < k ==> IsSpace(s[j])
    ensures k < |s| ==> !IsSpace(s[k])
    decreases |s| - from
  {
    if from < |s| && IsSpace(s[from]) then SkipSpaces(s, from + 1) else from
  }

  /** First index at or after `from` whose character is not a digit, or `|s|`. */
  function SkipDigits(s: string, from: nat): (k: nat)
    requires from <= |s|
    ensures from <= k <= |s|
    ensures forall j :: from <= j < k ==> IsDigit(s[j])
    ensures k < |s| ==> !IsDigit(s[k])
    decreases |s| - from
  {
    if from < |s| && IsDigit(s[from]) then SkipDigits(s, from + 1) else from
  }

  /** `r` sits at offset `i` of `s` with only whitespace before and after it. */
  predicate TrimmedAt(s: string, r: string, i: nat) {
    && OccursAt(s, r, i)
    && (forall j :: 0 <= j < i ==> IsSpace(s[j]))
    && (forall j :: i + |r| <= j < |s| ==> IsSpace(s[j]))
  }

  /** Python's `s.strip()`: leading and trailing whitespace removed. */
  function Strip(s: string): (r: string)
    ensures |r| == 0 || (!IsSpace(r[0]) && !IsSpace(r[|r| - 1]))
    ensures exists i: nat :: TrimmedAt(s, r, i)
    ensures forall c :: c in s && !IsSpace(c) ==> c in r
  {
    var lo := SkipSpaces(s, 0);
    var hi := LastNonSpace(s, |s|);
    StripBounds(s, lo, hi);
    if hi <= lo then "" else s[lo..hi]
  }

  /** What cutting `s` to `[lo, hi)` keeps, when only whitespace lies outside. */
  lemma StripBounds(s: string, lo: nat, hi: nat)
    requires lo <= |s| && hi <= |s|
    requires forall j :: 0 <= j < lo ==> IsSpace(s[j])
    requires lo < |s| ==> !IsSpace(s[lo])
    requires forall j :: hi <= j < |s| ==> IsSpace(s[j])
    requires hi > 0 ==> !IsSpace(s[hi - 1])
    ensures var r := if hi <= lo then "" else s[lo..hi];
            && (|r| == 0 || (!IsSpace(r[0]) && !IsSpace(r[|r| - 1])))
            && (exists i: nat :: TrimmedAt(s, r, i))
            && (forall c :: c in s && !IsSpace(c) ==> c in r)
  {
    if hi <= lo {
      StripKeepsNonSpace(s, hi, hi);
      assert s[hi..hi] == "" && OccursAt(s, "", lo);
      assert TrimmedAt(s, "", lo);
    } else {
      StripKeepsNonSpace(s, lo, hi);
      assert TrimmedAt(s, s[lo..hi], lo);
    }
  }

  /**
   * The two facts determine `strip`: a text with no whitespace at either
   * end, sitting in `s` with only whitespace around it, is `Strip(s)`.
   */
  lemma StripUnique(s: string, r: string, i: nat)
    requires |r| == 0 || (!IsSpace(r[0]) && !IsSpace(r[|r| - 1]))
    requires TrimmedAt(s, r, i)
    ensures r == Strip(s)
  {
    var lo := SkipSpaces(s, 0);
    var hi := LastNonSpace(s, |s|);
    if |r| == 0 {
      assert forall j :: 0 <= j < |s| ==> IsSpace(s[j]);
      assert lo == |s|;
    } else {
      assert s[i] == r[0] && s[i + |r| - 1] == r[|r| - 1];
      assert lo == i;
      assert hi == i + |r|;
    }
  }

  /** Cutting only whitespace from both ends keeps every other character. */
  lemma StripKeepsNonSpace(s: string, lo: nat, hi: nat)
    requires lo <= hi <= |s|
    requires forall j :: 0 <= j < lo ==> IsSpace(s[j])
    requires forall j :: hi <= j < |s| ==> IsSpace(s[j])
    ensures forall c :: c in s && !IsSpace(c) ==> c in s[lo..hi]
  {
    forall c | c in s && !IsSpace(c) ensures c in s[lo..hi] {
      var j :| 0 <= j < |s| && s[j] == c;
      assert s[lo..hi][j - lo] == c;
    }
  }

  /** One past the last non-whitespace index below `upTo`, or 0 when there is none. */
  function LastNonSpace(s: string, upTo: nat): (k: nat)
    requires upTo <= |s|
    ensures k <= upTo
    ensures forall j :: k <= j < upTo ==> IsSpace(s[j])
    ensures k > 0 ==> !IsSpace(s[k - 1])
    decreases upTo
  {
    if upTo > 0 && IsSpace(s[upTo - 1]) then LastNonSpace(s, upTo - 1) else upTo
  }

  /** Python's `s.replace(old, new)` for single characters. */
  function ReplaceChar(s: string, oldChar: char, newChar: char): (r: string)
    ensures |r| == |s|
    ensures forall i :: 0 <= i < |s| ==> r[i] == (if s[i] == oldChar then newChar else s[i])
  {
    seq(|s|, i requires 0 <= i < |s| => if s[i] == oldChar then newChar else s[i])
  }

  /** Python's `s.split(sep)` for a one-character separator. */
  function Split(s: string, sep: char): (parts: seq<string>)
    ensures |parts| >= 1
    ensures forall k :: 0 <= k < |parts| ==> sep !in parts[k]
    decreases |s|
  {
    if |s| == 0 then [""]
    else
      var rest := Split(s[1..], sep);
      if s[0] == sep then [""] + rest
      else [[s[0]] + rest[0]] + rest[1..]
  }

  /** Python's `sep.join(parts)`. */
  function Join(parts: seq<string>, sep: string): string
    decreases |parts|
  {
    if |parts| == 0 then ""
    else if |parts| == 1 then parts[0]
    else parts[0] + sep + Join(parts[1..], sep)
  }

  /** A join of non-empty lists starts with its first part. */
  lemma {:induction false} JoinStartsWithFirst(parts: seq<string>, sep: string)
    requires |parts| > 0
    ensures |Join(parts, sep)| >= |parts[0]| && Join(parts, sep)[..|parts[0]|] == parts[0]
  {
    if |parts| > 1 {
      assert Join(parts, sep) == parts[0] + (sep + Join(parts[1..], sep));
    }
  }

  /** Joining parts free of the separator and splitting again gives back the parts. */
  lemma {:induction false} JoinSplit(parts: seq<string>, sep: char)
    requires |parts| > 0
    requires forall k :: 0 <= k < |parts| ==> sep !in parts[k]
    ensures Split(Join(parts, [sep]), sep) == parts
    decreases |parts|
  {
    if |parts| == 1 {
      SplitWithoutSeparator(parts[0], sep);
    } else {
      var rest := parts[1..];
      JoinSplit(rest, sep);
      assert Join(parts, [sep]) == parts[0] + [sep] + Join(rest, [sep]);
      SplitAfterSeparator(parts[0], sep, Join(rest, [sep]));
      assert parts == [parts[0]] + rest;
    }
  }

  /** Splitting and re-joining with the same separator gives back the input. */
  lemma {:induction false} SplitJoin(s: string, sep: char)
    ensures Join(Split(s, sep), [sep]) == s
    decreases |s|
  {
    if |s| > 0 {
      SplitJoin(s[1..], sep);
      var rest := Split(s[1..], sep);
      if s[0] == sep {
        assert Join([""] + rest, [sep]) == "" + [sep] + Join(rest, [sep]);
      } else {
        var parts := [[s[0]] + rest[0]] + rest[1..];
        if |rest| == 1 {
          assert Join(parts, [sep]) == [s[0]] + rest[0];
        } else {
          assert parts[1..] == rest[1..];
          assert Join(parts, [sep]) == [s[0]] + rest[0] + [sep] + Join(rest[1..], [sep]);
        }
      }
    }
  }

  /** A part free of the separator, followed by the separator, is split off whole. */
  lemma {:induction false} SplitAfterSeparator(a: string, sep: char, b: string)
    requires sep !in a
    ensures Split(a + [sep] + b, sep) == [a] + Split(b, sep)
    decreases |a|
  {
    if |a| == 0 {
      assert a + [sep] + b == [sep] + b;
      assert ([sep] + b)[1..] == b;
    } else {
      SplitAfterSeparator(a[1..], sep, b);
      assert (a + [sep] + b)[1..] == a[1..] + [sep] + b;
      assert [a[0]] + a[1..] == a;
    }
  }

  /** A string without the separator splits into itself alone. */
  lemma {:induction false} SplitWithoutSeparator(a: string, sep: char)
    requires sep !in a
    ensures Split(a, sep) == [a]
    decreases |a|
  {
    if |a| > 0 {
      SplitWithoutSeparator(a[1..], sep);
      assert [a[0]] + a[1..] == a;
    }
  }

  /** One position of a fixed-width pattern: `\d` or a literal character. */
  datatype CharClass = AnyDigit | Exactly(c: char)

  /** A regular expression made of single-character classes only, such as `\d{2}:\d{2}`. */
  type Pattern = seq<CharClass>

  predicate ClassMatches(k: CharClass, c: char) {
    match k
    case AnyDigit => IsDigit(c)
    case Exactly(d) => c == d
  }

  /** The pattern matches the characters of `s` starting at offset `i`. */
  predicate MatchesAt(s: string, i: nat, p: Pattern) {
    i + |p| <= |s| && forall j :: 0 <= j < |p| ==> ClassMatches(p[j], s[i + j])
  }

  /** A `\d` position of a match holds a digit. */
  lemma DigitAt(s: string, i: nat, p: Pattern, j: nat)
    requires MatchesAt(s, i, p) && j < |p| && p[j] == AnyDigit
    ensures IsDigit(s[i + j])
  {
    assert ClassMatches(p[j], s[i + j]);
  }

  /** `re.search` for a fixed-width pattern: the leftmost match at or after `from`. */
  function SearchFrom(s: string, p: Pattern, from: nat): (r: Option<nat>)
    ensures r.Some? ==> from <= r.value && MatchesAt(s, r.value, p)
    ensures r.Some? ==> forall j :: from <= j < r.value ==> !MatchesAt(s, j, p)
    ensures r.None? ==> forall j :: from <= j ==> !MatchesAt(s, j, p)
    decreases |s| - from
  {
    if from + |p| > |s| then None
    else if MatchesAt(s, from, p) then Some(from)
    else SearchFrom(s, p, from + 1)
  }

  /** The text of the leftmost match of `p` in `s`, as `re.search(p, s).group(0)`. */
  function FindFirst(s: string, p: Pattern): (r: Option<string>)
    ensures r.Some? ==> exists i: nat :: && MatchesAt(s, i, p) && r.value == s[i..i + |p|]
                                         && forall j: nat :: j < i ==> !MatchesAt(s, j, p)
    ensures r.None? <==> forall j: nat :: !MatchesAt(s, j, p)
  {
    match SearchFrom(s, p, 0)
    case None => None
    case Some(i) => Some(s[i..i + |p|])
  }

  /** The characters a matched text holds agree with its pattern. */
  lemma MatchedText(s: string, i: nat, p: Pattern)
    requires MatchesAt(s, i, p)
    ensures MatchesAt(s[i..i + |p|], 0, p)
  {
    var t := s[i..i + |p|];
    forall j | 0 <= j < |p| ensures ClassMatches(p[j], t[j]) {
      assert t[j] == s[i + j];
    }
  }

  /** No position of `p` accepts `c`. */
  predicate PatternRejects(p: Pattern, c: char) {
    forall j :: 0 <= j < |p| ==> !ClassMatches(p[j], c)
  }

  /**
   * Replacing a character the pattern can never match by another such
   * character does not move or change the leftmost match.
   */
  lemma SearchIgnoresReplace(s: string, oldChar: char, newChar: char, p: Pattern, from: nat)
    requires PatternRejects(p, oldChar) && PatternRejects(p, newChar)
    ensures SearchFrom(ReplaceChar(s, oldChar, newChar), p, from) == SearchFrom(s, p, from)
    ensures forall i: nat :: MatchesAt(s, i, p) ==>
              ReplaceChar(s, oldChar, newChar)[i..i + |p|] == s[i..i + |p|]
  {
    var t := ReplaceChar(s, oldChar, newChar);
    ReplaceKeepsMatches(s, oldChar, newChar, p);
    SearchAgrees(s, t, p, from);
    forall i: nat | MatchesAt(s, i, p) ensures t[i..i + |p|] == s[i..i + |p|] {
      forall k | i <= k < i + |p| ensures t[k] == s[k] {
        assert ClassMatches(p[k - i], s[i + (k - i)]);
      }
    }
  }

  /** A pattern matches the replaced text exactly where it matches the original. */
  lemma ReplaceKeepsMatches(s: string, oldChar: char, newChar: char, p: Pattern)
    requires PatternRejects(p, oldChar) && PatternRejects(p, newChar)
    ensures forall i: nat :: MatchesAt(ReplaceChar(s, oldChar, newChar), i, p) <==> MatchesAt(s, i, p)
  {
    var t := ReplaceChar(s, oldChar, newChar);
    forall i: nat ensures MatchesAt(t, i, p) <==> MatchesAt(s, i, p) {
      if i + |p| <= |s| {
        forall j | 0 <= j < |p| ensures ClassMatches(p[j], t[i + j]) <==> ClassMatches(p[j], s[i + j]) {
          if s[i + j] == oldChar {
            assert !ClassMatches(p[j], oldChar) && !ClassMatches(p[j], newChar);
          }
        }
      }
    }
  }

  /** Two texts of one length with the same match offsets have the same leftmost match. */
  lemma {:induction false} SearchAgrees(s: string, t: string, p: Pattern, from: nat)
    requires |t| == |s| && forall i: nat :: MatchesAt(t, i, p) <==> MatchesAt(s, i, p)
    ensures SearchFrom(t, p, from) == SearchFrom(s, p, from)
    decreases |s| - from
  {
    if from + |p| <= |s| && !MatchesAt(s, from, p) {
      SearchAgrees(s, t, p, from + 1);
    }
  }
}

=== FILE: validators.dfy ===
/**
 * Input validation: the group-code check `^(\d+\.\d+|\d+)$` and the
 * character filter applied to free text.
 */
module Validators {
  import opened Wrappers
  import opened Text
  import opened Seqs
  import Grid
  import LvivParser

  /** A group code: digits, or digits, a dot and digits. */
  predicate GroupShape(s: string) {
    || (|s| > 0 && AllDigits(s))
    || exists k :: 0 < k < |s| - 1 && s[k] == '.' && AllDigits(s[..k]) && AllDigits(s[k + 1..])
  }

  /** The match of the pattern against the whole of `s`, scanned left to right. */
  function ScanGroup(s: string): (ok: bool) {
    var i := SkipDigits(s, 0);
    if i == 0 then false
    else if i == |s| then true
    else if s[i] != '.' then false
    else
      var j := SkipDigits(s, i + 1);
      j > i + 1 && j == |s|
  }

  /** The scan accepts exactly the group codes. */
  lemma ScanGroupIff(s: string)
    ensures ScanGroup(s) <==> GroupShape(s)
  {
    var i := SkipDigits(s, 0);
    if ScanGroup(s) {
      if i < |s| {
        assert AllDigits(s[..i]) && AllDigits(s[i + 1..]);
      } else {
        assert s == s[..i];
      }
    }
    if GroupShape(s) {
      GroupShapeScans(s);
    }
  }

  /** A group code passes the scan: the digit runs end exactly at the dot and at the end. */
  lemma GroupShapeScans(s: string)
    requires GroupShape(s)
    ensures ScanGroup(s)
  {
    var i := SkipDigits(s, 0);
    if |s| > 0 && AllDigits(s) {
      assert i == |s|;
    } else {
      var k :| 0 < k < |s| - 1 && s[k] == '.' && AllDigits(s[..k]) && AllDigits(s[k + 1..]);
      forall j | 0 <= j < k ensures IsDigit(s[j]) {
        assert s[..k][j] == s[j];
      }
      assert i == k;
      forall j | k + 1 <= j < |s| ensures IsDigit(s[j]) {
        assert s[k + 1..][j - k - 1] == s[j];
      }
      assert SkipDigits(s, k + 1) == |s|;
    }
  }

  /**
   * `is_valid_group`: `re.match` with a final `$`, which also matches just
   * before a trailing newline, so a code followed by one "\n" passes.
   */
  function IsValidGroup(g: string): (ok: bool)
    ensures ok <==> GroupShape(g) || (|g| > 0 && g[|g| - 1] == '\n' && GroupShape(g[..|g| - 1]))
  {
    ScanGroupIff(g);
    if ScanGroup(g) then true
    else if |g| > 0 && g[|g| - 1] == '\n' then
      ScanGroupIff(g[..|g| - 1]);
      ScanGroup(g[..|g| - 1])
    else false
  }

  /** The accepted and rejected codes the handlers rely on, and the trailing-newline case. */
  lemma IsValidGroupExamples()
    ensures IsValidGroup("1.1") && IsValidGroup("3") && IsValidGroup("12.2") && IsValidGroup("1.1\n")
    ensures !IsValidGroup("") && !IsValidGroup("1.") && !IsValidGroup(".1") && !IsValidGroup("1.1.1") && !IsValidGroup("a")
  {
    ScanGroupIff("1.1");
    ScanGroupIff("3");
    ScanGroupIff("12.2");
    ScanGroupIff("1.");
    ScanGroupIff(".1");
    ScanGroupIff("1.1.1");
    ScanGroupIff("a");
    assert "1.1\n"[..3] == "1.1";
  }

  /** Every group code the decoders produce passes the check. */
  lemma DecodedGroupsAreValid(row: nat, s: string, i: nat)
    requires row < Grid.GroupRows
    ensures IsValidGroup(Grid.GroupName(row))
    ensures LvivParser.GroupIdAt(s, i).Some? ==> IsValidGroup(LvivParser.GroupIdAt(s, i).value)
  {
    Grid.GroupNameShape(row);
    var g := Grid.GroupName(row);
    assert g[..1] == [g[0]] && g[2..] == [g[2]];
    assert 0 < 1 < |g| - 1 && g[1] == '.' && AllDigits(g[..1]) && AllDigits(g[2..]);
  }

  /** The characters `[a-zA-Z0-9\.\-\s]` that survive the filter. */
  predicate Allowed(c: char) {
    IsAsciiLetter(c) || ('0' <= c <= '9') || c == '.' || c == '-' || IsSpace(c)
  }

  /**
   * `re.sub(r"[^a-zA-Z0-9\.\-\s]", "", s)`: the disallowed characters are
   * deleted and every allowed one stays, in its place in the order.
   */
  function Filter(s: string): (r: string)
    ensures forall i :: 0 <= i < |r| ==> Allowed(r[i])
    ensures IsSubsequence(r, s)
    ensures forall c :: multiset(r)[c] == if Allowed(c) then multiset(s)[c] else 0
  {
    FilterByIsSubsequence(s, Allowed);
    FilterByCount(s, Allowed);
    FilterBy(s, Allowed)
  }

  /** `sanitize_input`: `None` and "" give ""; otherwise the filtered text. */
  function SanitizeInput(text: Option<string>): (r: string)
    ensures !Truthy(text) ==> r == ""
    ensures forall i :: 0 <= i < |r| ==> Allowed(r[i])
    ensures Truthy(text) ==> IsSubsequence(r, text.value)
    ensures Truthy(text) ==> forall c :: multiset(r)[c] == if Allowed(c) then multiset(text.value)[c] else 0
  {
    if !Truthy(text) then "" else Filter(text.value)
  }

  /** Filtering a concatenation filters each part, so no disallowed character cuts the text short. */
  lemma FilterConcat(a: string, b: string)
    ensures Filter(a + b) == Filter(a) + Filter(b)
  {
    FilterByConcat(a, b, Allowed);
  }

  /** The filter is the only subsequence with its character counts. */
  lemma FilterDetermined(s: string, r: string)
    requires IsSubsequence(r, s)
    requires forall c :: multiset(r)[c] == if Allowed(c) then multiset(s)[c] else 0
    ensures r == Filter(s)
  {
    FilterByUnique(s, Allowed, r);
  }

  /** The filter leaves a string alone exactly when all its characters are allowed. */
  lemma FilterFixedPoints(s: string)
    ensures Filter(s) == s <==> forall i :: 0 <= i < |s| ==> Allowed(s[i])
  {
    FilterByFixedPoints(s, Allowed);
  }

  /** Sanitising twice is sanitising once. */
  lemma SanitizeIdempotent(text: Option<string>)
    ensures SanitizeInput(Some(SanitizeInput(text))) == SanitizeInput(text)
  {
    var r := SanitizeInput(text);
    FilterFixedPoints(r);
  }

  /** Text made only of allowed characters comes back unchanged, and the output is a subsequence of the input. */
  lemma SanitizeKeeps(text: string)
    ensures (forall i :: 0 <= i < |text| ==> Allowed(text[i])) ==> SanitizeInput(Some(text)) == text
    ensures IsSubsequence(SanitizeInput(Some(text)), text)
  {
    FilterFixedPoints(text);
  }
}

=== FILE: volyn_parser.dfy ===
/**
 * The Volyn image parser: the grid calibration with fractional steps
 * 66.0 and 60.5, and the date and time read from the OCR text of the
 * picture's caption.
 */
module VolynParser {
  import opened Wrappers
  import opened Text
  import opened Slots
  import opened Dict
  import Grid

  /** Table origins (205, 447) and (205, 1337); steps 66.0 = 132/2 and 60.5 = 121/2. */
  const Calibration: Grid.Layout := Grid.Layout(205, 447, 205, 1337, 132, 121, 2)

  /** `\d{2}\.\d{2}\.\d{4}` */
  const DatePattern: Pattern := [AnyDigit, AnyDigit, Exactly('.'), AnyDigit, AnyDigit, Exactly('.'),
                                 AnyDigit, AnyDigit, AnyDigit, AnyDigit]

  /** `\d{2}:\d{2}` */
  const TimePattern: Pattern := [AnyDigit, AnyDigit, Exactly(':'), AnyDigit, AnyDigit]

  /**
   * `parse_image`: `None` for an undecodable image, otherwise twelve rows of 48 slots.
   * The source repeats this function in two files; it differs from `ImageParser.ParseImage`
   * only in the layout constants of `Calibration`.
   */
  function ParseImage(img: Option<Grid.Image>): (r: Option<Dict<seq<Slot>>>)
    ensures r.None? <==> img.None?
    ensures r.Some? ==> Keys(r.value) == Grid.GroupNames() && UniqueKeys(r.value)
    ensures r.Some? ==> forall row :: 0 <= row < |r.value| ==> |r.value[row].value| == SlotsPerDay
    ensures r.Some? ==> forall row, col :: 0 <= row < Grid.GroupRows && 0 <= col < SlotsPerDay ==>
              r.value[row].value[col] == Grid.Classify(img.value, Grid.SamplePoint(Calibration, row, col))
  {
    Grid.DecodeGrid(Calibration, img)
  }

  /**
   * The sample point of row `row` and half-hour `col`: `x = 205 + 66 * c`
   * for the local column `c`, and `y = int(origin + row * 60.5)`.
   */
  lemma SampleCoordinates(row: nat, col: nat)
    requires col < SlotsPerDay
    ensures var pt := Grid.SamplePoint(Calibration, row, col);
            var origin := if col < 24 then 447 else 1337;
            var local := if col < 24 then col else col - 24;
            && pt.x == 205 + 66 * local
            && (pt.y as real) <= (origin as real) + (row as real) * 60.5 < (pt.y as real) + 1.0
  {
    Grid.SamplePointIsFloor(Calibration, row, col);
  }

  /** What the OCR step recovered from the caption. */
  datatype OcrInfo = OcrInfo(date: Option<string>, time: Option<string>)

  /**
   * The regular-expression half of `get_info_from_image`. `ocrText` is
   * what Tesseract read from the caption area, or `None` when opening,
   * cropping or recognising the image raised.
   */
  function InfoFromImage(ocrText: Option<string>): (r: OcrInfo)
    ensures ocrText.None? ==> r == OcrInfo(None, None)
    ensures ocrText.Some? ==> r.date == FindFirst(ocrText.value, DatePattern)
    ensures ocrText.Some? ==> r.time == FindFirst(ocrText.value, TimePattern)
  {
    match ocrText
    case None => OcrInfo(None, None)
    case Some(raw) =>
      var text := ReplaceChar(raw, '\n', ' ');
      SearchIgnoresReplace(raw, '\n', ' ', DatePattern, 0);
      SearchIgnoresReplace(raw, '\n', ' ', TimePattern, 0);
      OcrInfo(FindFirst(text, DatePattern), FindFirst(text, TimePattern))
  }

  /** A recovered date is ten characters `DD.MM.YYYY`; a recovered time is `HH:MM`. */
  lemma InfoShape(ocrText: Option<string>)
    ensures var info := InfoFromImage(ocrText);
            && (info.date.Some? ==> MatchesAt(info.date.value, 0, DatePattern) && |info.date.value| == 10)
            && (info.time.Some? ==> MatchesAt(info.time.value, 0, TimePattern) && |info.time.value| == 5)
  {
    var info := InfoFromImage(ocrText);
    if info.date.Some? {
      var i: nat :| MatchesAt(ocrText.value, i, DatePattern) && info.date.value == ocrText.value[i..i + 10];
      MatchedText(ocrText.value, i, DatePattern);
    }
    if info.time.Some? {
      var i: nat :| MatchesAt(ocrText.value, i, TimePattern) && info.time.value == ocrText.value[i..i + 5];
      MatchedText(ocrText.value, i, TimePattern);
    }
  }
}

=== FILE: volyn_worker.dfy ===
/**
 * The Volyn worker: choosing the schedule picture among the page's images,
 * and merging a decoded picture into the store. The browser session, the
 * download and the OCR and image libraries stay outside; what they hand
 * over is a parameter.
 */
module VolynWorker {
  import opened Wrappers
  import opened Text
  import opened Slots
  import opened Dict
  import opened Store
  import Grid
  import VolynParser

  const Region: string := "volyn"

  /**
   * A downloaded picture as the foreign libraries see it: the OCR text of
   * its caption (`None` when OCR raised) and the decoded pixels (`None`
   * when the bytes are not an image).
   */
  datatype Picture = Picture(ocrText: Option<string>, image: Option<Grid.Image>)

  /** `d, m, y = ocr_date_str.split('.')` and `f"{y}-{m}-{d}"`; today when there is no date or it does not split in three. */
  function TargetDate(ocrDate: Option<string>, today: string): (d: string)
    ensures !Truthy(ocrDate) ==> d == today
    ensures Truthy(ocrDate) && |Split(ocrDate.value, '.')| != 3 ==> d == today
  {
    if !Truthy(ocrDate) then today
    else
      var parts := Split(ocrDate.value, '.');
      if |parts| == 3 then parts[2] + "-" + parts[1] + "-" + parts[0] else today
  }

  /** The caption's time, or the current `HH:MM` when OCR found none. */
  function SiteTime(ocrTime: Option<string>, clock: Clock): (t: string)
    ensures Truthy(ocrTime) ==> t == ocrTime.value
    ensures !Truthy(ocrTime) ==> t == clock.time
  {
    if Truthy(ocrTime) then ocrTime.value else clock.time
  }

  /** A `DD.MM.YYYY` date splits at its two dots. */
  lemma DateSplit(d: string)
    requires MatchesAt(d, 0, VolynParser.DatePattern) && |d| == 10
    ensures Split(d, '.') == [d[..2], d[3..5], d[6..]]
  {
    forall j | 0 <= j < 10 ensures ClassMatches(VolynParser.DatePattern[j], d[j]) {
      assert ClassMatches(VolynParser.DatePattern[j], d[0 + j]);
    }
    assert d == d[..2] + ['.'] + (d[3..5] + ['.'] + d[6..]);
    SplitAfterSeparator(d[..2], '.', d[3..5] + ['.'] + d[6..]);
    SplitAfterSeparator(d[3..5], '.', d[6..]);
    SplitWithoutSeparator(d[6..], '.');
  }

  /** A caption date `DD.MM.YYYY` becomes the target date `YYYY-MM-DD`. */
  lemma OcrDateReordered(ocrText: Option<string>, today: string)
    requires VolynParser.InfoFromImage(ocrText).date.Some?
    ensures var d := VolynParser.InfoFromImage(ocrText).date.value;
            TargetDate(Some(d), today) == d[6..10] + "-" + d[3..5] + "-" + d[..2]
  {
    VolynParser.InfoShape(ocrText);
    var d := VolynParser.InfoFromImage(ocrText).date.value;
    DateWellFormed(d, today);
  }

  /** A well-formed `DD.MM.YYYY` date is reordered to `YYYY-MM-DD`. */
  lemma DateWellFormed(d: string, today: string)
    requires MatchesAt(d, 0, VolynParser.DatePattern) && |d| == 10
    ensures TargetDate(Some(d), today) == d[6..10] + "-" + d[3..5] + "-" + d[..2]
  {
    DateSplit(d);
    assert d[6..] == d[6..10];
  }

  /** Where this run writes: the target date, the region and the site time. */
  function Stamp(info: VolynParser.OcrInfo, clock: Clock): Target {
    Target(TargetDate(info.date, clock.today), Region, SiteTime(info.time, clock))
  }

  /** A decoded picture's rows as stored hours, keys and order kept. */
  function AsHours(d: Dict<seq<Slot>>): (r: Dict<Hours>)
    ensures |r| == |d| && Keys(r) == Keys(d)
    ensures forall i :: 0 <= i < |d| ==> r[i] == Entry(d[i].key, HalfHourly(d[i].value))
  {
    var r := seq(|d|, i requires 0 <= i < |d| => Entry(d[i].key, HalfHourly(d[i].value)));
    assert Keys(r) == Keys(d);
    r
  }

  /**
   * `run_update` after the download: `fetched` is `None` when no bytes came
   * back. A picture that does not decode changes nothing; otherwise the
   * twelve groups are merged, a new row counting as a change only for today.
   */
  function RunUpdate(db: Db, clock: Clock, fetched: Option<Picture>): (r: (Db, seq<string>))
    ensures fetched.None? || fetched.value.image.None? ==> r == (db, [])
    ensures fetched.Some? && fetched.value.image.Some? ==>
              var t := Stamp(VolynParser.InfoFromImage(fetched.value.ocrText), clock);
              r.0.Keys == db.Keys + Touched(t, AsHours(VolynParser.ParseImage(fetched.value.image).value))
    ensures forall g :: g in r.1 ==> g in Grid.GroupNames()
  {
    match fetched
    case None => (db, [])
    case Some(pic) =>
      var info := VolynParser.InfoFromImage(pic.ocrText);
      match VolynParser.ParseImage(pic.image)
      case None => (db, [])
      case Some(schedule) =>
        Upsert(db, ReportWhenToday, clock.today, Stamp(info, clock), AsHours(schedule))
  }

  /**
   * After a decoded picture, every group "1.1" .. "6.2" has a row at the
   * target date holding its 48 decoded slots, and no other row changed.
   */
  lemma RunUpdateWrites(db: Db, clock: Clock, pic: Picture)
    requires pic.image.Some?
    ensures var t := Stamp(VolynParser.InfoFromImage(pic.ocrText), clock);
            var db' := RunUpdate(db, clock, Some(pic)).0;
            forall row :: 0 <= row < Grid.GroupRows ==>
              var k := Key(t.date, Region, Grid.GroupName(row));
              && k in db'
              && db'[k].hours.HalfHourly?
              && |db'[k].hours.slots| == SlotsPerDay
              && db'[k].hours.slots == VolynParser.ParseImage(pic.image).value[row].value
    ensures var t := Stamp(VolynParser.InfoFromImage(pic.ocrText), clock);
            var db' := RunUpdate(db, clock, Some(pic)).0;
            forall k :: k in db && (k.date != t.date || k.region != Region || k.group !in Grid.GroupNames()) ==>
              db'[k] == db[k]
  {
    var t := Stamp(VolynParser.InfoFromImage(pic.ocrText), clock);
    var schedule := VolynParser.ParseImage(pic.image).value;
    var decoded := AsHours(schedule);
    assert UniqueKeys(decoded) by {
      forall i, j | 0 <= i < j < |decoded| ensures decoded[i].key != decoded[j].key {
        assert Keys(decoded)[i] == Keys(schedule)[i] && Keys(decoded)[j] == Keys(schedule)[j];
      }
    }
    UpsertWrites(db, ReportWhenToday, clock.today, t, decoded);
    forall row | 0 <= row < Grid.GroupRows
      ensures KeyOf(t, decoded[row].key) == Key(t.date, Region, Grid.GroupName(row))
    {
      assert Keys(decoded)[row] == Grid.GroupNames()[row];
    }
  }

  /**
   * The reported groups are those whose row was missing (when the target
   * date is today) or held other slots before the run, in row order, each once.
   */
  lemma RunUpdateReports(db: Db, clock: Clock, pic: Picture)
    requires pic.image.Some?
    ensures var t := Stamp(VolynParser.InfoFromImage(pic.ocrText), clock);
            var decoded := AsHours(VolynParser.ParseImage(pic.image).value);
            RunUpdate(db, clock, Some(pic)).1 == ExpectedReport(db, ReportWhenToday, clock.today, t, decoded)
    ensures NoDuplicates(RunUpdate(db, clock, Some(pic)).1)
  {
    var t := Stamp(VolynParser.InfoFromImage(pic.ocrText), clock);
    var schedule := VolynParser.ParseImage(pic.image).value;
    var decoded := AsHours(schedule);
    assert UniqueKeys(decoded) by {
      forall i, j | 0 <= i < j < |decoded| ensures decoded[i].key != decoded[j].key {
        assert Keys(decoded)[i] == Keys(schedule)[i] && Keys(decoded)[j] == Keys(schedule)[j];
      }
    }
    UpsertReports(db, ReportWhenToday, clock.today, t, decoded);
    ReportedOnce(db, ReportWhenToday, clock.today, t, decoded);
  }

  /** Where an `<img>` was found: in the page itself or inside an `<iframe>`. */
  datatype Scope = Page | Frame

  /**
   * The keyword test on an image's `src`: "GPV", or "grafik" in any case,
   * or (in the page itself only) "uploads".
   */
  predicate Picks(scope: Scope, src: Option<string>) {
    && Truthy(src)
    && (|| Contains(src.value, "GPV")
        || Contains(Lower(src.value), "grafik")
        || (scope == Page && Contains(src.value, "uploads")))
  }

  /**
   * The first `src` of `srcs` that the test picks. A `src` whose lookup
   * raised is `None` and is skipped.
   */
  function FirstMatch(scope: Scope, srcs: seq<Option<string>>): (r: Option<string>)
    ensures r.Some? ==> exists i :: 0 <= i < |srcs| && srcs[i] == r && Picks(scope, srcs[i])
                          && forall j :: 0 <= j < i ==> !Picks(scope, srcs[j])
    ensures r.None? <==> forall i :: 0 <= i < |srcs| ==> !Picks(scope, srcs[i])
    decreases |srcs|
  {
    if |srcs| == 0 then None
    else if Picks(scope, srcs[0]) then srcs[0]
    else
      var r := FirstMatch(scope, srcs[1..]);
      assert forall i :: 1 <= i < |srcs| ==> srcs[i] == srcs[1..][i - 1];
      r
  }

  /** The frames in order, each searched with the frame test, stopping at the first hit. */
  function FirstInFrames(frames: seq<seq<Option<string>>>): Option<string>
    decreases |frames|
  {
    if |frames| == 0 then None
    else if FirstMatch(Frame, frames[0]).Some? then FirstMatch(Frame, frames[0])
    else FirstInFrames(frames[1..])
  }

  /**
   * The picture URL `download_original_image` settles on: the page's own
   * images first; the frames only when none of those matched. A frame whose
   * switch failed contributes the images seen before the failure.
   */
  function FindImageUrl(page: seq<Option<string>>, frames: seq<seq<Option<string>>>): Option<string> {
    var top := FirstMatch(Page, page);
    if top.Some? then top else FirstInFrames(frames)
  }

  /** Every image tagged with where it was found, page first, then the frames in order. */
  function Candidates(page: seq<Option<string>>, frames: seq<seq<Option<string>>>): seq<(Scope, Option<string>)> {
    Tagged(Page, page) + Tagged(Frame, Flatten(frames))
  }

  function Tagged(scope: Scope, srcs: seq<Option<string>>): (r: seq<(Scope, Option<string>)>)
    ensures |r| == |srcs| && forall i :: 0 <= i < |srcs| ==> r[i] == (scope, srcs[i])
  {
    seq(|srcs|, i requires 0 <= i < |srcs| => (scope, srcs[i]))
  }

  function Flatten(frames: seq<seq<Option<string>>>): seq<Option<string>>
    decreases |frames|
  {
    if |frames| == 0 then [] else frames[0] + Flatten(frames[1..])
  }

  /** The first candidate its own scope's test picks: a reference for the search order. */
  function FirstCandidate(cands: seq<(Scope, Option<string>)>): Option<string>
    decreases |cands|
  {
    if |cands| == 0 then None
    else if Picks(cands[0].0, cands[0].1) then cands[0].1
    else FirstCandidate(cands[1..])
  }

  lemma {:induction false} FirstCandidateAppend(a: seq<(Scope, Option<string>)>, b: seq<(Scope, Option<string>)>)
    ensures FirstCandidate(a + b) == if FirstCandidate(a).Some? then FirstCandidate(a) else FirstCandidate(b)
    decreases |a|
  {
    if |a| > 0 {
      assert (a + b)[1..] == a[1..] + b;
      FirstCandidateAppend(a[1..], b);
    } else {
      assert a + b == b;
    }
  }

  lemma {:induction false} FirstCandidateTagged(scope: Scope, srcs: seq<Option<string>>)
    ensures FirstCandidate(Tagged(scope, srcs)) == FirstMatch(scope, srcs)
    decreases |srcs|
  {
    if |srcs| > 0 {
      assert Tagged(scope, srcs)[1..] == Tagged(scope, srcs[1..]);
      FirstCandidateTagged(scope, srcs[1..]);
    }
  }

  lemma {:induction false} FirstMatchAppend(scope: Scope, a: seq<Option<string>>, b: seq<Option<string>>)
    ensures FirstMatch(scope, a + b) == if FirstMatch(scope, a).Some? then FirstMatch(scope, a) else FirstMatch(scope, b)
    decreases |a|
  {
    if |a| > 0 {
      assert (a + b)[1..] == a[1..] + b;
      FirstMatchAppend(scope, a[1..], b);
    } else {
      assert a + b == b;
    }
  }

  /** Searching the frames one by one is searching all their images in one list. */
  lemma {:induction false} FramesAsOneList(frames: seq<seq<Option<string>>>)
    ensures FirstInFrames(frames) == FirstMatch(Frame, Flatten(frames))
    decreases |frames|
  {
    if |frames| > 0 {
      FramesAsOneList(frames[1..]);
      FirstMatchAppend(Frame, frames[0], Flatten(frames[1..]));
    }
  }

  /**
   * The search order: the chosen URL is the first image, page images before
   * frame images and frames in order, that the test for its place picks.
   */
  lemma SearchOrder(page: seq<Option<string>>, frames: seq<seq<Option<string>>>)
    ensures FindImageUrl(page, frames) == FirstCandidate(Candidates(page, frames))
  {
    FirstCandidateAppend(Tagged(Page, page), Tagged(Frame, Flatten(frames)));
    FirstCandidateTagged(Page, page);
    FirstCandidateTagged(Frame, Flatten(frames));
    FramesAsOneList(frames);
  }

  /** "uploads" alone selects an image on the page but never inside a frame. */
  lemma UploadsOnlyOnPage(src: string)
    requires Contains(src, "uploads") && !Contains(src, "GPV") && !Contains(Lower(src), "grafik")
    ensures Picks(Page, Some(src)) && !Picks(Frame, Some(src))
  {
    ContainsIff(src, "uploads");
  }
}

=== FILE: wrappers.dfy ===
/** The optional value used wherever the bot's Python code returns `None`. */
module Wrappers {

  datatype Option<+T> = None | Some(value: T) {

    /** Returns the carried value, or `default` when there is none. */
    function GetOr(default: T): T {
      match this
      case Some(v) => v
      case None => default
    }
  }
}
